=== FILE: README.md ===
# JuneCore in Dafny

A Dafny model of the sequential, deterministic core of JuneCore, a Unity
toolkit written in C#. The model has four parts.

- **Job manager.** `Job` wraps a resumable work unit. It has running, paused
  and killed flags, a stack of child jobs drained last-in first-out when the
  work runs out, a completion event and a registry of live jobs.
  `Dispatcher` is a main-thread action queue pumped one action per frame,
  behind an initialise-first guard.
  - The work unit is a finite sequence of opaque tokens.
  - One frame of the engine's coroutine scheduler is the function
    `Jobs.Tick`.
- **Utilities.** The hand-written list combinators of `Util.Linq`, plus
  `Util`'s:
  - median;
  - title case;
  - pair-string serialisation;
  - Unix timestamps over .NET ticks;
  - dictionary conversion;
  - numeric type test.
- **JSON document models.** A JSON document is a `map<string, Value>`.
  - `BaseModel`: typed getters with default-on-missing rules, and `Set`.
  - The `IBaseList` / `BaseList<T>` pair, which keeps models and raw records
    in step.
  - The array-backed `BaseCollection`, with its sorted variant.
  - The plain `BaseList<T>` wrapper.
  - `BaseConfig`, including the aliasing between its item list and the
    array stored under its root key.
- **Editor tooling as pure string logic.**
  - The `RichText` tag-stack builder.
  - The `BUILD_SYMBOLS` string of the build window.
  - The HTML build-report helpers.
  - The line-wise `JuneAssert.FileContains`.
  - The `grep` output parser `JuneEditorUtils.FindReferences`.
  - The build validator: target flags, item selection, ordering, counts and
    the halt-on-first-failure loop.

## How the C# is rendered

- **Exceptions.** A thrown exception is the `Fail` branch of
  `Wrappers.Result`, naming the .NET exception type. A C# `null` is `None`.
- **Integers.** Are unbounded in Dafny. Where the code is 32-bit,
  `Strings.Wrap32` and `Util.TruncDiv` model C# wrap-around and truncating
  division explicitly. The median's sum and the bound test and loop bound
  of `RecordList.CopyToAsWritten` are rendered this way.
- **Object identity.** A job's identity is an explicit id, `Jobs.Job.id`.
  Models and list entries are compared by value; where C# compares
  references instead, "## Left out" says so.
- **Shared mutable state.** Each mutating member returns the new state. Two
  C# objects that share one list are modelled by writing the same new list
  to both. In `Config`, the flag `linked` records whether the item list and
  the array under the root key are one list. `Config.Shared` states that a
  linked configuration holds the same array in both places, and every
  `Config` operation keeps it. `UpdateDoc` unlinks them, and `Add` and
  `Remove` then change each list on its own.
- **Engine and I/O.** The engine, the clock, the file system, processes and
  reflection become parameters:
  - `BuildSummary.Settings` holds the player settings;
  - `FileAssert.FileSystem` holds file contents as lines;
  - `FindRefs.FindReferences` takes the command's output;
  - `Validator.Method` is a method as reflection shows it, with the result
    of invoking it.
  - `Environment.NewLine` is a parameter of `RichText.AppendLine`.

Starting a job runs `DoWork` up to its first `yield return null`
(JobManager.cs line 260). So a job whose work unit yields three values
completes in the fourth frame after `Start`. `Jobs.RunsToCompletion`
states this.

`Start` does not check whether the job is already running. Each call hands
one more `DoWork` loop to the scheduler, and all of them step the same
enumerator. `Jobs.LoopsFrame` models a frame of several such loops over a
job without children. `Jobs.StartedTwiceCompletesTwice` shows that a job
started twice raises `OnJobComplete` twice.

## Model

| member | source | states |
|---|---|---|
| Jobs.New | Assets/June/JobManager/JobManager.cs:105-115 | a new job joins the registry at the end, holds all of its work with nothing done and no child stack, and is running in its coroutine exactly when `shouldStart` is set, otherwise idle |
| Jobs.NewIsValid | Assets/June/JobManager/JobManager.cs:96-115 | every job the constructor builds, started or not, satisfies the job invariant `Valid` |
| Jobs.Create | Assets/June/JobManager/JobManager.cs:121-123 | `Create` registers the job and starts it at once: running, unpaused, not killed, suspended at its first yield with all its work ahead and one run |
| Jobs.CreateAsCoroutine | Assets/June/JobManager/JobManager.cs:130-132 | building an unstarted job and then starting it as a coroutine ends in the same job and registry as `Create` |
| Jobs.StartRun | Assets/June/JobManager/JobManager.cs:181-214 | starting sets `IsRunning` and enters `DoWork`, which stops at its first yield: the work has not advanced, nothing fires, and the run count grows by one |
| Jobs.StartKeepsValid | Assets/June/JobManager/JobManager.cs:181-205 | starting a valid job that is not in its coroutine keeps it valid |
| Jobs.Pause | Assets/June/JobManager/JobManager.cs:219-221 | `Pause` sets `IsPaused` and changes no other field |
| Jobs.UnPause | Assets/June/JobManager/JobManager.cs:226-228 | `UnPause` clears `IsPaused` and changes no other field |
| Jobs.Kill | Assets/June/JobManager/JobManager.cs:233-237 | `Kill` sets the killed flag, clears `IsRunning` and clears `IsPaused`, and changes nothing else |
| Jobs.FlagsKeepValid | Assets/June/JobManager/JobManager.cs:219-237 | pausing, resuming and killing a valid job keep it valid |
| Jobs.AddChildJob | Assets/June/JobManager/JobManager.cs:152-157 | the child is pushed on top of the stack, which is created empty on first use; nothing else changes |
| Jobs.AddChildKeepsValid | Assets/June/JobManager/JobManager.cs:152-157 | adding an unstarted or finished valid child keeps the parent valid |
| Jobs.CreateAndAddChildJob | Assets/June/JobManager/JobManager.cs:142-146 | the new child is registered, unstarted and idle, and is pushed on the parent's stack |
| Jobs.RemoveChildJob | Assets/June/JobManager/JobManager.cs:163-176 | it throws when no child was ever added; otherwise the stack loses every job with the child's identity and keeps the others in order, and an absent child changes nothing |
| Jobs.PushAllBut | Assets/June/JobManager/JobManager.cs:170-174 | the rebuilding loop pushes, bottom first, exactly the jobs whose identity differs from the removed child's |
| Jobs.WithoutIdMembers | Assets/June/JobManager/JobManager.cs:163-176 | a job is on the rebuilt stack exactly when it was on the old stack and is not the removed child |
| Jobs.WithoutIdSplit | Assets/June/JobManager/JobManager.cs:163-176 | removing a child that occurs once between two groups of other jobs leaves those groups concatenated, in their order |
| Jobs.HasIdCheck | Assets/June/JobManager/JobManager.cs:164 | `Stack.Contains` holds exactly when some job on the stack has the child's identity |
| Jobs.Tick | Assets/June/JobManager/JobManager.cs:258-304 | one frame never changes the job's identity, killed flag or run count, and never loses or invents work: the values done followed by the values left stay the same |
| Jobs.TickWaits | Assets/June/JobManager/JobManager.cs:262-265 | a frame leaves an idle job, a finished job and a paused running job exactly as they were, raising no event |
| Jobs.TickSteps | Assets/June/JobManager/JobManager.cs:262-270 | a frame moves a running, unpaused job that has work left on by exactly one value, with no event; a job whose `IsRunning` is false leaves the loop and completes |
| Jobs.TickFiresOnce | Assets/June/JobManager/JobManager.cs:280-290 | the completion event is recorded exactly when the job moves to `Done`, carrying the killed flag, and it is the last event of that frame |
| Jobs.Complete | Assets/June/JobManager/JobManager.cs:280-290 | leaving the loop ends the coroutine, records one firing with the killed flag, and raises exactly one `OnJobComplete` for the job |
| Jobs.Run | Assets/June/JobManager/JobManager.cs:258-291 | any number of frames preserves identity, killed flag and run count, and neither loses nor invents work |
| Jobs.RunUnfold | Assets/June/JobManager/JobManager.cs:258-291 | a run of n frames is one frame followed by a run of n - 1 frames, with the events concatenated in order |
| Jobs.RunSplit | Assets/June/JobManager/JobManager.cs:258-291 | a run of m + n frames is a run of m frames followed by a run of n frames, with the events concatenated in order |
| Jobs.TickKeepsValid | Assets/June/JobManager/JobManager.cs:258-304 | one frame keeps a valid job valid |
| Jobs.RunKeepsValid | Assets/June/JobManager/JobManager.cs:258-304 | any number of frames keeps a valid job valid |
| Jobs.NextChildKeepsValid | Assets/June/JobManager/JobManager.cs:297-304 | popping the next child, or completing when none is left, yields a valid job |
| Jobs.CompletesOnce | Assets/June/JobManager/JobManager.cs:280-290 | a job started once has fired nothing while still in its coroutine and exactly one completion once done, however many frames pass |
| Jobs.RunStaysStarted | Assets/June/JobManager/JobManager.cs:258-291 | a started or finished job never returns to the unstarted state, over any number of frames |
| Jobs.DoneIsFinal | Assets/June/JobManager/JobManager.cs:288-291 | after `DoWork` has returned, no number of frames changes the job or raises an event |
| Jobs.PausedMakesNoProgress | Assets/June/JobManager/JobManager.cs:263-265 | a paused running job stays exactly as it is, with no event, for any number of frames |
| Jobs.AdvancesOnePerFrame | Assets/June/JobManager/JobManager.cs:262-270 | a running, unpaused job with at least k values left moves exactly its next k values from work to done in k frames, raising nothing |
| Jobs.KillThenTick | Assets/June/JobManager/JobManager.cs:233-237 | a killed job in its coroutine finishes at its next frame and raises `OnJobComplete(true)`, its only event |
| Jobs.RunsOut | Assets/June/JobManager/JobManager.cs:258-291 | a running, unpaused job without children is still suspended after as many frames as it has values left; in the next frame it finishes with all its work done, `IsRunning` false and the single event `OnJobComplete(killed)` |
| Jobs.RunsToCompletion | Assets/June/JobManager/JobManager.cs:105-115 | a job created started with k values, never paused or killed, is still suspended after k frames and finishes in frame k + 1 having yielded all k values, raising only `OnJobComplete(false)` |
| Jobs.LastFrame | Assets/June/JobManager/JobManager.cs:271-283 | a running job with no work left and no child stack completes in a single frame, with `IsRunning` false |
| Jobs.ExhaustedStartsTopChild | Assets/June/JobManager/JobManager.cs:271-274 | when the work runs out, a job with children starts the child on top of the stack, keeps the rest, stays running, and raises nothing |
| Jobs.WaitsForActiveChild | Assets/June/JobManager/JobManager.cs:297-304 | while the active child has not finished, a frame advances only that child: the parent's stack and flags are unchanged and the child's events pass through |
| Jobs.FinishedChildPopsNext | Assets/June/JobManager/JobManager.cs:297-304 | in the frame in which the active child finishes, the parent starts the next child from the top of the stack |
| Jobs.LastChildCompletesParent | Assets/June/JobManager/JobManager.cs:271-283 | when the last child finishes, the parent finishes in the same frame with an empty stack and `IsRunning` false, and its event follows the child's |
| Jobs.NaturalEndDrainsEverything | Assets/June/JobManager/JobManager.cs:262-283 | a job that finishes without being killed has used up all its work, has emptied its child stack, and reports `false` last |
| Jobs.DrainStep | Assets/June/JobManager/JobManager.cs:297-304 | when a child with no work finishes, the parent either starts the next child from the top or, with none left, completes after it |
| Jobs.DrainsInStackOrder | Assets/June/JobManager/JobManager.cs:297-304 | children with no work complete one per frame, last added first; the parent's event comes after all of theirs, and the stack ends empty |
| Jobs.CompletionsTopFirst | Assets/June/JobManager/JobManager.cs:297-304 | the completion events of the stacked children, one per child, from the top of the stack down |
| Jobs.Retire | Assets/June/JobManager/JobManager.cs:286 | removing completed jobs from the registry never grows it and never adds an entry |
| Jobs.RetireRemoves | Assets/June/JobManager/JobManager.cs:286 | a job registered once is gone from the registry once its completion has been raised, whatever other completions come before or after |
| Jobs.RetireKeepsOut | Assets/June/JobManager/JobManager.cs:286 | later removals never put a job back into the registry |
| Jobs.StartAgain | Assets/June/JobManager/JobManager.cs:181-205 | a further `Start` sets `IsRunning`, counts one more run and adds one live `DoWork` loop; the work, the values done, the other flags and the identity stay as they were |
| Jobs.LoopsFrame | Assets/June/JobManager/JobManager.cs:258-291 | one frame of the live `DoWork` loops of a job without children keeps its identity, killed flag and run count, neither loses nor invents work, starts no loop, and raises exactly one `OnJobComplete(killed)` per loop that leaves; a job that is not running ends every loop |
| Jobs.RunLoops | Assets/June/JobManager/JobManager.cs:258-291 | the same holds over any number of frames: the loops that have left each raised exactly one `OnJobComplete(killed)` |
| Jobs.OneLoopIsTick | Assets/June/JobManager/JobManager.cs:258-291 | with a single loop, a frame of the loops is the frame `Jobs.Tick` models, and the loop has left exactly when the job is done |
| Jobs.TwoLoopsStep | Assets/June/JobManager/JobManager.cs:262-270 | with two loops over a running, unpaused job with at least two values left, one frame yields the next two values, one per loop, and raises nothing |
| Jobs.TwoLoopsRunOut | Assets/June/JobManager/JobManager.cs:258-291 | a job without children that runs two loops and is never paused or killed has, after half its values plus two frames, no loop left, all its work done, `IsRunning` false and exactly two `OnJobComplete(false)` events |
| Jobs.TwoLoopsRunOutIn | Assets/June/JobManager/JobManager.cs:258-291 | the same outcome after any larger number of frames |
| Jobs.StartedTwiceCompletesTwice | Assets/June/JobManager/JobManager.cs:181-291 | a job made by `Create` and started a second time before the first frame completes twice, yields every value once, and counts two runs |
| Dispatch.Fresh | Assets/June/JobManager/JobManager.cs:316-318 | before anything runs, the dispatcher is uninitialised and its queue is empty |
| Dispatch.Instance | Assets/June/JobManager/JobManager.cs:320-328 | `Instance` throws `InvalidOperationException` exactly when `Initialize` has not been called, and otherwise returns the dispatcher |
| Dispatch.Initialize | Assets/June/JobManager/JobManager.cs:330-334 | after `Initialize` the guard is open, and the queue and the actions already run are untouched |
| Dispatch.InitializeIdempotent | Assets/June/JobManager/JobManager.cs:330-334 | a second `Initialize` changes nothing |
| Dispatch.InstanceAfterInitialize | Assets/June/JobManager/JobManager.cs:320-334 | `Instance` fails on a fresh dispatcher and succeeds after `Initialize` |
| Dispatch.ToMainThread | Assets/June/JobManager/JobManager.cs:364-366 | the action joins the tail of the queue, so it is the last received action; nothing runs |
| Dispatch.Update | Assets/June/JobManager/JobManager.cs:352-358 | one frame runs the oldest queued action, if there is one, and removes it from the queue; no action is lost or invented |
| Dispatch.LaunchCoroutine | Assets/June/JobManager/JobManager.cs:372-376 | it throws before `Initialize`; otherwise it enqueues one delegate that starts the coroutine, at the tail |
| Dispatch.PumpRunsInOrder | Assets/June/JobManager/JobManager.cs:352-366 | after n frames the first n queued actions (or all of them) have run, oldest first, the rest still wait in order, and the received actions are unchanged |
| Dispatch.PumpIdle | Assets/June/JobManager/JobManager.cs:352-358 | frames on an empty queue change nothing |
| Dispatch.FirstInFirstOut | Assets/June/JobManager/JobManager.cs:352-366 | of two actions enqueued in turn, one frame runs only the first and two frames run both, in order |
| Linq.Select | Assets/June/_Core/Util.Linq.cs:19-25 | the result has the input's length, and each element is the projection of the element at the same position |
| Linq.Filter | Assets/June/_Core/Util.Linq.cs:34-44 | every kept element satisfies the predicate, and a value is kept exactly when it occurs in the input and satisfies the predicate |
| Linq.FilterAppend | Assets/June/_Core/Util.Linq.cs:34-44 | filtering distributes over concatenation, so the kept elements stay in their original order |
| Linq.FilterList | Assets/June/_Core/Util.Linq.cs:34-44 | a null list gives an empty result; otherwise the result is the filter of the list |
| Linq.SelectMany | Assets/June/_Core/Util.Linq.cs:64-70 | a value is in the result exactly when some element's selected sequence holds it |
| Linq.SelectManyAppend | Assets/June/_Core/Util.Linq.cs:64-70 | the result for a concatenation is the two results concatenated, so the selected sequences appear in input order |
| Linq.FirstIndex | Assets/June/_Core/Util.Linq.cs:153-163 | the index found satisfies the predicate and no earlier element does; -1 means no element does |
| Linq.IndexOf | Assets/June/_Core/Util.Linq.cs:153-163 | -1 exactly when the list is null or no element satisfies the predicate; otherwise an in-range index whose element satisfies it |
| Linq.FirstOrDefault | Assets/June/_Core/Util.Linq.cs:79-86 | the element at the first satisfying index, or the default when none satisfies the predicate |
| Linq.Any | Assets/June/_Core/Util.Linq.cs:94-104 | true exactly when the input is not null and some element satisfies the predicate |
| Linq.All | Assets/June/_Core/Util.Linq.cs:259-268 | true exactly when the input is null or every element satisfies the predicate |
| Linq.AllIsNotAnyFailing | Assets/June/_Core/Util.Linq.cs:94-104 | `All` is the negation of `Any` of the negated predicate, null included |
| Linq.Count | Assets/June/_Core/Util.Linq.cs:249-251 | zero for a null list; otherwise the number of positions whose element satisfies the predicate |
| Linq.FilterCountsHits | Assets/June/_Core/Util.Linq.cs:34-44 | the filter keeps one element per position that satisfies the predicate |
| Linq.CountMonotone | Assets/June/_Core/Util.Linq.cs:249-251 | if every satisfying position of one list is a satisfying position of another of the same length, the first count is at most the second |
| Linq.CountFullIffAll | Assets/June/_Core/Util.Linq.cs:249-268 | the count equals the length exactly when every element satisfies the predicate |
| Linq.CountZeroIffNotAny | Assets/June/_Core/Util.Linq.cs:249-251 | the count is zero exactly when no element satisfies the predicate |
| Linq.ContainsString | Assets/June/_Core/Util.Linq.cs:136-144 | true exactly when the array is not null and holds the value |
| Linq.Contains | Assets/June/_Core/Util.Linq.cs:323-330 | true exactly when the value occurs in the sequence |
| Linq.AddElementToArray | Assets/June/_Core/Util.Linq.cs:177-181 | a null array throws; otherwise the array grows by one, the old elements keep their places, and the new item is last |
| Linq.UniqueList | Assets/June/_Core/Util.Linq.cs:118-125 | the result has no duplicates, holds exactly the input's values, and orders them by first occurrence in the input |
| Linq.MaxBy | Assets/June/_Core/Util.Linq.cs:291-314 | a null source throws `ArgumentNullException` and an empty one `InvalidOperationException`; otherwise the result has the maximal key and is the earliest such element |
| Strings.Wrap32 | Assets/June/_Core/Util.cs:478 | 32-bit wrap-around: the result is congruent to the input modulo 2^32, and an in-range input is unchanged |
| Util.TruncDiv | Assets/June/_Core/Util.cs:478 | C# integer division: it rounds toward zero, so the remainder has the dividend's sign and is smaller than the divisor |
| Util.SortInts | Assets/June/_Core/Util.cs:473 | `Array.Sort` returns an ascending permutation of its input |
| Util.MiddleAsWritten | Assets/June/_Core/Util.cs:476-484 | odd length: the middle element; even length: the 32-bit wrapped sum of the two middle elements, halved toward zero |
| Util.MedianAsWritten | Assets/June/_Core/Util.cs:471-485 | null throws `ArgumentNullException`, empty throws `IndexOutOfRangeException`; otherwise the array is sorted in place and the result is `MiddleAsWritten` of the sorted array |
| Util.MedianAsWrittenOverflows | Assets/June/_Core/Util.cs:478 | the median of two copies of `int.MaxValue` comes out as -1 |
| Util.Middle | Assets/June/_Core/Util.cs:476-484 | for a sorted array the result lies between the two middle elements |
| Util.AverageBetween | Assets/June/_Core/Util.cs:478 | the exact truncated average of a ≤ b lies between a and b |
| Util.Median | Assets/June/_Core/Util.cs:471-485 | the same error cases and in-place sort as the code, with the average taken without overflow |
| Util.MiddleSplits | Assets/June/_Core/Util.cs:471-485 | the median is at least every element of the lower half and at most every element of the upper half of the sorted array |
| Util.MedianIsMiddle | Assets/June/_Core/Util.cs:471-485 | the median lies between the two middle elements of the sorted input (so an odd length gives the middle element), at least every element of the lower half and at most every element of the upper half |
| Util.MedianPermutationInvariant | Assets/June/_Core/Util.cs:471-485 | two arrays with the same elements in any order have the same median and the same sorted form |
| Util.ToTitleCase | Assets/June/_Core/Util.cs:376-384 | null maps to null; otherwise the length is kept, the first character is upper-cased and the rest is unchanged (a one-character word is upper-cased whole) |
| Util.TitleCaseIdempotent | Assets/June/_Core/Util.cs:376-384 | title-casing twice is title-casing once |
| Util.AppendPairs | Assets/June/_Core/Util.cs:363-366 | the loop writes nothing for no pairs, and otherwise ends with a `,` |
| Util.AppendPairsIsJoin | Assets/June/_Core/Util.cs:363-366 | the loop's text is the `key:value` pieces joined by `,`, followed by one `,` |
| Util.ConvertToString | Assets/June/_Core/Util.cs:361-369 | a null dictionary throws `NullReferenceException` at the `foreach`; otherwise it throws `ArgumentOutOfRangeException` exactly for an empty dictionary, when the final `Remove` gets index -1 |
| Util.ConvertToStringJoins | Assets/June/_Core/Util.cs:361-369 | for a non-empty dictionary the result is the `key:value` pieces in enumeration order, joined by `,`, with no trailing comma |
| Util.ConvertToStringRoundTrip | Assets/June/_Core/Util.cs:361-369 | when no key holds `:` and no key or value holds `,`, splitting the text on `,` and each piece at its first `:` gives back the pairs |
| Util.ToUnixTimestamp | Assets/June/_Core/Util.cs:194-197 | the whole seconds between the epoch and the instant, truncated toward zero: rounded down after 1970 and up before it |
| Util.FromUnixTimestamp | Assets/June/_Core/Util.cs:208-211 | `AddSeconds` succeeds exactly for seconds within the `DateTime` range, and gives the epoch plus that many seconds; otherwise it throws `ArgumentOutOfRangeException` |
| Util.UnixRoundTrip | Assets/June/_Core/Util.cs:194-211 | converting a whole-second timestamp in range to a date and back gives the same timestamp |
| Util.UnixTruncates | Assets/June/_Core/Util.cs:194-211 | a date taken through a timestamp and back lands within one second of the original, toward the epoch |
| Util.ConvertToGenericDictionaryAsWritten | Assets/June/_Core/Util.cs:455-464 | a null dictionary throws `NullReferenceException`; otherwise the result is always empty |
| Util.AsWrittenAddsNothing | Assets/June/_Core/Util.cs:457-461 | the guard `!obj.Contains(key)` is false for every key taken from the dictionary, so the loop adds nothing |
| Util.ConvertToGenericDictionaryLosesEntries | Assets/June/_Core/Util.cs:455-464 | converting a one-entry dictionary loses that entry |
| Util.ConvertToGenericDictionary | Assets/June/_Core/Util.cs:455-464 | a null dictionary throws `NullReferenceException`; otherwise every entry of the input is in the result with its value, and every key of the result comes from the input |
| Util.ConvertLoopKeeps | Assets/June/_Core/Util.cs:457-461 | the corrected loop keeps what it has and adds each remaining entry under its key |
| Util.IsNumber | Assets/June/_Core/Util.cs:492-509 | false for null, and true exactly for the eleven numeric kinds listed |
| Strings.Split | Assets/June/_Core/Editor/JuneEditorUtils.cs:25-28 | `String.Split(char)` keeps empty pieces, gives at least one piece, and no piece holds the separator |
| Strings.JoinSplit | Assets/June/_Core/Editor/JuneEditorUtils.cs:25-28 | joining the pieces of a split with the separator gives back the text |
| Strings.SplitJoin | Assets/June/_Core/Editor/JuneEditorUtils.cs:25-28 | splitting a join of separator-free pieces gives back the pieces |
| Strings.ParseInt32 | Assets/June/_Core/BaseModel.cs:82 | on text without white space, `int.Parse` succeeds exactly on an optionally signed decimal numeral whose value fits in 32 bits, and returns that value; other text throws `FormatException`, and a numeral out of range `OverflowException` |
| Strings.ParseInt64 | Assets/June/_Core/BaseModel.cs:99 | on text without white space, `long.Parse` succeeds exactly on an optionally signed decimal numeral whose value fits in 64 bits, and returns that value; other text throws `FormatException`, and a numeral out of range `OverflowException` |
| Strings.IntTextParses | Assets/June/_Core/BaseModel.cs:82 | parsing the decimal text of an integer gives back the integer |
| Strings.ContainsHasOffset | Assets/June/_Core/Editor/JuneBuildProvider/JuneAssert.cs:39 | where `String.Contains` holds, the needle occurs at some offset of the text |
| Strings.OffsetContains | Assets/June/_Core/Editor/JuneBuildProvider/JuneAssert.cs:39 | a needle at any offset of the text is found by `String.Contains` |
| Strings.ContainsAt | Assets/June/_Core/Editor/JuneBuildProvider/JuneAssert.cs:39 | `String.Contains` holds exactly when the needle occurs at some offset of the text |
| Strings.ToUpper | Assets/June/_Core/Util.cs:383 | upper-casing keeps the length and maps each character on its own |
| Lists.IndexOfValue | Assets/June/_Core/IBaseModel.cs:284-286 | `List.IndexOf` gives -1 exactly for an absent value, and otherwise the first position holding it |
| Lists.Insert | Assets/June/_Core/BaseModel.cs:349-351 | `List.Insert` succeeds exactly for an index from 0 to the length, and puts the value there; otherwise it throws `ArgumentOutOfRangeException` |
| Lists.RemoveAt | Assets/June/_Core/BaseModel.cs:357-359 | `List.RemoveAt` succeeds exactly for an index within the list, and closes the gap; otherwise it throws `ArgumentOutOfRangeException` |
| Lists.Remove | Assets/June/_Core/BaseModel.cs:373-375 | `List.Remove` reports whether the value was present, and removes only its first occurrence |
| Lists.InsertThenRemoveAt | Assets/June/_Core/BaseModel.cs:349-359 | removing at the index just inserted at restores the list |
| Lists.AppendThenRemove | Assets/June/_Core/BaseModel.cs:365-375 | removing a value just appended, which was absent before, restores the list |
| Json.ScalarText | Assets/June/_Core/BaseModel.cs:180 | a scalar's `ToString()` text exists exactly for non-null scalars |
| BaseModel.New | Assets/June/_Core/BaseModel.cs:51-56 | the constructor's model hands back its document through `GetRaw` |
| BaseModel.UpdateDoc | Assets/June/_Core/IBaseModel.cs:73-75 | after `UpdateDoc(d)`, `GetRaw` returns `d` |
| BaseModel.Get | Assets/June/_Core/BaseModel.cs:218-224 | a null record throws; otherwise the stored value when the key is present and holds the requested type, else the default |
| BaseModel.GetInt | Assets/June/_Core/BaseModel.cs:79-85 | 0 for a missing key; a null value throws; a stored string is read by `int.Parse` |
| BaseModel.GetLong | Assets/June/_Core/BaseModel.cs:96-102 | 0 for a missing key; a null value throws; a stored string is read by `long.Parse` |
| BaseModel.GetBool | Assets/June/_Core/BaseModel.cs:147-153 | false for a missing key; true only for a stored `true`; anything other than a boolean throws |
| BaseModel.GetString | Assets/June/_Core/BaseModel.cs:164-166 | null unless the key holds a string, and then that string |
| BaseModel.GetAsString | Assets/June/_Core/BaseModel.cs:177-183 | empty for a missing key; a null value throws; a stored string comes back as it is |
| BaseModel.StringItems | Assets/June/_Core/BaseModel.cs:198-204 | every string element of the list is kept, and nothing else comes out |
| BaseModel.StringsIsFilter | Assets/June/_Core/BaseModel.cs:198-204 | the kept strings are the string elements in their original order |
| BaseModel.GetStringList | Assets/June/_Core/BaseModel.cs:194-207 | an empty list when the key is missing or holds no list; otherwise the list's string elements in order |
| BaseModel.Set | Assets/June/_Core/BaseModel.cs:314-323 | a null record is left alone; otherwise the key maps to the new value and every other key is unchanged |
| BaseModel.Index | Assets/June/_Core/BaseModel.cs:38-41 | the indexer's getter throws `KeyNotFoundException` on a missing key and otherwise returns the stored value |
| BaseModel.SetIndex | Assets/June/_Core/BaseModel.cs:42-44 | the indexer's setter throws on a null record and otherwise acts as `Set` |
| BaseModel.IndexAfterSetIndex | Assets/June/_Core/BaseModel.cs:38-44 | reading a key just written through the indexer gives the written value |
| BaseModel.GetLongAfterSet | Assets/June/_Core/BaseModel.cs:96-102 | `GetLong` after setting a long gives it back |
| BaseModel.GetIntAfterSet | Assets/June/_Core/BaseModel.cs:79-85 | `GetInt` after setting a long gives it back when it fits in 32 bits and throws `OverflowException` otherwise |
| BaseModel.GetStringAfterSet | Assets/June/_Core/BaseModel.cs:164-183 | `GetString` and `GetAsString` after setting a string give it back |
| BaseModel.GetBoolAfterSet | Assets/June/_Core/BaseModel.cs:147-153 | `GetBool` after setting a boolean gives it back |
| BaseModel.SetLeavesOtherKeys | Assets/June/_Core/BaseModel.cs:314-323 | setting one key changes no reading of another key |
| RecordList.ConvertRecords | Assets/June/_Core/IBaseModel.cs:538-542 | one model per record element, converted in order; nulls and other values are skipped |
| RecordList.GetModelListFromArray | Assets/June/_Core/IBaseModel.cs:530-545 | null when the array or the converter is null; otherwise one model per record element, in order |
| RecordList.New | Assets/June/_Core/IBaseModel.cs:487-492 | the list keeps the array and the converters, and its models are loaded from the array |
| RecordList.NewModelList | Assets/June/_Core/IBaseModel.cs:499-500 | the two-argument constructor uses the model's `GetRaw` as the model-to-record converter |
| RecordList.NewIsAligned | Assets/June/_Core/IBaseModel.cs:487-507 | a list built over an array of records, with a converter that keeps its record, starts with models and records in step |
| RecordList.IndexOf | Assets/June/_Core/IBaseModel.cs:284-286 | the first position of the model, or -1 when it is absent |
| RecordList.Insert | Assets/June/_Core/IBaseModel.cs:293-298 | a bad index throws before anything changes; otherwise the model is inserted, and when there is a converter its record is inserted at the same index of the raw list |
| RecordList.RemoveAt | Assets/June/_Core/IBaseModel.cs:304-309 | the same index is removed from the models and, when there is a converter, from the raw list |
| RecordList.Get | Assets/June/_Core/IBaseModel.cs:315-318 | the model at an in-range index; otherwise `ArgumentOutOfRangeException` |
| RecordList.SetAt | Assets/June/_Core/IBaseModel.cs:319-321 | the setter replaces the model at an in-range index and leaves the raw list alone |
| RecordList.Add | Assets/June/_Core/IBaseModel.cs:330-335 | the model goes to the end, and when there is a converter its record goes to the end of the raw list |
| RecordList.Clear | Assets/June/_Core/IBaseModel.cs:340-343 | both lists are emptied |
| RecordList.Contains | Assets/June/_Core/IBaseModel.cs:349-351 | true exactly when the model is in the list |
| RecordList.Remove | Assets/June/_Core/IBaseModel.cs:377-382 | the converted record leaves the raw list whether or not the model is present; the result says only whether the model was removed |
| RecordList.Count | Assets/June/_Core/IBaseModel.cs:388-392 | the number of models |
| RecordList.IsReadOnly | Assets/June/_Core/IBaseModel.cs:398-402 | always false |
| RecordList.RawRecords | Assets/June/_Core/IBaseModel.cs:420-426 | the raw enumerator yields exactly the record elements, in order |
| RecordList.ConvertAll | Assets/June/_Core/IBaseModel.cs:516-518 | one converted value per model, in order |
| RecordList.CopyToAsWritten | Assets/June/_Core/IBaseModel.cs:358-371 | null throws `ArgumentNullException`, a negative index `ArgumentOutOfRangeException`; otherwise the copy goes ahead exactly when the 32-bit sum of index and count is below the array's length, and `ArgumentException` is thrown otherwise; without overflow it writes the models from the index on without touching other slots, and with overflow it writes nothing |
| RecordList.CopyTo | Assets/June/_Core/IBaseModel.cs:358-371 | the same null and negative-index errors; the copy goes ahead exactly when the models fit between the index and the array's end, filling it exactly included, and writes them from the index on without touching other slots |
| RecordList.CopyToOverflow | Assets/June/_Core/IBaseModel.cs:365-368 | one model copied at index `int.MaxValue` into a one-slot array returns normally and copies nothing as written, and is rejected with `ArgumentException` by the corrected bound |
| RecordList.CopyLoop | Assets/June/_Core/IBaseModel.cs:368-370 | the loop writes the models from the index on and leaves every other slot as it was |
| RecordList.CopyToExactFit | Assets/June/_Core/IBaseModel.cs:365-366 | one model into a one-slot array at index 0 is rejected by the code and accepted by the corrected bound |
| RecordList.InsertKeepsAligned | Assets/June/_Core/IBaseModel.cs:293-298 | with a converter, an `Insert` on lists in step keeps them in step |
| RecordList.RemoveAtKeepsAligned | Assets/June/_Core/IBaseModel.cs:304-309 | with a converter, a `RemoveAt` on lists in step keeps them in step |
| RecordList.AddKeepsAligned | Assets/June/_Core/IBaseModel.cs:330-335 | an `Add` on lists in step keeps them in step |
| RecordList.ClearKeepsAligned | Assets/June/_Core/IBaseModel.cs:340-343 | `Clear` leaves the lists in step |
| RecordList.RemoveAtUndoesInsert | Assets/June/_Core/IBaseModel.cs:293-309 | on lists in step with a converter, `RemoveAt` at the index just inserted at restores the list |
| RecordList.RemoveKeepsAligned | Assets/June/_Core/IBaseModel.cs:377-382 | removing a model whose record no other model shares keeps the lists in step |
| RecordList.RemoveAbsentModelShrinksRaw | Assets/June/_Core/IBaseModel.cs:377-382 | removing an absent model whose record is present (value-equal) reports false and keeps the models, but the raw list still shrinks by one |
| Collection.AsRecord | _Core/BaseCollection.cs:64 | the cast to a dictionary succeeds exactly for null and records, and otherwise throws `InvalidCastException` |
| Collection.BuildItems | _Core/BaseCollection.cs:60-66 | when every element casts, the items are the constructor applied to each element, same length and order; otherwise `InvalidCastException` |
| Collection.UpdateRaw | _Core/BaseCollection.cs:58-67 | the raw array is replaced; a null array leaves the items as they were, and otherwise the items are rebuilt in step with it |
| Collection.New | _Core/BaseCollection.cs:48-52 | a null array gives no items and count 0; otherwise one item per element, in step |
| Collection.Count | _Core/BaseCollection.cs:37-41 | 0 when there is no item array, otherwise its length |
| Collection.Get | _Core/BaseCollection.cs:25-29 | the item at an in-range index; no items throws `NullReferenceException`, a bad index `IndexOutOfRangeException` |
| Collection.AddItem | _Core/BaseCollection.cs:94-97 | the item goes to the end of the items, and the raw array is untouched |
| Collection.AddItemLeavesRawBehind | _Core/BaseCollection.cs:89-97 | after `Add(T)` the items are one ahead of the raw array and no longer in step |
| Collection.AddRecord | _Core/BaseCollection.cs:103-107 | the record goes to the end of the raw array and its constructed item to the end of the items |
| Collection.AddRecordKeepsInStep | _Core/BaseCollection.cs:103-107 | adding a record keeps the items in step with the raw array |
| Collection.Remove | _Core/BaseCollection.cs:113-124 | no items or none at all changes nothing; otherwise an absent item (by value) overflows the shorter array with `IndexOutOfRangeException`, and a present one leaves one slot fewer holding every other non-null item, with the raw array untouched |
| Collection.RemoveLoop | _Core/BaseCollection.cs:113-124 | the copying loop computes exactly `Remove` |
| Collection.RemoveSingle | _Core/BaseCollection.cs:113-124 | removing an item that occurs once deletes exactly that element and keeps the order |
| Collection.OthersMembers | _Core/BaseCollection.cs:117-121 | the loop keeps exactly the items different from the removed one |
| Collection.Sort | _Core/BaseCollection.cs:166-170 | nothing happens without items or a comparison; otherwise the items are permuted and, for a comparison that is a total preorder, ordered by it |
| Collection.NewSorted | _Core/BaseCollection.cs:160-164 | the sorted collection is the base collection, then sorted: same count and, for a total preorder, ordered |
| PlainList.Empty | _Core/BaseCollection.cs:327 | the parameterless constructor gives an empty list |
| PlainList.FromRecords | _Core/BaseCollection.cs:308-310 | the list is a view of the given entries: same count, each `T` entry read back by the indexer, each entry of another type an `InvalidCastException` |
| PlainList.IndexOf | _Core/BaseCollection.cs:186-188 | the first position whose entry is the value, or -1 exactly when it is absent; entries of another type never match |
| PlainList.Insert | _Core/BaseCollection.cs:195-197 | an index from 0 to the count puts the value there and grows the list by one; otherwise `ArgumentOutOfRangeException` |
| PlainList.RemoveAt | _Core/BaseCollection.cs:203-205 | an in-range index shrinks the list by one; otherwise `ArgumentOutOfRangeException` |
| PlainList.Get | _Core/BaseCollection.cs:211-214 | the value at an in-range index holding a `T`; `InvalidCastException` from the `(T)` cast for an entry of another type; `ArgumentOutOfRangeException` for an index out of range |
| PlainList.SetAt | _Core/BaseCollection.cs:215-217 | an in-range index now holds the value and the count is unchanged |
| PlainList.Add | _Core/BaseCollection.cs:225-227 | the value goes to the end and every earlier value keeps its place |
| PlainList.Clear | _Core/BaseCollection.cs:232-234 | the list becomes empty |
| PlainList.Contains | _Core/BaseCollection.cs:240-242 | true exactly when some position holds the value as a `T` |
| PlainList.CopyTo | _Core/BaseCollection.cs:249-251 | always throws `NotImplementedException` |
| PlainList.Remove | _Core/BaseCollection.cs:257-259 | reports whether the value was present, and removes only its first occurrence |
| PlainList.IsReadOnly | _Core/BaseCollection.cs:275-279 | always false |
| PlainList.RemoveAtUndoesInsert | _Core/BaseCollection.cs:195-205 | `RemoveAt` at the index just inserted at restores the list |
| PlainList.RemoveUndoesAdd | _Core/BaseCollection.cs:225-259 | removing a value just added, which was absent before, restores the list |
| PlainList.Enumerate | _Core/BaseCollection.cs:286-290 | the enumerator yields the values in order up to the first entry of another type, where the `(T)` cast throws `InvalidCastException`; with none it yields every entry |
| PlainList.StoringKeepsTyped | _Core/BaseCollection.cs:195-227 | `Add`, `Insert`, the setter and `RemoveAt` keep a list whose entries are all `T`s so, and the indexer never fails on such a list at an in-range index |
| PlainList.TypedEnumerates | _Core/BaseCollection.cs:286-290 | enumerating a list whose entries are all `T`s yields every value, in index order, without a throw |
| Config.RootArray | Assets/June/_Core/BaseConfig.cs:138 | `Get<JsonArray>(RootKey)` finds an array exactly when the root key holds a list, and it is that list |
| Config.Store | Assets/June/_Core/BaseConfig.cs:140 | writing the same array to the item list and under the root key makes them shared and leaves every other key alone |
| Config.New | Assets/June/_Core/BaseConfig.cs:147-153 | a new configuration has no document and no items |
| Config.UpdateDoc | Assets/June/_Core/BaseConfig.cs:124 | the document is replaced and the items are kept, no longer linked to the array under the root key |
| Config.UpdateDocShares | Assets/June/_Core/IBaseModel.cs:73-75 | `UpdateDoc` keeps the sharing invariant, because it unlinks the item list |
| Config.LoadItems | Assets/June/_Core/BaseConfig.cs:137-142 | items are built, linked to and shared with the root array, only when the root key and the document exist and the key holds an array; otherwise nothing changes |
| Config.Load | Assets/June/_Core/BaseConfig.cs:122-127 | `PreLoad`, then `UpdateDoc` with the deserialised resource, then `LoadItems`, then `PostLoad`, in that order |
| Config.LoadGivesLoaded | Assets/June/_Core/BaseConfig.cs:122-142 | loading a resource whose root key holds an array of records gives loaded, shared and aligned items, one per record |
| Config.GetItems | Assets/June/_Core/BaseConfig.cs:49-60 | the `Items` getter loads the items when there are none, and otherwise leaves the state alone |
| Config.Clear | Assets/June/_Core/BaseConfig.cs:100-104 | the document, the items and the singleton all become null |
| Config.Refresh | Assets/June/_Core/BaseConfig.cs:109-112 | `Refresh` is `Clear` then `Load`, which leaves the singleton null |
| Config.Instance | Assets/June/_Core/BaseConfig.cs:25-37 | a missing singleton is created and loaded and then kept; an existing one is returned as it is |
| Config.InstanceIsStable | Assets/June/_Core/BaseConfig.cs:25-37 | asking for the instance again returns the same object and changes nothing |
| Config.Prepare | Assets/June/_Core/BaseConfig.cs:160-165 | the items are loaded first when null; an array is handed back only when there are items, a root key and a document, and it is the array under the root key; the only failure is `NullReferenceException` |
| Config.AddAsWritten | Assets/June/_Core/BaseConfig.cs:159-171 | the only exception `Add` can raise is `NullReferenceException` |
| Config.AddAfterUpdateDoc | Assets/June/_Core/BaseConfig.cs:166-168 | after `UpdateDoc`, `Add` appends the item to the new document's root array and the model and its record to the old item list, each once, as written and corrected alike |
| Config.AddAsWrittenShares | Assets/June/_Core/BaseConfig.cs:159-171 | `Add` keeps the item list and the root array shared |
| Config.AddAsWrittenGrowsArrayByTwo | Assets/June/_Core/BaseConfig.cs:166-168 | on loaded items, `Add` grows the shared array by two entries (the record twice) and the items by one |
| Config.AddAsWrittenBreaksAlignment | Assets/June/_Core/BaseConfig.cs:166-168 | after `Add` the models and the array are no longer in step |
| Config.Add | Assets/June/_Core/BaseConfig.cs:159-171 | the corrected `Add` can raise only `NullReferenceException` |
| Config.AddKeepsLoaded | Assets/June/_Core/BaseConfig.cs:159-171 | the corrected `Add` appends the model and its record once, keeping the items loaded, shared and aligned |
| Config.RemoveAsWritten | Assets/June/_Core/BaseConfig.cs:177-192 | the only exceptions `Remove` can raise are `NullReferenceException` and `ArgumentOutOfRangeException` |
| Config.RemoveAfterUpdateDoc | Assets/June/_Core/BaseConfig.cs:186-188 | after `UpdateDoc`, `Remove` takes the index once from the new root array and once from the old item list, as written and corrected alike |
| Config.RemoveAsWrittenShares | Assets/June/_Core/BaseConfig.cs:177-192 | `Remove` keeps the item list and the root array shared |
| Config.RemoveAsWrittenLastItemThrows | Assets/June/_Core/BaseConfig.cs:186-188 | removing the last item throws `ArgumentOutOfRangeException` from the second removal, after the model list has already lost it |
| Config.RemoveAsWrittenTakesTwo | Assets/June/_Core/BaseConfig.cs:186-188 | removing an item that is not last takes two entries from the shared array and one model |
| Config.Remove | Assets/June/_Core/BaseConfig.cs:177-192 | the corrected `Remove` can raise only those same two exceptions |
| Config.RemoveKeepsLoaded | Assets/June/_Core/BaseConfig.cs:177-192 | the corrected `Remove` takes the same index once from the models and the array, keeping the items loaded, shared and aligned |
| Config.RemoveUndoesAdd | Assets/June/_Core/BaseConfig.cs:159-192 | removing a model that the corrected `Add` just added, and that was absent before, restores the configuration |
| Config.PrepareLoaded | Assets/June/_Core/BaseConfig.cs:160-165 | on loaded items, `Add` and `Remove` work on the item list as it is and on its own array |
| RichText.New | _Core/Editor/RichText.cs:54-57 | the text is the initial text (empty for null) and no tag is open |
| RichText.Create | _Core/Editor/RichText.cs:106-108 | a builder holding the text with no tag open |
| RichText.StartTag | _Core/Editor/RichText.cs:71-87 | appends `<tag>` or `<tag=value>` and pushes the tag |
| RichText.Append | _Core/Editor/RichText.cs:150-153 | the text verbatim is appended, and the tag stack is untouched |
| RichText.AppendLine | _Core/Editor/RichText.cs:160-163 | the text and the line terminator are appended, and the tag stack is untouched |
| RichText.End | _Core/Editor/RichText.cs:180-182 | throws `InvalidOperationException` exactly when no tag is open; otherwise appends the closing of the innermost tag and pops it |
| RichText.Closed | _Core/Editor/RichText.cs:188-193 | with every tag closed, no tag is open |
| RichText.EndAll | _Core/Editor/RichText.cs:188-193 | the loop of `End` calls closes every open tag, innermost first, and empties the stack |
| RichText.EndAllGetString | _Core/Editor/RichText.cs:199-201 | the text with every open tag closed, innermost first |
| RichText.ToString | _Core/Editor/RichText.cs:286-288 | the accumulated text |
| RichText.Bold | _Core/Editor/RichText.cs:207-209 | appends `<b>` and pushes `b` |
| RichText.Italics | _Core/Editor/RichText.cs:223-225 | appends `<i>` and pushes `i` |
| RichText.Color | _Core/Editor/RichText.cs:240-242 | appends `<color=c>` and pushes `color` |
| RichText.Size | _Core/Editor/RichText.cs:258-260 | appends `<size=n>` with n in decimal, and pushes `size` |
| RichText.BoldRun | _Core/Editor/RichText.cs:215-217 | appends `<b>t</b>` and leaves the stack as it was |
| RichText.ItalicsRun | _Core/Editor/RichText.cs:231-233 | appends `<i>t</i>` and leaves the stack as it was |
| RichText.ColorRun | _Core/Editor/RichText.cs:249-251 | appends `<color=c>t</color>` and leaves the stack as it was |
| RichText.SizeRun | _Core/Editor/RichText.cs:267-269 | appends `<size=n>t</size>` and leaves the stack as it was |
| RichText.SizeColor | _Core/Editor/RichText.cs:278-280 | appends `<size=n><color=c>t</color></size>` and leaves the stack as it was |
| RichText.BoldText | _Core/Editor/RichText.cs:114-116 | a fresh builder holding `<b>t</b>` and no open tag |
| RichText.ItalicsText | _Core/Editor/RichText.cs:122-124 | a fresh builder holding `<i>t</i>` and no open tag |
| RichText.SizeText | _Core/Editor/RichText.cs:131-133 | a fresh builder holding `<size=n>t</size>` and no open tag |
| RichText.ColorText | _Core/Editor/RichText.cs:140-142 | a fresh builder, whatever the receiver, holding `<color=c>t</color>` and no open tag |
| RichText.ClosedIdempotent | _Core/Editor/RichText.cs:188-193 | closing everything a second time changes nothing |
| RichText.StartThenEnd | _Core/Editor/RichText.cs:71-97 | a tag started and then ended cannot fail, restores the stack, and adds the opening and matching closing |
| RichText.ClosingIsReversed | _Core/Editor/RichText.cs:188-193 | the tag started last is closed first |
| RichText.ClosingAppend | _Core/Editor/RichText.cs:188-193 | the tags opened later are all closed before the earlier ones |
| RichText.NestedCloseInReverse | _Core/Editor/RichText.cs:188-233 | italics then bold, closed by `EndAll`, give `<i><b></b></i>` |
| Validator.FlagValues | _Core/Editor/JuneBuildProvider/JuneBuildValidator.cs:313-319 | the flags are iPhone 1, Android 2, Amazon 4, AndroidAmazon 6 and All 7 |
| Validator.BuildTargets | _Core/Editor/JuneBuildProvider/JuneBuildValidator.cs:57-68 | Android maps to Android, iOS to iPhone and any other target to All; the result is a non-empty subset of All |
| Validator.DefaultAttribute | _Core/Editor/JuneBuildProvider/JuneBuildValidator.cs:301 | the parameterless attribute is enabled for All |
| Validator.NewItem | _Core/Editor/JuneBuildProvider/JuneBuildValidator.cs:419-429 | a new item wraps the method, with `Status` false and not validating |
| Validator.Name | _Core/Editor/JuneBuildProvider/JuneBuildValidator.cs:326-332 | `UNKNOWN` without a method, otherwise `Type.Method` |
| Validator.Enabled | _Core/Editor/JuneBuildProvider/JuneBuildValidator.cs:374-381 | the attribute's flag, or true without an attribute |
| Validator.ItemTargets | _Core/Editor/JuneBuildProvider/JuneBuildValidator.cs:387-394 | the attribute's targets, or All without an attribute |
| Validator.CanValidateMeans | _Core/Editor/JuneBuildProvider/JuneBuildValidator.cs:400-414 | for the active target, an item can validate exactly when it is enabled and shares a flag with the target; an item without an attribute always can |
| Validator.ValidateItem | _Core/Editor/JuneBuildProvider/JuneBuildValidator.cs:435-442 | the method runs only when there is one and the item can validate; otherwise `Status` is kept; a method that does not take the delegate's two parameters makes `Invoke` throw `TargetParameterCountException`, exactly then, leaving the item validating with its old status; otherwise `IsValidating` is false afterwards and the result is the status |
| Validator.FirstFailure | _Core/Editor/JuneBuildProvider/JuneBuildValidator.cs:151-158 | the first item that can validate and throws or fails, or -1 when none does |
| Validator.Validate | _Core/Editor/JuneBuildProvider/JuneBuildValidator.cs:140-168 | true exactly when every item that can validate runs and passes; false exactly when the first item to stop fails, and `TargetParameterCountException` exactly when it throws; items are visited in order, those that cannot validate are skipped, and nothing after the first stop runs; on success at least `ValidationsEnabled` items have passed |
| Validator.RunnableFirst | _Core/Editor/JuneBuildProvider/JuneBuildValidator.cs:98-101 | the comparison lets an item come first when it can validate or the other cannot |
| Validator.RunnableFirstIsTotalPreorder | _Core/Editor/JuneBuildProvider/JuneBuildValidator.cs:98-101 | that comparison is a total preorder, so sorting by it is well defined |
| Validator.SortItems | _Core/Editor/JuneBuildProvider/JuneBuildValidator.cs:96-101 | the sorted list is a permutation with every item that can validate before every item that cannot |
| Validator.DiscoverWith | _Core/Editor/JuneBuildProvider/JuneBuildValidator.cs:176-181 | the items are fresh, one per tagged method the filter accepts, and every accepted tagged method has its item |
| Validator.DiscoverAppend | _Core/Editor/JuneBuildProvider/JuneBuildValidator.cs:176-181 | discovering over two lists of methods concatenated gives the two results concatenated, so items keep the methods' order |
| Validator.DiscoverOne | _Core/Editor/JuneBuildProvider/JuneBuildValidator.cs:176-181 | a single method gives its item exactly when the filter accepts it |
| Validator.DiscoverItems | _Core/Editor/JuneBuildProvider/JuneBuildValidator.cs:176-181 | the items are fresh, one per tagged method `VerifyMethodSignature` accepts with the comparison as written, and every such method has its item |
| Validator.DiscoverItemsCorrected | _Core/Editor/JuneBuildProvider/JuneBuildValidator.cs:176-181 | with the corrected comparison, every item's method takes `(String, Assembly)` and returns `Boolean`, and every tagged method of that signature has its item |
| Validator.DiscoverAgreesOnTwoParameters | _Core/Editor/JuneBuildProvider/JuneBuildValidator.cs:176-181 | when every tagged method takes two parameters, the discovery as written and the corrected one give the same items |
| Validator.DiscoverKeepsWrongArity | _Core/Editor/JuneBuildProvider/JuneBuildValidator.cs:176-181 | a tagged parameterless method returning `Boolean` is kept as written, and validating it throws `TargetParameterCountException`; the corrected discovery drops it |
| Validator.ValidationItems | _Core/Editor/JuneBuildProvider/JuneBuildValidator.cs:94-105 | the cached list when present; otherwise a permutation of the discovered items with every item that can validate before every one that cannot |
| Validator.ActiveItems | _Core/Editor/JuneBuildProvider/JuneBuildValidator.cs:111-115 | exactly the items that can validate |
| Validator.ValidationsEnabled | _Core/Editor/JuneBuildProvider/JuneBuildValidator.cs:121-125 | the number of positions whose item can validate, which is the length of the active list |
| Validator.ValidationsPassed | _Core/Editor/JuneBuildProvider/JuneBuildValidator.cs:131-135 | the number of positions whose item's status is true |
| Validator.PassedCoversEnabled | _Core/Editor/JuneBuildProvider/JuneBuildValidator.cs:121-135 | when every item that can validate has passed, at least as many items have passed as can validate |
| Validator.EnabledCountBounds | _Core/Editor/JuneBuildProvider/JuneBuildValidator.cs:121-125 | the count is 0 exactly when no item can validate, and full exactly when every item can |
| Validator.FirstMismatch | _Core/Editor/JuneBuildProvider/JuneBuildValidator.cs:233-237 | the first position where two equally long name lists differ, or -1 exactly when they are equal |
| Validator.CompareMethodSignatureAsWritten | _Core/Editor/JuneBuildProvider/JuneBuildValidator.cs:225-241 | false when either method is null, and otherwise decided by parameter names only when the counts agree |
| Validator.AsWrittenAcceptsWrongArity | _Core/Editor/JuneBuildProvider/JuneBuildValidator.cs:232-240 | a method with a different number of parameters but the delegate's return type is accepted |
| Validator.CompareMethodSignature | _Core/Editor/JuneBuildProvider/JuneBuildValidator.cs:225-241 | the corrected comparison also requires equal parameter counts |
| Validator.SameCountSameAnswer | _Core/Editor/JuneBuildProvider/JuneBuildValidator.cs:232-240 | when the parameter counts agree, the code and the corrected comparison give the same answer |
| BuildSymbols.Segment | _Core/Editor/JuneBuildProvider/JuneBuildWindow.cs:84-86 | an entry contributes its name when on and nothing when off |
| BuildSymbols.Segments | _Core/Editor/JuneBuildProvider/JuneBuildWindow.cs:80-87 | one segment per entry, in order |
| BuildSymbols.FoldJoins | _Core/Editor/JuneBuildProvider/JuneBuildWindow.cs:80-87 | once the text is not empty, each entry adds one `;` and its segment |
| BuildSymbols.SymbolsShape | _Core/Editor/JuneBuildProvider/JuneBuildWindow.cs:76-91 | empty when nothing is on; otherwise the segments from the first enabled entry on, joined by `;` |
| BuildSymbols.FirstEnabled | _Core/Editor/JuneBuildProvider/JuneBuildWindow.cs:80-87 | the first entry switched on, with none before it, or -1 |
| BuildSymbols.SymbolsSplit | _Core/Editor/JuneBuildProvider/JuneBuildWindow.cs:76-91 | splitting the string on `;` gives the enabled names in order, with an empty piece for each later disabled entry |
| BuildSymbols.AllOffIsEmpty | _Core/Editor/JuneBuildProvider/JuneBuildWindow.cs:76-91 | with every symbol off, the string is empty |
| BuildSymbols.Table | _Core/Editor/JuneBuildProvider/JuneBuildWindow.cs:27-70 | the window's table pairs `RELEASE`, `INAPP_ENABLED`, `NGUI`, `TK2D`, `SPINE_TK2D` and `HTTP_CONSOLE`, in that order, with whether each define is set |
| BuildSymbols.Examples | _Core/Editor/JuneBuildProvider/JuneBuildWindow.cs:76-91 | no `;` comes before the first enabled name; a later disabled entry leaves an empty segment or a trailing `;`, so the window's table with only `RELEASE` set gives `RELEASE;;;;;` |
| BuildSymbols.EnabledNames | _Core/Editor/JuneBuildProvider/JuneBuildWindow.cs:84-86 | every enabled name is listed |
| BuildSymbols.FoldCorrectedJoins | _Core/Editor/JuneBuildProvider/JuneBuildWindow.cs:80-87 | with the separator added only before an enabled name, the text is the enabled names joined by `;` |
| BuildSymbols.SymbolsCorrectedJoinsEnabled | _Core/Editor/JuneBuildProvider/JuneBuildWindow.cs:76-91 | the corrected string is empty when nothing is on and otherwise exactly the enabled names joined by `;` |
| BuildSymbols.TrailingSeparator | _Core/Editor/JuneBuildProvider/JuneBuildWindow.cs:80-87 | one symbol on and the next off gives `RELEASE;` as written and `RELEASE` corrected |
| BuildSummary.WriteSectionHeader | _Core/Editor/JuneBuildProvider/JuneBuildSummary.cs:53-55 | the builder's text is kept as a prefix, followed by `<h3>h</h3>` |
| BuildSummary.WriteTableStart | _Core/Editor/JuneBuildProvider/JuneBuildSummary.cs:61-63 | the builder's text is kept as a prefix, followed by `<table>` |
| BuildSummary.WriteTableEnd | _Core/Editor/JuneBuildProvider/JuneBuildSummary.cs:69-71 | the builder's text is kept as a prefix, followed by `</table>` |
| BuildSummary.WriteTableRow | _Core/Editor/JuneBuildProvider/JuneBuildSummary.cs:78-86 | nothing is appended for null or empty columns; otherwise `<tr>`, then one cell per column in order, then `</tr>` |
| BuildSummary.CellsAreColumns | _Core/Editor/JuneBuildProvider/JuneBuildSummary.cs:81-83 | each column adds `<td>c</td>` after the earlier ones, with a null column empty; two columns give two cells in order |
| BuildSummary.CellsAppend | _Core/Editor/JuneBuildProvider/JuneBuildSummary.cs:81-83 | the cells of two column lists concatenated are their cells concatenated |
| BuildSummary.PairRow | _Core/Editor/JuneBuildProvider/JuneBuildSummary.cs:116-117 | a key-value row is `<tr><td>key</td><td>value</td></tr>` |
| BuildSummary.Write | _Core/Editor/JuneBuildProvider/JuneBuildSummary.cs:94-138 | every generator only appends: the builder's text is a prefix of the result |
| BuildSummary.Run | _Core/Editor/JuneBuildProvider/JuneBuildSummary.cs:36-38 | running the generators in order only appends |
| BuildSummary.RunAppend | _Core/Editor/JuneBuildProvider/JuneBuildSummary.cs:36-38 | running two lists of generators in turn is running their concatenation |
| BuildSummary.RunLast | _Core/Editor/JuneBuildProvider/JuneBuildSummary.cs:36-38 | the last generator runs on what all the earlier ones wrote |
| BuildSummary.ReportParts | _Core/Editor/JuneBuildProvider/JuneBuildSummary.cs:22-38 | the report is the header, then the two table sections, then the footer |
| BuildSummary.ReportFrame | _Core/Editor/JuneBuildProvider/JuneBuildSummary.cs:94-105 | the report begins with the `<html>…<h1>` header and ends with `</body></html>` |
| FileAssert.Mark | Assets/June/_Core/Editor/JuneBuildProvider/JuneAssert.cs:38-40 | after one line, a content is marked found exactly when it was already or the line contains it |
| FileAssert.FileContains | Assets/June/_Core/Editor/JuneBuildProvider/JuneAssert.cs:32-47 | false for a null or empty path, a missing file, or null or empty contents; otherwise true exactly when each content occurs within some line, different contents possibly on different lines |
| FileAssert.AllTrue | Assets/June/_Core/Editor/JuneBuildProvider/JuneAssert.cs:43 | `found.All(f => f)` holds exactly when every flag is set |
| FileAssert.FileContainsAll | Assets/June/_Core/Editor/JuneBuildProvider/JuneAssert.cs:20-22 | a null sequence throws `ArgumentNullException`; otherwise the answer is the array overload's on the same elements |
| FileAssert.MultiLineNeverFound | Assets/June/_Core/Editor/JuneBuildProvider/JuneAssert.cs:13-16 | a content holding a line break is never found, since no line read holds one |
| FileAssert.EmptyContentNeedsALine | Assets/June/_Core/Editor/JuneBuildProvider/JuneAssert.cs:36-41 | the empty content is found exactly when the file has at least one line |
| FindRefs.ParseLine | Assets/June/_Core/Editor/JuneEditorUtils.cs:27-32 | an empty line, or one without `:`, adds nothing; any reference produced has a non-empty path without `:` |
| FindRefs.SplitPieces | Assets/June/_Core/Editor/JuneEditorUtils.cs:28-29 | a line splits into two or more pieces exactly when it holds `:` |
| FindRefs.Collect | Assets/June/_Core/Editor/JuneEditorUtils.cs:26-34 | at most one reference per line, each with a plain path |
| FindRefs.CollectCons | Assets/June/_Core/Editor/JuneEditorUtils.cs:26-34 | a line that yields nothing is skipped, and a reference from a line comes before those of the later lines |
| FindRefs.FindReferences | Assets/June/_Core/Editor/JuneEditorUtils.cs:21-37 | a null or empty output gives an empty list; every reference has a plain path |
| FindRefs.ParseGrepLine | Assets/June/_Core/Editor/JuneEditorUtils.cs:28-31 | a `path:line:text` line gives back that path and line number |
| FindRefs.GrepLineIsOneLine | Assets/June/_Core/Editor/JuneEditorUtils.cs:25 | a reported match holds no line break |
| FindRefs.SplitGrepOutput | Assets/June/_Core/Editor/JuneEditorUtils.cs:25 | splitting the output on `\n` gives one line per match, in order, and the empty piece after the final newline |
| FindRefs.CollectGrepLines | Assets/June/_Core/Editor/JuneEditorUtils.cs:26-34 | those lines parse to one reference per match, in order |
| FindRefs.RoundTrip | Assets/June/_Core/Editor/JuneEditorUtils.cs:21-37 | parsing `grep -n` output gives back each match's path and line number, in input order |
| FindRefs.NoColonNoReferences | Assets/June/_Core/Editor/JuneEditorUtils.cs:28-29 | lines without `:` give no reference |
| FindRefs.EmptyPathThrows | Assets/June/_Core/Editor/JuneEditorUtils.cs:31 | a line that starts with `:` throws `ArgumentException` from the `FileInfo` constructor |
| FindRefs.LineNumberOverflows | Assets/June/_Core/Editor/JuneEditorUtils.cs:31 | a line number beyond `int.MaxValue` throws `OverflowException` |
| FindRefs.MalformedNumberThrows | Assets/June/_Core/Editor/JuneEditorUtils.cs:31 | a non-numeric line field throws `FormatException` |
| Sorting.Sort | Assets/June/_Core/Util.cs:473 | the sort returns a permutation of its input, ordered by any comparison that is a total preorder |
| Sorting.InsertKeepsSorted | Assets/June/_Core/Util.cs:473 | inserting into a sorted sequence keeps it sorted |

## Left out

- Engine coroutines. `StartCoroutine`, the editor-mode busy-wait in
  `Job.Start` and the `JobManager` singleton with `KillAllJobs` are left
  out. One frame of the scheduler is `Jobs.Tick`, and `Start` is modelled
  as it runs in play mode.
- `Job.Kill(float)` and `Dispatcher.ToMainThreadAfterDelay`. Both wait on
  wall-clock time, a timer thread and a lock. A later `Kill` is the
  plain `Jobs.Kill`.
- `Dispatcher.ToBackgroundThread` and `RunAsync`. They run on the thread
  pool.
- The engine side of `Dispatcher.Initialize`: finding or creating the game
  object and subscribing to the editor update.
- `Job.ToString`, the `_OnJobStarted` / `_OnJobCompleted` editor hooks and
  logging. The editor window uses them.
- Jobs.Tick: running a delegate yields no value, so only the yielded
  tokens of a work unit are modelled. A nested enumerator that a work unit
  yields is not started as a child coroutine.
- Jobs.Tick: the child stack holds copies of the children as they were
  when pushed. A child changed through another reference afterwards, for
  example killed by its holder after `AddChildJob`, is drained as it was
  pushed. In C# it would report `true`; the model reports `false`.
- Jobs.Tick: one frame is one turn of a single `DoWork` loop. A job started
  more than once runs several loops; those are modelled by
  `Jobs.LoopsFrame` and `Jobs.RunLoops`, for jobs without children only.
- Jobs.StartRun: states the `Start` of a job that is not yet in its
  coroutine. A second `Start` adds a loop, and that is `Jobs.StartAgain`.
  A job with children that is started twice is not modelled.
- Jobs.RemoveChildJob: a child stack is modelled by the jobs' identities
  and values. A child object changed after it was pushed is not tracked.
- Util.cs members outside the core:
  - the HTTP, ping and reachability jobs (network);
  - the JSON file and resource (de)serialisation (I/O and the SimpleJson
    parser);
  - `SHA1Encode` (a foreign hash);
  - `GetTimeZone` (clock and floating point);
  - `Shuffle` (time-seeded randomness).
- `BaseModel.GetFloat`, `GetDouble`, `GetEnum` and `GetModel`: floating
  point, `Enum.Parse` and a converter taken on trust.
- Strings.ParseInt32, Strings.ParseInt64: model `int.Parse` and
  `long.Parse` on an optional sign followed by ASCII digits. The leading
  and trailing white space that `NumberStyles.Integer` accepts, and
  culture-specific signs, are not modelled: `long.Parse(" 7")` returns 7,
  where the model gives `Fail(Format)`.
- Strings.ToUpperChar: upper-cases the ASCII letters only. Culture-aware
  case mapping of other letters, used by `char.ToUpper` and
  `string.ToUpper`, is not modelled.
- Util.ToTitleCase: upper-cases only ASCII letters, as
  `Strings.ToUpperChar` does.
- Linq.Select, Linq.SelectMany, Linq.FirstOrDefault, Linq.UniqueList and
  Linq.Contains take a non-null sequence. The code dereferences a null
  list and throws `NullReferenceException`, which is not modelled.
- Linq.MaxBy: the selector and the comparer are taken non-null, and keys
  are integers with the default comparer.
- Sorting.Sort: a stable insertion sort stands in for the unstable
  `Array.Sort` and `List.Sort`. Only the order and the permutation are
  stated, which both sorts satisfy. For `Util.Median` the sorted array is
  determined uniquely anyway.
- Collection.Sort: the comparison is assumed to be a total preorder for
  the ordering claim. A comparison that is not one is permuted only.
- Util.ConvertToGenericDictionary: the input's keys are distinct, as a
  dictionary's are. Keys are strings, so `key.ToString()` is the key
  itself.
- Util.IsNumber: boxed values are represented by their runtime type alone.
- BuildSummary.WriteSectionHeader: the header is taken non-null. The
  report passes only literals.
- `JuneBuildSummary.GenerateBuildReport`: writing the file and starting the
  browser (I/O and processes). The report text is `BuildSummary.Report`.
- The rows of the Game Config section. The code writes none.
- `RichText.AppendFormat`: composite formatting of arbitrary objects.
- `JuneBuildWindow` apart from `BUILD_SYMBOLS`: GUI.
- `JuneBuildValidator` logging, `UnityBuildTargetGroup`, `OpenEditor` and
  `ToString`: editor output.
- Attribute discovery by reflection. The tagged methods are a parameter
  of `Validator.DiscoverItems`.
- Validator.ValidateItem: `Method.Invoke` is represented by the method's
  stored result. An exception thrown by the invoked method is not
  modelled. Of the exceptions `Invoke` itself throws, only the parameter
  count mismatch is: discovery admits two-parameter methods only when
  their parameter types are `String` and `Assembly`, so no argument type
  mismatch can reach `Invoke`.
- `JuneEditorUtils.FindInFiles` and `ExecuteCommand`: spawning `grep`. Its
  output is the parameter of `FindRefs.FindReferences`.
- FindRefs.ParseLine: the `FileInfo` constructor rejects the empty path.
  Its rejection of white-space-only paths and invalid path characters is
  not modelled.
- `JuneAssert.ConstantFieldEquals`, `Equals` and `Log`: reflection and
  output.
- FileAssert.FileContains: the file is its sequence of lines as
  `ReadLine` returns them. A null element of the contents array is not
  modelled.
- Partial state changes before an exception are dropped where the model
  returns `Fail`: the `Result` carries no state. The one exception is
  `Config`, whose `Outcome` keeps the state left behind.
- The `USE_GENERIC_LIST_FOR_ITEMS` variant of BaseConfig.cs: its
  `#define` is commented out (BaseConfig.cs:2), so the code uses the
  `#else` branch, which is the one modelled. BaseModel.cs defines
  `ENABLE_GENERIC_BASE_MODEL` (line 3); the generic branch it switches on
  is the one modelled, and its `#else` and `#if !ENABLE_GENERIC_BASE_MODEL`
  code is left out.
- `BaseCollection.ToString`, `BaseCollection.GetEnumerator` and the
  enumerator of the `BaseList<TModel>` in IBaseModel.cs. Their content is
  the items, covered by `Collection.Get` and `RecordList.RawRecords`.
- PlainList: the `BaseList(ICollection<T>)` and `BaseList(IEnumerable<T>)`
  constructors (BaseCollection.cs:316-322). Each passes a `List<T>`, which
  is not a `List<object>`, so overload resolution picks the
  `ICollection<T>` constructor again. That constructor calls itself, which
  C# rejects (error CS0516), so there is no behaviour to model. A list is
  built by `PlainList.FromRecords` or `PlainList.Empty`.
- PlainList.FromRecords: a null list is not modelled. Every member would
  then throw `NullReferenceException`.
- Config.RemoveAsWritten: the index comes from `RecordList.IndexOf`, which
  compares models by value. C# `List.IndexOf` on `BaseModel` objects
  compares references, because `BaseModel` does not override `Equals`.
  With two equal records in the array, removing the second model finds the
  first one in the model.
- Config.Remove: the same value comparison as `Config.RemoveAsWritten`.
- Config.UpdateDoc: always unlinks the item list from the document. In
  C#, a document whose root key holds the very `JsonArray` the items wrap
  (the current document again, say) leaves them shared, and a later `Add`
  then writes the record twice, as `Config.AddAsWritten` does on a linked
  configuration. The model has no array identities to tell that case
  apart.
- Collection.Remove: compares items by value. C# `_Items[i] != item`
  (BaseCollection.cs:117) compares `BaseModel` references, and items
  built from equal records are equal in the model. With raw `[R, R]`,
  removing the first item leaves `[a2]` in C# and `[null]` in the model;
  removing a model equal to the only item but a different object
  overruns the empty array with `IndexOutOfRangeException` in C#, where
  the model returns an empty collection.
- RecordList.IndexOf: compares models with Dafny's value equality. C#
  `List.IndexOf` calls `Equals`, which for a `BaseModel` (it does not
  override `Equals`) compares references. Two distinct but equal models
  are told apart in C# and not in the model.
- RecordList.Contains: the same value comparison as `RecordList.IndexOf`.
- RecordList.Remove: the record removed from the raw list is the first one
  equal in value to the model's record. C# `List<object>.Remove` compares
  a `JsonObject` by reference, so with raw `[R]` and a model whose record
  is an equal copy of `R`, C# leaves the raw list alone while the model
  empties it. For scalar records (numbers, strings) C# also compares by
  value.

## Findings

| source | as written | input that shows it | evidently intended | confidence | as-written member | corrected member |
|---|---|---|---|---|---|---|
| Assets/June/_Core/Util.cs:478 | the two middle elements are added in 32-bit arithmetic before halving | `Median(new[] { int.MaxValue, int.MaxValue })` returns -1 | the median of two equal values is that value; the average must not overflow | not executed | Util.MedianAsWrittenOverflows | Util.MedianIsMiddle |
| Assets/June/_Core/Util.cs:459 | the guard `!obj.Contains(key)` is false for every key enumerated from `obj.Keys` | `ConvertToGenericDictionary` of `{ "a": 1 }` returns an empty dictionary | copy every entry under its key's text | not executed | Util.ConvertToGenericDictionaryLosesEntries | Util.ConvertToGenericDictionary |
| Assets/June/_Core/IBaseModel.cs:365 | the bound test is `arrayIndex + Count >= array.Length` | copying one model into a one-slot array at index 0 throws `ArgumentException` | reject only a copy that overruns the array (`>`) | not executed | RecordList.CopyToExactFit | RecordList.CopyTo |
| Assets/June/_Core/BaseConfig.cs:167-168 | the record is added to the root array, then the item list, which shares that array, adds the model's record again | `Add(d)` on a loaded config with n items leaves n + 1 models over n + 2 array entries | add the record once, keeping models and records in step | not executed | Config.AddAsWrittenBreaksAlignment | Config.AddKeepsLoaded |
| Assets/June/_Core/BaseConfig.cs:187-188 | the entry is removed from the root array, then the item list, which shares that array, removes at the same index again | `Remove` of the last item throws `ArgumentOutOfRangeException`; of any other item, it also drops the next record | remove the entry once | not executed | Config.RemoveAsWrittenLastItemThrows | Config.RemoveKeepsLoaded |
| _Core/Editor/JuneBuildProvider/JuneBuildValidator.cs:232-240 | parameter names are compared only when the counts agree; otherwise the return type alone decides | a parameterless method returning `bool` is accepted as a `bool (string, Assembly)` validator | a signature with a different parameter count does not match | not executed | Validator.AsWrittenAcceptsWrongArity | Validator.CompareMethodSignature |
| _Core/Editor/JuneBuildProvider/JuneBuildValidator.cs:176-181 | discovery filters the tagged methods through that comparison | a tagged `bool Check()` becomes a validation item; `Validate` invokes it with two arguments, which throws `TargetParameterCountException` and aborts the validation | only methods of the delegate's signature become items | not executed | Validator.DiscoverKeepsWrongArity | Validator.DiscoverItemsCorrected |
| Assets/June/_Core/IBaseModel.cs:365-368 | the bound test and the loop bound add `arrayIndex` and `Count` in 32-bit arithmetic | `CopyTo(array, int.MaxValue)` with one model and a one-slot array wraps the sum to a negative value, passes the test, copies nothing and returns normally | reject a copy that does not fit in the array | not executed | RecordList.CopyToOverflow | RecordList.CopyTo |
| _Core/Editor/JuneBuildProvider/JuneBuildWindow.cs:81-86 | the separator is added before every entry once the text is not empty, enabled or not | `RELEASE` on and `NGUI` off give `RELEASE;` | the enabled symbols joined by `;` | not executed | BuildSymbols.TrailingSeparator | BuildSymbols.SymbolsCorrectedJoinsEnabled |

=== FILE: base_model.dfy ===
/** `June.Core.BaseModel` (Assets/June/_Core/BaseModel.cs, with `IBaseModel<TRecord>` from
    Assets/June/_Core/IBaseModel.cs): a model object wrapping a possibly-null JSON record, and
    its typed accessors. A null record makes every accessor that dereferences
    it throw `NullReferenceException`. */
module BaseModel {
  import opened Wrappers
  import opened Strings
  import opened Json
  import Linq

  datatype Model = Model(record: Option<Record>)

  /** `UpdateDoc`: the model now wraps `doc`. */
  function UpdateDoc(m: Model, doc: Option<Record>): (r: Model)
    ensures GetRaw(r) == doc
  {
    Model(doc)
  }

  /** `GetRaw`: the record last handed to `UpdateDoc` (or the constructor). */
  function GetRaw(m: Model): Option<Record> {
    m.record
  }

  /** The constructor passes its document to `UpdateDoc`. */
  function New(doc: Option<Record>): (m: Model)
    ensures GetRaw(m) == doc
  {
    UpdateDoc(Model(None), doc)
  }

  /** `Get<T>`: the stored value when the key is present and holds a `T`,
      otherwise `default(T)`, which is `None` here. */
  function Get(m: Model, key: string, kind: Kind): (r: Result<Option<Value>>)
    ensures m.record.None? ==> r == Fail(NullReference)
    ensures m.record.Some? ==> r.Ok?
    ensures r.Ok? ==> (r.value.Some? <==> key in m.record.value && HasKind(m.record.value[key], kind))
    ensures r.Ok? && r.value.Some? ==> r.value.value == m.record.value[key]
  {
    match m.record
    case None => Fail(NullReference)
    case Some(rec) =>
      if key in rec && HasKind(rec[key], kind) then Ok(Some(rec[key])) else Ok(None)
  }

  /** `GetInt`: 0 for a missing key, otherwise `int.Parse` of the stored
      value's text. A null value throws; a record or list never parses,
      since its text starts with a bracket. */
  function GetInt(m: Model, key: string): (r: Result<Int32>)
    ensures m.record.None? ==> r == Fail(NullReference)
    ensures m.record.Some? && key !in m.record.value ==> r == Ok(0)
    ensures m.record.Some? && key in m.record.value && m.record.value[key].Null? ==> r == Fail(NullReference)
    ensures m.record.Some? && key in m.record.value && m.record.value[key].Str? ==>
              r == ParseInt32(m.record.value[key].s)
  {
    match m.record
    case None => Fail(NullReference)
    case Some(rec) =>
      if key !in rec then Ok(0)
      else if rec[key].Null? then Fail(NullReference)
      else match ScalarText(rec[key])
        case None => Fail(Format)
        case Some(text) => var n :- ParseInt32(text); Ok(n)
  }

  /** `GetLong`: as `GetInt` with `long.Parse`. */
  function GetLong(m: Model, key: string): (r: Result<Int64>)
    ensures m.record.None? ==> r == Fail(NullReference)
    ensures m.record.Some? && key !in m.record.value ==> r == Ok(0)
    ensures m.record.Some? && key in m.record.value && m.record.value[key].Null? ==> r == Fail(NullReference)
    ensures m.record.Some? && key in m.record.value && m.record.value[key].Str? ==>
              r == ParseInt64(m.record.value[key].s)
  {
    match m.record
    case None => Fail(NullReference)
    case Some(rec) =>
      if key !in rec then Ok(0)
      else if rec[key].Null? then Fail(NullReference)
      else match ScalarText(rec[key])
        case None => Fail(Format)
        case Some(text) => var n :- ParseInt64(text); Ok(n)
  }

  /** `GetBool`: false for a missing key, otherwise an unboxing cast, which
      throws on null and on anything that is not a boxed `bool`. */
  function GetBool(m: Model, key: string): (r: Result<bool>)
    ensures m.record.None? ==> r == Fail(NullReference)
    ensures m.record.Some? && key !in m.record.value ==> r == Ok(false)
    ensures r.Ok? && r.value ==> key in m.record.value && m.record.value[key] == Bool(true)
    ensures m.record.Some? && key in m.record.value && !m.record.value[key].Bool? ==> r.Fail?
  {
    match m.record
    case None => Fail(NullReference)
    case Some(rec) =>
      if key !in rec then Ok(false)
      else match rec[key]
        case Bool(b) => Ok(b)
        case Null => Fail(NullReference)
        case _ => Fail(InvalidCast)
  }

  /** `GetString`, which is `Get<string>`: null unless a string is stored. */
  function GetString(m: Model, key: string): (r: Result<Option<string>>)
    ensures m.record.None? ==> r == Fail(NullReference)
    ensures r.Ok? ==> (r.value.Some? <==> key in m.record.value && m.record.value[key].Str?)
    ensures r.Ok? && r.value.Some? ==> m.record.value[key] == Str(r.value.value)
  {
    var v :- Get(m, key, StringKind);
    match v
    case None => Ok(None)
    case Some(s) => Ok(Some(s.s))
  }

  /** `GetAsString`: the empty string for a missing key, otherwise the stored
      value's `ToString()`, which throws on null. `json` gives the text of a
      record or list (its JSON serialisation). */
  function GetAsString(m: Model, key: string, json: Value -> string): (r: Result<string>)
    ensures m.record.None? ==> r == Fail(NullReference)
    ensures m.record.Some? && key !in m.record.value ==> r == Ok("")
    ensures m.record.Some? && key in m.record.value ==>
              (r.Fail? <==> m.record.value[key].Null?)
    ensures m.record.Some? && key in m.record.value && m.record.value[key].Str? ==>
              r == Ok(m.record.value[key].s)
  {
    match m.record
    case None => Fail(NullReference)
    case Some(rec) =>
      if key !in rec then Ok("")
      else if rec[key].Null? then Fail(NullReference)
      else match ScalarText(rec[key])
        case None => Ok(json(rec[key]))
        case Some(text) => Ok(text)
  }

  /** The string elements of a list, in order. */
  function StringItems(items: seq<Value>): (r: seq<string>)
    ensures |r| <= |items|
    ensures forall i :: 0 <= i < |items| && items[i].Str? ==> items[i].s in r
    ensures forall i :: 0 <= i < |r| ==> Str(r[i]) in items
    decreases |items|
  {
    if |items| == 0 then []
    else
      var rest := StringItems(items[1..]);
      assert forall i :: 1 <= i < |items| && items[i].Str? ==> items[i].s in rest by {
        forall i | 1 <= i < |items| && items[i].Str? ensures items[i].s in rest {
          assert items[1..][i - 1] == items[i];
        }
      }
      assert forall i :: 0 <= i < |rest| ==> Str(rest[i]) in items by {
        forall i | 0 <= i < |rest| ensures Str(rest[i]) in items {
          assert Str(rest[i]) in items[1..];
        }
      }
      match items[0]
      case Str(s) => [s] + rest
      case _ => rest
  }

  /** The string elements of a list are the strings of the filtered list. */
  lemma {:induction false} StringsIsFilter(items: seq<Value>)
    ensures StringItems(items) == Linq.Select(Linq.Filter(items, (v: Value) => v.Str?), (v: Value) => if v.Str? then v.s else "")
    decreases |items|
  {
    if |items| > 0 {
      StringsIsFilter(items[1..]);
    }
  }

  /** `GetStringList`: the string elements of the list at the key, in order;
      empty when the key is missing or holds no list. */
  function GetStringList(m: Model, key: string): (r: Result<seq<string>>)
    ensures m.record.None? ==> r == Fail(NullReference)
    ensures m.record.Some? ==> r.Ok?
    ensures m.record.Some? && (key !in m.record.value || !m.record.value[key].List?) ==> r == Ok([])
    ensures m.record.Some? && key in m.record.value && m.record.value[key].List? ==>
              r == Ok(StringItems(m.record.value[key].items))
  {
    var v :- Get(m, key, ListKind);
    match v
    case None => Ok([])
    case Some(list) => Ok(StringItems(list.items))
  }

  /** `Set`: overwrite or insert the key; a model without a record is left
      alone. */
  function Set(m: Model, key: string, v: Value): (r: Model)
    ensures m.record.None? ==> r == m
    ensures m.record.Some? ==> r.record.Some? && key in r.record.value && r.record.value[key] == v
    ensures m.record.Some? ==> forall k :: k != key ==>
              (k in r.record.value <==> k in m.record.value)
              && (k in m.record.value ==> r.record.value[k] == m.record.value[k])
  {
    match m.record
    case None => m
    case Some(rec) => Model(Some(rec[key := v]))
  }

  /** The getter of the indexer: a missing key throws. */
  function Index(m: Model, key: string): (r: Result<Value>)
    ensures m.record.None? ==> r == Fail(NullReference)
    ensures m.record.Some? ==> (r.Ok? <==> key in m.record.value)
    ensures m.record.Some? && key !in m.record.value ==> r == Fail(KeyNotFound)
    ensures r.Ok? ==> r.value == m.record.value[key]
  {
    match m.record
    case None => Fail(NullReference)
    case Some(rec) => if key in rec then Ok(rec[key]) else Fail(KeyNotFound)
  }

  /** The setter of the indexer: writes the record directly, so unlike `Set`
      it throws on a null record. */
  function SetIndex(m: Model, key: string, v: Value): (r: Result<Model>)
    ensures r.Fail? <==> m.record.None?
    ensures r.Fail? ==> r.error == NullReference
    ensures r.Ok? ==> r.value == Set(m, key, v)
  {
    match m.record
    case None => Fail(NullReference)
    case Some(rec) => Ok(Model(Some(rec[key := v])))
  }

  // ---------------------------------------------------------------------
  // Read-after-write properties

  /** The indexer reads back what it wrote. */
  lemma IndexAfterSetIndex(m: Model, key: string, v: Value)
    requires m.record.Some?
    ensures Index(SetIndex(m, key, v).value, key) == Ok(v)
  {
  }

  /** A stored `long` reads back through `GetLong`. */
  lemma GetLongAfterSet(m: Model, key: string, n: Int64)
    requires m.record.Some?
    ensures GetLong(Set(m, key, Long(n)), key) == Ok(n)
  {
    IntTextParses(n);
  }

  /** A stored `long` reads back through `GetInt` when it fits in an `int`,
      and overflows otherwise. */
  lemma GetIntAfterSet(m: Model, key: string, n: Int64)
    requires m.record.Some?
    ensures GetInt(Set(m, key, Long(n)), key) ==
            (if INT32_MIN <= n <= INT32_MAX then Ok(n) else Fail(Overflow))
  {
    IntTextParses(n);
  }

  /** A stored string reads back through `GetString` and `GetAsString`. */
  lemma GetStringAfterSet(m: Model, key: string, s: string, json: Value -> string)
    requires m.record.Some?
    ensures GetString(Set(m, key, Str(s)), key) == Ok(Some(s))
    ensures GetAsString(Set(m, key, Str(s)), key, json) == Ok(s)
  {
  }

  /** Writing one key leaves every other key's reading unchanged. */
  lemma SetLeavesOtherKeys(m: Model, key: string, other: string, v: Value, kind: Kind)
    requires key != other
    ensures Get(Set(m, key, v), other, kind) == Get(m, other, kind)
  {
  }

  /** A boxed boolean reads back through `GetBool`. */
  lemma GetBoolAfterSet(m: Model, key: string, b: bool)
    requires m.record.Some?
    ensures GetBool(Set(m, key, Bool(b)), key) == Ok(b)
  {
  }
}

=== FILE: build_summary.dfy ===
/** `JuneBuildSummary` (_Core/Editor/JuneBuildProvider/JuneBuildSummary.cs):
    an HTML build report written by a list of generators into one string
    builder. The builder is its text; every helper only appends. Writing the
    file and opening it are left out. */
module BuildSummary {
  import opened Wrappers

  const Title := "Ninjump Dash"

  /** `WriteSectionHeader`: `<h3>header</h3>`. */
  function WriteSectionHeader(b: string, header: string): (r: string)
    ensures |r| == |b| + |header| + 9
    ensures r[..|b|] == b && r[|b|..] == "<h3>" + header + "</h3>"
  {
    b + "<h3>" + header + "</h3>"
  }

  function WriteTableStart(b: string): (r: string)
    ensures |r| == |b| + 7 && r[..|b|] == b && r[|b|..] == "<table>"
  {
    b + "<table>"
  }

  function WriteTableEnd(b: string): (r: string)
    ensures |r| == |b| + 8 && r[..|b|] == b && r[|b|..] == "</table>"
  {
    b + "</table>"
  }

  /** One `<td>` cell; `AppendFormat` writes a null argument as nothing. */
  function Cell(col: Option<string>): string {
    "<td>" + col.GetOr("") + "</td>"
  }

  /** The cells of a row, in column order. */
  function Cells(cols: seq<Option<string>>): string
    decreases |cols|
  {
    if |cols| == 0 then "" else Cells(cols[..|cols| - 1]) + Cell(cols[|cols| - 1])
  }

  /** The text `WriteTableRow` appends: nothing for a null or empty column
      list, otherwise `<tr>`, a cell per column in order, `</tr>`. */
  function RowText(columns: Option<seq<Option<string>>>): string {
    if columns.None? || |columns.value| == 0 then "" else "<tr>" + Cells(columns.value) + "</tr>"
  }

  /** `WriteTableRow`, as its loop over the columns. */
  method WriteTableRow(b: string, columns: Option<seq<Option<string>>>) returns (r: string)
    ensures columns.None? || |columns.value| == 0 ==> r == b
    ensures r == b + RowText(columns)
  {
    r := b;
    if columns.Some? && |columns.value| > 0 {
      var cols := columns.value;
      var open := b + "<tr>";
      r := open;
      var i := 0;
      assert cols[..0] == [];
      while i < |cols|
        invariant 0 <= i <= |cols|
        invariant r == open + Cells(cols[..i])
      {
        CellsStep(cols, i);
        var cell := Cell(cols[i]);
        assert (open + Cells(cols[..i])) + cell == open + (Cells(cols[..i]) + cell);
        r := r + cell;
        i := i + 1;
      }
      assert cols[..i] == cols;
      var cells := Cells(cols);
      assert (b + "<tr>" + cells) + "</tr>" == b + ("<tr>" + cells + "</tr>");
      r := r + "</tr>";
    }
  }

  /** The cells of one more column are those of the others, then its own. */
  lemma CellsStep(cols: seq<Option<string>>, i: nat)
    requires i < |cols|
    ensures Cells(cols[..i + 1]) == Cells(cols[..i]) + Cell(cols[i])
  {
    assert cols[..i + 1][..i] == cols[..i];
    assert cols[..i + 1][i] == cols[i];
  }

  /** The cells of `a + c` are those of `a` then those of `c`. */
  lemma {:induction false} CellsAppend(a: seq<Option<string>>, c: seq<Option<string>>)
    ensures Cells(a + c) == Cells(a) + Cells(c)
    decreases |c|
  {
    if |c| == 0 {
      assert a + c == a;
    } else {
      var init, last := c[..|c| - 1], c[|c| - 1];
      assert (a + c)[..|a + c| - 1] == a + init;
      assert (a + c)[|a + c| - 1] == last;
      assert Cells(a + c) == Cells(a + init) + Cell(last);
      CellsAppend(a, init);
      assert Cells(c) == Cells(init) + Cell(last);
      assert (Cells(a) + Cells(init)) + Cell(last) == Cells(a) + (Cells(init) + Cell(last));
    }
  }

  /** A row of `n` columns holds exactly `n` cells: each column's text
      framed by `<td>` and `</td>`, in order. */
  lemma {:induction false} CellsAreColumns(cols: seq<Option<string>>)
    ensures |cols| == 0 ==> Cells(cols) == ""
    ensures |cols| > 0 ==> Cells(cols) == Cells(cols[..|cols| - 1]) + "<td>" + cols[|cols| - 1].GetOr("") + "</td>"
    ensures |cols| == 2 ==> Cells(cols) == "<td>" + cols[0].GetOr("") + "</td><td>" + cols[1].GetOr("") + "</td>"
  {
    if |cols| == 2 {
      assert cols[..1][..0] == [];
      assert Cells(cols[..1]) == Cell(cols[0]);
    }
  }

  // ---------------------------------------------------------------------
  // The report

  /** What the editor's `PlayerSettings` supply to the build-options
      section; the Android rows appear only in an Android build. */
  datatype Settings = Settings(
    bundleIdentifier: string,
    bundleVersion: string,
    android: Option<(string, string)>)  // version code and minimum API level

  /** The report's generators. */
  datatype Generator = Header | BuildOptions | GameConfig | Footer

  /** `GENERATORS`, in order. */
  const Generators: seq<Generator> := [Header, BuildOptions, GameConfig, Footer]

  function HeaderText(): string {
    "<html><head><title>" + Title + "</title></head><body>" + "<h1>" + Title + "</h1>"
  }

  const FooterText := "</body></html>"

  /** `WriteTableRow(builder, key, value)`. */
  function PairRow(b: string, key: string, value: string): (r: string)
    ensures r == b + "<tr><td>" + key + "</td><td>" + value + "</td></tr>"
  {
    var cols := [Some(key), Some(value)];
    CellsAreColumns(cols);
    var cells := "<td>" + key + "</td><td>" + value + "</td>";
    assert RowText(Some(cols)) == "<tr>" + cells + "</tr>";
    assert "<tr>" + cells + "</tr>" == "<tr><td>" + key + "</td><td>" + value + "</td></tr>";
    b + RowText(Some(cols))
  }

  /** What one generator does to the builder. */
  function Write(g: Generator, b: string, s: Settings): (r: string)
    ensures |r| >= |b| && r[..|b|] == b
  {
    match g
    case Header => b + HeaderText()
    case BuildOptions =>
      var rows := PairRow(PairRow(WriteTableStart(WriteSectionHeader(b, "Build Options")),
                                  "Bundle Identifier", s.bundleIdentifier),
                          "Bundle Version", s.bundleVersion);
      var android := match s.android
                     case None => rows
                     case Some((code, level)) =>
                       PairRow(PairRow(rows, "Bundle Version Code", code), "Minimum API Level", level);
      WriteTableEnd(android)
    case GameConfig => WriteTableEnd(WriteTableStart(WriteSectionHeader(b, "Game Config")))
    case Footer => b + FooterText
  }

  /** Running generators in order over one builder: each only appends, so
      the builder's text is a prefix of the result. */
  function Run(b: string, gens: seq<Generator>, s: Settings): (r: string)
    ensures |r| >= |b| && r[..|b|] == b
    decreases |gens|
  {
    if |gens| == 0 then b else Run(Write(gens[0], b, s), gens[1..], s)
  }

  /** Running `a` then `c` is running `a + c`. */
  lemma {:induction false} RunAppend(b: string, a: seq<Generator>, c: seq<Generator>, s: Settings)
    ensures Run(b, a + c, s) == Run(Run(b, a, s), c, s)
    decreases |a|
  {
    if |a| == 0 {
      assert a + c == c;
    } else {
      assert (a + c)[0] == a[0] && (a + c)[1..] == a[1..] + c;
      RunAppend(Write(a[0], b, s), a[1..], c, s);
    }
  }

  /** The generators run one after another: the last runs on what the
      others have written. */
  lemma RunLast(b: string, gens: seq<Generator>, s: Settings)
    requires |gens| > 0
    ensures Run(b, gens, s) == Write(gens[|gens| - 1], Run(b, gens[..|gens| - 1], s), s)
  {
    var init := gens[..|gens| - 1];
    var last := gens[|gens| - 1];
    assert gens == init + [last];
    RunAppend(b, init, [last], s);
    assert Run(Run(b, init, s), [last], s) == Run(Write(last, Run(b, init, s), s), [], s);
  }

  /** `GenerateBuildReport`: the text written to the file. */
  function Report(s: Settings): string {
    Run("", Generators, s)
  }

  /** The report is the header, the two table sections written after it,
      and the footer. */
  lemma ReportParts(s: Settings)
    ensures Report(s) == Run(HeaderText(), [BuildOptions, GameConfig], s) + FooterText
  {
    var tables := [BuildOptions, GameConfig];
    assert Generators == [Header] + tables + [Footer];
    RunAppend("", [Header] + tables, [Footer], s);
    RunAppend("", [Header], tables, s);
    var front := Run(HeaderText(), tables, s);
    assert Run("", [Header], s) == HeaderText();
    assert Run(front, [Footer], s) == front + FooterText;
  }

  /** The report opens with the title header and closes the document. */
  lemma ReportFrame(s: Settings)
    ensures var html := Report(s);
            && |html| >= |HeaderText()| + |FooterText|
            && html[..|HeaderText()|] == HeaderText()
            && html[|html| - |FooterText|..] == FooterText
  {
    ReportParts(s);
    var front := Run(HeaderText(), [BuildOptions, GameConfig], s);
    var html := front + FooterText;
    assert html[..|HeaderText()|] == front[..|HeaderText()|];
    assert html[|html| - |FooterText|..] == FooterText;
  }
}

=== FILE: build_symbols.dfy ===
/** The `BUILD_SYMBOLS` property of `JuneBuildWindow`
    (_Core/Editor/JuneBuildProvider/JuneBuildWindow.cs): the scripting define
    symbols string built from the window's symbol table, a dictionary from
    symbol name to whether it is switched on, enumerated in insertion order.

    The loop adds a separator before every entry once the text so far is not
    empty, whether or not that entry is switched on; so after the first
    enabled symbol every later entry, on or off, contributes one `;`. */
module BuildSymbols {
  import Strings

  const Separator: char := ';'

  /** The symbols the window lists, in its dictionary's order. */
  const SymbolNames: seq<string> := ["RELEASE", "INAPP_ENABLED", "NGUI", "TK2D", "SPINE_TK2D", "HTTP_CONSOLE"]

  /** A dictionary entry: the symbol and whether it is switched on. */
  type Entry = (string, bool)

  /** The window's table, each listed symbol paired with whether its own
      define is set in the running editor. */
  function Table(on: seq<bool>): (r: seq<Entry>)
    requires |on| == |SymbolNames|
    ensures |r| == |SymbolNames|
    ensures forall i :: 0 <= i < |r| ==> r[i] == (SymbolNames[i], on[i])
  {
    seq(|on|, i requires 0 <= i < |on| => (SymbolNames[i], on[i]))
  }

  /** One iteration of the loop over the dictionary. */
  function Step(symbols: string, e: Entry): string {
    (if symbols != "" then symbols + [Separator] else symbols) + (if e.1 then e.0 else "")
  }

  /** The loop from a given text onward. */
  function Fold(symbols: string, entries: seq<Entry>): string
    decreases |entries|
  {
    if |entries| == 0 then symbols else Fold(Step(symbols, entries[0]), entries[1..])
  }

  /** `BUILD_SYMBOLS`. */
  function Symbols(entries: seq<Entry>): string {
    Fold("", entries)
  }

  /** What an entry contributes once the text is not empty: its name when
      on, an empty segment when off. */
  function Segment(e: Entry): (s: string)
    ensures e.1 ==> s == e.0
    ensures !e.1 ==> s == ""
  {
    if e.1 then e.0 else ""
  }

  function Segments(entries: seq<Entry>): (r: seq<string>)
    ensures |r| == |entries|
    ensures forall i :: 0 <= i < |entries| ==> r[i] == Segment(entries[i])
  {
    seq(|entries|, i requires 0 <= i < |entries| => Segment(entries[i]))
  }

  /** Once the text is not empty, each entry adds one separator and its
      segment: the result is the text and the segments joined by `;`. */
  lemma {:induction false} FoldJoins(symbols: string, entries: seq<Entry>)
    requires symbols != ""
    ensures Fold(symbols, entries) == Strings.Join([symbols] + Segments(entries), Separator)
    decreases |entries|
  {
    if |entries| == 0 {
      assert [symbols] + Segments(entries) == [symbols];
    } else {
      var next := symbols + [Separator] + Segment(entries[0]);
      assert Step(symbols, entries[0]) == next;
      FoldJoins(next, entries[1..]);
      var rest := Segments(entries[1..]);
      assert Segments(entries) == [Segment(entries[0])] + rest;
      JoinGlue(symbols, Segment(entries[0]), rest);
    }
  }

  /** Joining a piece that already holds `a;b` is joining `a` and `b`. */
  lemma JoinGlue(a: string, b: string, rest: seq<string>)
    ensures Strings.Join([a + [Separator] + b] + rest, Separator)
         == Strings.Join([a] + ([b] + rest), Separator)
  {
    var lhs := [a + [Separator] + b] + rest;
    var rhs := [a] + ([b] + rest);
    assert rhs[1..] == [b] + rest;
    if |rest| > 0 {
      assert lhs[1..] == rest;
      assert ([b] + rest)[1..] == rest;
    }
  }

  /** The shape of `BUILD_SYMBOLS` when every symbol name is non-empty, as
      the window's are: empty when nothing is on, otherwise the segments
      from the first enabled entry on, joined by `;` — no separator comes
      before the first enabled name, and every later entry adds one. */
  lemma {:induction false} SymbolsShape(entries: seq<Entry>)
    requires forall i :: 0 <= i < |entries| ==> entries[i].0 != ""
    ensures var f := FirstEnabled(entries);
            && (f == -1 ==> Symbols(entries) == "")
            && (f >= 0 ==> Symbols(entries) == Strings.Join(Segments(entries[f..]), Separator))
    decreases |entries|
  {
    if |entries| > 0 {
      var e := entries[0];
      if e.1 {
        FoldJoins(e.0, entries[1..]);
        assert Step("", e) == e.0;
        assert Segments(entries) == [e.0] + Segments(entries[1..]);
        assert entries[0..] == entries;
      } else {
        assert Step("", e) == "";
        SymbolsShape(entries[1..]);
        var f := FirstEnabled(entries[1..]);
        if f >= 0 {
          assert entries[1..][f..] == entries[f + 1..];
        }
      }
    }
  }

  /** The index of the first entry switched on, or -1. */
  function FirstEnabled(entries: seq<Entry>): (k: int)
    ensures -1 <= k < |entries|
    ensures k >= 0 ==> entries[k].1
    ensures forall i :: 0 <= i < |entries| && (k == -1 || i < k) ==> !entries[i].1
    decreases |entries|
  {
    if |entries| == 0 then -1
    else if entries[0].1 then 0
    else
      var k := FirstEnabled(entries[1..]);
      if k == -1 then -1 else k + 1
  }

  /** Splitting the symbols string on `;` gives back the segments: the
      enabled names in order and an empty piece for every later disabled
      entry, provided no name holds a `;`. */
  lemma SymbolsSplit(entries: seq<Entry>)
    requires forall i :: 0 <= i < |entries| ==> entries[i].0 != "" && Separator !in entries[i].0
    requires FirstEnabled(entries) >= 0
    ensures Strings.Split(Symbols(entries), Separator) == Segments(entries[FirstEnabled(entries)..])
  {
    SymbolsShape(entries);
    var f := FirstEnabled(entries);
    var rest := entries[f..];
    assert forall i :: 0 <= i < |rest| ==> rest[i] == entries[f + i];
    SegmentsPlain(rest);
    Strings.SplitJoin(Segments(rest), Separator);
  }

  /** No segment holds a separator when no name does. */
  lemma SegmentsPlain(entries: seq<Entry>)
    requires forall i :: 0 <= i < |entries| ==> Separator !in entries[i].0
    ensures forall i :: 0 <= i < |entries| ==> Separator !in Segments(entries)[i]
  {
  }

  /** With nothing switched on the string is empty. */
  lemma {:induction false} AllOffIsEmpty(entries: seq<Entry>)
    requires forall i :: 0 <= i < |entries| ==> !entries[i].1
    ensures Symbols(entries) == ""
    decreases |entries|
  {
    if |entries| > 0 {
      assert Step("", entries[0]) == "";
      AllOffIsEmpty(entries[1..]);
    }
  }

  /** Only the last symbol on: `HTTP_CONSOLE` alone, with no separator. A
      symbol on followed by one off leaves a trailing `;`. */
  lemma Examples()
    ensures Symbols([("RELEASE", false), ("NGUI", false), ("HTTP_CONSOLE", true)]) == "HTTP_CONSOLE"
    ensures Symbols([("RELEASE", true), ("NGUI", false)]) == "RELEASE;"
    ensures Symbols([("RELEASE", true), ("NGUI", false), ("TK2D", true)]) == "RELEASE;;TK2D"
    ensures Symbols(Table([true, false, false, false, false, false])) == "RELEASE;;;;;"
  {
    var t := Table([true, false, false, false, false, false]);
    assert t == [("RELEASE", true), ("INAPP_ENABLED", false), ("NGUI", false),
                 ("TK2D", false), ("SPINE_TK2D", false), ("HTTP_CONSOLE", false)];
  }

  // ---------------------------------------------------------------------
  // The string the loop evidently means

  /** The enabled symbol names, in order. */
  function EnabledNames(entries: seq<Entry>): (r: seq<string>)
    ensures |r| <= |entries|
    ensures forall i :: 0 <= i < |entries| && entries[i].1 ==> entries[i].0 in r
    decreases |entries|
  {
    if |entries| == 0 then []
    else
      var rest := EnabledNames(entries[1..]);
      assert forall i :: 1 <= i < |entries| && entries[i].1 ==> entries[i].0 in rest by {
        forall i | 1 <= i < |entries| && entries[i].1 ensures entries[i].0 in rest {
          assert entries[1..][i - 1] == entries[i];
        }
      }
      if entries[0].1 then [entries[0].0] + rest else rest
  }

  /** One iteration with the separator moved inside the `if (kv.Value)`:
      only an enabled symbol adds a separator, and only after some text. */
  function StepCorrected(symbols: string, e: Entry): string {
    if e.1 then (if symbols != "" then symbols + [Separator] else symbols) + e.0 else symbols
  }

  function FoldCorrected(symbols: string, entries: seq<Entry>): string
    decreases |entries|
  {
    if |entries| == 0 then symbols else FoldCorrected(StepCorrected(symbols, entries[0]), entries[1..])
  }

  /** The corrected `BUILD_SYMBOLS`. */
  function SymbolsCorrected(entries: seq<Entry>): string {
    FoldCorrected("", entries)
  }

  lemma {:induction false} FoldCorrectedJoins(symbols: string, entries: seq<Entry>)
    requires symbols != ""
    ensures FoldCorrected(symbols, entries) == Strings.Join([symbols] + EnabledNames(entries), Separator)
    decreases |entries|
  {
    if |entries| == 0 {
      assert [symbols] + EnabledNames(entries) == [symbols];
    } else {
      var e := entries[0];
      var rest := EnabledNames(entries[1..]);
      if e.1 {
        var next := symbols + [Separator] + e.0;
        assert StepCorrected(symbols, e) == next;
        FoldCorrectedJoins(next, entries[1..]);
        JoinGlue(symbols, e.0, rest);
      } else {
        FoldCorrectedJoins(symbols, entries[1..]);
      }
    }
  }

  /** The corrected string is the enabled names joined by `;`: empty when
      none is on, and never an empty segment or a trailing separator. */
  lemma {:induction false} SymbolsCorrectedJoinsEnabled(entries: seq<Entry>)
    requires forall i :: 0 <= i < |entries| ==> entries[i].0 != ""
    ensures EnabledNames(entries) == [] ==> SymbolsCorrected(entries) == ""
    ensures EnabledNames(entries) != [] ==>
              SymbolsCorrected(entries) == Strings.Join(EnabledNames(entries), Separator)
    decreases |entries|
  {
    if |entries| > 0 {
      var e := entries[0];
      if e.1 {
        assert StepCorrected("", e) == e.0;
        FoldCorrectedJoins(e.0, entries[1..]);
      } else {
        assert StepCorrected("", e) == "";
        SymbolsCorrectedJoinsEnabled(entries[1..]);
      }
    }
  }

  /** The discrepancy: with a symbol on and the next one off, the loop as
      written leaves a trailing `;` that the corrected loop does not. */
  lemma TrailingSeparator()
    ensures Symbols([("RELEASE", true), ("NGUI", false)]) == "RELEASE;"
    ensures SymbolsCorrected([("RELEASE", true), ("NGUI", false)]) == "RELEASE"
  {
  }
}

=== FILE: collection.dfy ===
/** `June.Core.BaseCollection<T>` and `BaseCollectionSorted<T>`
    (_Core/BaseCollection.cs): an array of model objects built from a raw
    JSON array by an item constructor. The item array may hold nulls (the
    default value a shrinking `Remove` leaves in unused slots), so its
    elements are `Option<T>`. */
module Collection {
  import opened Wrappers
  import opened Json
  import Sorting

  datatype Collection<T> = Collection(
    raw: Option<seq<Value>>,                // `_Collection`
    ctor: Option<Record> -> T,              // `_ItemCtor`
    items: Option<seq<Option<T>>>)          // `_Items`

  /** The cast `(IDictionary<string, object>)itemArray[i]`: null casts to
      null, a record to itself, anything else throws. */
  function AsRecord(v: Value): (r: Result<Option<Record>>)
    ensures r.Ok? <==> v.Null? || v.Record?
    ensures r.Fail? ==> r.error == InvalidCast
    ensures r.Ok? ==> RecordValue(r.value) == v
  {
    match v
    case Null => Ok(None)
    case Record(d) => Ok(Some(d))
    case _ => Fail(InvalidCast)
  }

  /** The array elements are all records or null, so every cast succeeds. */
  ghost predicate Castable(arr: seq<Value>) {
    forall i :: 0 <= i < |arr| ==> arr[i].Null? || arr[i].Record?
  }

  /** The loop of `UpdateRaw`: `_Items[i] = _ItemCtor(itemArray[i])`. */
  function BuildItems<T>(arr: seq<Value>, ctor: Option<Record> -> T): (r: Result<seq<Option<T>>>)
    ensures r.Ok? <==> Castable(arr)
    ensures r.Fail? ==> r.error == InvalidCast
    ensures r.Ok? ==> |r.value| == |arr|
    ensures r.Ok? ==> forall i :: 0 <= i < |arr| ==> r.value[i] == Some(ctor(AsRecord(arr[i]).value))
    decreases |arr|
  {
    if |arr| == 0 then Ok([])
    else
      var d :- AsRecord(arr[0]);
      var rest :- BuildItems(arr[1..], ctor);
      assert forall i :: 1 <= i < |arr| ==> arr[1..][i - 1] == arr[i];
      Ok([Some(ctor(d))] + rest)
  }

  /** `UpdateRaw`: keeps the array and rebuilds the items from it; a null
      array leaves the items as they were. */
  function UpdateRaw<T>(c: Collection<T>, arr: Option<seq<Value>>): (r: Result<Collection<T>>)
    ensures arr.None? ==> r == Ok(c.(raw := None))
    ensures arr.Some? ==> (r.Ok? <==> Castable(arr.value))
    ensures r.Ok? ==> GetRaw(r.value) == arr && r.value.ctor == c.ctor
    ensures r.Ok? && arr.Some? ==> InStep(r.value)
  {
    match arr
    case None => Ok(c.(raw := None))
    case Some(a) =>
      var items :- BuildItems(a, c.ctor);
      Ok(Collection(arr, c.ctor, Some(items)))
  }

  /** The constructor: `UpdateRaw` on a collection with no items yet. */
  function New<T>(arr: Option<seq<Value>>, ctor: Option<Record> -> T): (r: Result<Collection<T>>)
    ensures arr.None? ==> r.Ok? && Count(r.value) == 0 && GetRaw(r.value).None?
    ensures arr.Some? ==> (r.Ok? <==> Castable(arr.value))
    ensures r.Ok? && arr.Some? ==> Count(r.value) == |arr.value| && InStep(r.value)
  {
    UpdateRaw(Collection(None, ctor, None), arr)
  }

  /** Each item was built by the constructor from the raw element at the
      same position. */
  ghost predicate InStep<T>(c: Collection<T>) {
    && c.raw.Some? && c.items.Some?
    && |c.raw.value| == |c.items.value|
    && Castable(c.raw.value)
    && forall i :: 0 <= i < |c.raw.value| ==> c.items.value[i] == Some(c.ctor(AsRecord(c.raw.value[i]).value))
  }

  /** `GetRaw`. */
  function GetRaw<T>(c: Collection<T>): Option<seq<Value>> {
    c.raw
  }

  /** `Count`: zero when there is no item array. */
  function Count<T>(c: Collection<T>): (n: nat)
    ensures c.items.None? ==> n == 0
    ensures c.items.Some? ==> n == |c.items.value|
  {
    if c.items.None? then 0 else |c.items.value|
  }

  /** The indexer. */
  function Get<T>(c: Collection<T>, i: int): (r: Result<Option<T>>)
    ensures c.items.None? ==> r == Fail(NullReference)
    ensures c.items.Some? ==> (r.Ok? <==> 0 <= i < Count(c))
    ensures c.items.Some? && r.Fail? ==> r.error == IndexOutOfRange
    ensures r.Ok? ==> r.value == c.items.value[i]
  {
    if c.items.None? then Fail(NullReference)
    else if 0 <= i < |c.items.value| then Ok(c.items.value[i])
    else Fail(IndexOutOfRange)
  }

  /** `Add(T)`: appends to the items only; the raw array is not updated. */
  function AddItem<T>(c: Collection<T>, item: Option<T>): (r: Result<Collection<T>>)
    ensures r.Ok? <==> c.items.Some?
    ensures r.Fail? ==> r.error == NullReference
    ensures r.Ok? ==> r.value.items == Some(c.items.value + [item]) && r.value.raw == c.raw
                      && Count(r.value) == Count(c) + 1
  {
    match c.items
    case None => Fail(NullReference)
    case Some(items) => Ok(c.(items := Some(items + [item])))
  }

  /** `Add(IDictionary)`: appends the record to the raw array and the
      constructed model to the items. */
  function AddRecord<T>(c: Collection<T>, d: Option<Record>): (r: Result<Collection<T>>)
    ensures r.Ok? <==> c.raw.Some? && c.items.Some?
    ensures r.Fail? ==> r.error == NullReference
    ensures r.Ok? ==> r.value.raw == Some(c.raw.value + [RecordValue(d)])
                      && r.value.items == Some(c.items.value + [Some(c.ctor(d))])
  {
    if c.raw.None? || c.items.None? then Fail(NullReference)
    else Ok(c.(raw := Some(c.raw.value + [RecordValue(d)]),
               items := Some(c.items.value + [Some(c.ctor(d))])))
  }

  /** Adding a record keeps the items in step with the raw array. */
  lemma AddRecordKeepsInStep<T>(c: Collection<T>, d: Option<Record>)
    requires InStep(c)
    ensures AddRecord(c, d).Ok? && InStep(AddRecord(c, d).value)
  {
    var r := AddRecord(c, d).value;
    assert AsRecord(RecordValue(d)).value == d;
    assert forall i :: 0 <= i < |c.raw.value| ==> r.raw.value[i] == c.raw.value[i];
  }

  /** Adding a model leaves the raw array one element behind the items. */
  lemma AddItemLeavesRawBehind<T>(c: Collection<T>, item: Option<T>)
    requires InStep(c)
    ensures AddItem(c, item).Ok?
    ensures |AddItem(c, item).value.raw.value| + 1 == Count(AddItem(c, item).value)
    ensures !InStep(AddItem(c, item).value)
  {
  }

  // ---------------------------------------------------------------------
  // Remove

  /** The elements of `s` other than `x`, in order. */
  function Others<T(==,!new)>(s: seq<T>, x: T): (r: seq<T>)
    ensures |r| <= |s|
    ensures x in s ==> |r| < |s|
    ensures x !in s ==> r == s
    decreases |s|
  {
    if |s| == 0 then []
    else
      var last := s[|s| - 1];
      assert s == s[..|s| - 1] + [last];
      Others(s[..|s| - 1], x) + (if last != x then [last] else [])
  }

  lemma OthersSnoc<T(!new)>(s: seq<T>, y: T, x: T)
    ensures Others(s + [y], x) == Others(s, x) + (if y != x then [y] else [])
  {
    assert (s + [y])[..|s|] == s;
  }

  lemma {:induction false} OthersAppend<T(!new)>(a: seq<T>, b: seq<T>, x: T)
    ensures Others(a + b, x) == Others(a, x) + Others(b, x)
    decreases |b|
  {
    if |b| > 0 {
      var init, last := b[..|b| - 1], b[|b| - 1];
      assert b == init + [last];
      assert a + b == (a + init) + [last];
      OthersSnoc(a + init, last, x);
      OthersSnoc(init, last, x);
      OthersAppend(a, init, x);
    } else {
      assert a + b == a;
    }
  }

  /** `Others` keeps exactly the elements different from `x`. */
  lemma {:induction false} OthersMembers<T(!new)>(s: seq<T>, x: T, y: T)
    ensures y in Others(s, x) <==> y in s && y != x
    decreases |s|
  {
    if |s| > 0 {
      var init, last := s[..|s| - 1], s[|s| - 1];
      assert s == init + [last];
      OthersSnoc(init, last, x);
      OthersMembers(init, x, y);
    }
  }

  /** `n` null slots. */
  function Nulls<T>(n: nat): (r: seq<Option<T>>)
    ensures |r| == n && forall k :: 0 <= k < n ==> r[k].None?
  {
    if n == 0 then [] else Nulls(n - 1) + [None]
  }

  /** The array `Remove` builds: the other items, then nulls up to one slot
      fewer than before. */
  function Shrink<T(==,!new)>(items: seq<Option<T>>, item: Option<T>): (r: seq<Option<T>>)
    requires item in items
    ensures |r| == |items| - 1
    ensures forall y :: y != item && y.Some? ==> (y in r <==> y in items)
  {
    var kept := Others(items, item);
    var nulls: seq<Option<T>> := Nulls(|items| - 1 - |kept|);
    assert forall y :: y != item && y.Some? ==> (y in kept + nulls <==> y in items) by {
      forall y | y != item && y.Some? ensures y in kept + nulls <==> y in items {
        OthersMembers(items, item, y);
      }
    }
    kept + nulls
  }

  /** `Remove(T)`: the items other than `item`, in order, in an array one
      shorter, with nulls in the slots left over. An absent item overruns
      the shorter array. An empty or missing item array is left alone. */
  function Remove<T(==,!new)>(c: Collection<T>, item: Option<T>): (r: Result<Collection<T>>)
    ensures c.items.None? || c.items.value == [] ==> r == Ok(c)
    ensures c.items.Some? && c.items.value != [] ==> (r.Ok? <==> item in c.items.value)
    ensures r.Fail? ==> r.error == IndexOutOfRange
    ensures r.Ok? && c.items.Some? && c.items.value != [] ==>
              r.value.raw == c.raw && Count(r.value) == Count(c) - 1
              && r.value.items.Some?
              && forall y :: y != item && y.Some? ==> (y in r.value.items.value <==> y in c.items.value)
  {
    match c.items
    case None => Ok(c)
    case Some(items) =>
      if items == [] then Ok(c)
      else if item !in items then Fail(IndexOutOfRange)
      else
        Ok(c.(items := Some(Shrink(items, item))))
  }

  /** The loop of `Remove`: copy every other item into the next free slot of
      an array one shorter than the old one. */
  method RemoveLoop<T(==,!new)>(c: Collection<T>, item: Option<T>) returns (r: Result<Collection<T>>)
    ensures r == Remove(c, item)
  {
    if c.items.None? || |c.items.value| == 0 {
      return Ok(c);
    }
    var items := c.items.value;
    var updated: seq<Option<T>> := Nulls(|items| - 1);
    var j := 0;
    var i := 0;
    assert items[..0] == [];
    while i < |items|
      invariant 0 <= i <= |items|
      invariant Filling(items, item, i, updated, j)
    {
      if items[i] != item && j == |items| - 1 {
        FillOverflows(c, item, i, updated, j);
        return Fail(IndexOutOfRange);
      }
      if items[i] != item {
        FillKeep(items, item, i, updated, j);
        updated := updated[j := items[i]];
        j := j + 1;
      } else {
        FillSkip(items, item, i, updated, j);
      }
      i := i + 1;
    }
    FillDone(c, item, updated, j);
    return Ok(c.(items := Some(updated)));
  }

  /** The loop's state after `i` items: the `j` items kept so far fill the
      front of the shorter array and the rest of it is still null. */
  ghost predicate Filling<T(!new)>(items: seq<Option<T>>, item: Option<T>, i: nat, updated: seq<Option<T>>, j: nat)
    requires i <= |items|
  {
    && |items| > 0
    && |updated| == |items| - 1
    && j == |Others(items[..i], item)| && j <= |updated|
    && updated[..j] == Others(items[..i], item)
    && forall k :: j <= k < |updated| ==> updated[k].None?
  }

  /** An item other than the one removed goes into the next free slot. */
  lemma FillKeep<T(!new)>(items: seq<Option<T>>, item: Option<T>, i: nat, updated: seq<Option<T>>, j: nat)
    requires i < |items| && Filling(items, item, i, updated, j)
    requires items[i] != item && j < |updated|
    ensures Filling(items, item, i + 1, updated[j := items[i]], j + 1)
  {
    OthersPrefix(items, i, item);
    PlaceNext(updated, j, items[i]);
  }

  /** The item removed is skipped. */
  lemma FillSkip<T(!new)>(items: seq<Option<T>>, item: Option<T>, i: nat, updated: seq<Option<T>>, j: nat)
    requires i < |items| && Filling(items, item, i, updated, j)
    requires items[i] == item
    ensures Filling(items, item, i + 1, updated, j)
  {
    OthersPrefix(items, i, item);
  }

  /** A kept item with no slot left: every one of the first `i + 1` items
      survives and that already fills the shorter array, so the item is
      nowhere in the array and `Remove` fails too. */
  lemma FillOverflows<T(!new)>(c: Collection<T>, item: Option<T>, i: nat, updated: seq<Option<T>>, j: nat)
    requires c.items.Some? && i < |c.items.value|
    requires Filling(c.items.value, item, i, updated, j)
    requires c.items.value[i] != item && j == |c.items.value| - 1
    ensures Remove(c, item) == Fail(IndexOutOfRange)
  {
    var items := c.items.value;
    OthersPrefix(items, i, item);
    assert |Others(items[..i + 1], item)| == |items|;
    assert i + 1 == |items|;
    assert items[..i + 1] == items;
  }

  /** After the last item the filled array is the one `Remove` describes. */
  lemma FillDone<T(!new)>(c: Collection<T>, item: Option<T>, updated: seq<Option<T>>, j: nat)
    requires c.items.Some? && Filling(c.items.value, item, |c.items.value|, updated, j)
    ensures Remove(c, item) == Ok(c.(items := Some(updated)))
  {
    var items := c.items.value;
    assert items[..|items|] == items;
    FilledThenNulls(updated, j);
    assert item in items;
    assert Shrink(items, item) == updated;
  }

  /** One more item considered: it is kept when it differs from `x`. */
  lemma OthersPrefix<T(!new)>(items: seq<T>, i: nat, x: T)
    requires i < |items|
    ensures Others(items[..i + 1], x) == Others(items[..i], x) + (if items[i] != x then [items[i]] else [])
  {
    assert items[..i + 1] == items[..i] + [items[i]];
    OthersSnoc(items[..i], items[i], x);
  }

  /** Writing the next free slot extends the filled prefix by one. */
  lemma PlaceNext<T>(updated: seq<Option<T>>, j: nat, v: Option<T>)
    requires j < |updated|
    ensures updated[j := v][..j + 1] == updated[..j] + [v]
    ensures forall k :: j + 1 <= k < |updated| ==> updated[j := v][k] == updated[k]
  {
  }

  /** An array whose slots from `j` on are null is its first `j` slots
      followed by nulls. */
  lemma FilledThenNulls<T>(updated: seq<Option<T>>, j: nat)
    requires j <= |updated|
    requires forall k :: j <= k < |updated| ==> updated[k].None?
    ensures updated == updated[..j] + Nulls(|updated| - j)
  {
    var nulls: seq<Option<T>> := Nulls(|updated| - j);
    forall k | 0 <= k < |updated| ensures updated[k] == (updated[..j] + nulls)[k] {
      if k >= j {
        assert nulls[k - j].None?;
      }
    }
  }

  /** Removing an item that occurs exactly once deletes that one element and
      keeps the order of the rest. */
  lemma {:induction false} RemoveSingle<T(!new)>(c: Collection<T>, k: nat, item: Option<T>)
    requires c.items.Some? && k < |c.items.value| && c.items.value[k] == item
    requires item !in c.items.value[..k] && item !in c.items.value[k + 1..]
    ensures Remove(c, item) == Ok(c.(items := Some(c.items.value[..k] + c.items.value[k + 1..])))
  {
    var s := c.items.value;
    var before, after := s[..k], s[k + 1..];
    assert s == (before + [item]) + after;
    OthersAppend(before + [item], after, item);
    OthersSnoc(before, item, item);
    assert Others(s, item) == before + after;
    assert Nulls<T>(0) == [];
    assert Shrink(s, item) == before + after;
  }

  // ---------------------------------------------------------------------
  // BaseCollectionSorted

  /** The `Comparison<T>` read as an ordering: `a` may come before `b`. */
  function LeOf<T>(cmp: (Option<T>, Option<T>) -> int): (Option<T>, Option<T>) -> bool {
    (a: Option<T>, b: Option<T>) => cmp(a, b) <= 0
  }

  /** `Sort`: orders the items by the comparison; nothing happens without an
      item array or a comparison. */
  function Sort<T(!new)>(c: Collection<T>, cmp: Option<(Option<T>, Option<T>) -> int>): (r: Collection<T>)
    ensures c.items.None? || cmp.None? ==> r == c
    ensures r.raw == c.raw && Count(r) == Count(c) && r.items.Some? == c.items.Some?
    ensures r.items.Some? ==> multiset(r.items.value) == multiset(c.items.value)
    ensures r.items.Some? && cmp.Some? && Sorting.TotalPreorder(LeOf(cmp.value)) ==>
              Sorting.SortedBy(r.items.value, LeOf(cmp.value))
  {
    if c.items.None? || cmp.None? then c
    else c.(items := Some(Sorting.Sort(c.items.value, LeOf(cmp.value))))
  }

  /** The `BaseCollectionSorted` constructor: the base constructor, then
      `Sort`. */
  function NewSorted<T(!new)>(arr: Option<seq<Value>>, ctor: Option<Record> -> T,
                              cmp: Option<(Option<T>, Option<T>) -> int>): (r: Result<Collection<T>>)
    ensures r.Ok? <==> New(arr, ctor).Ok?
    ensures r.Ok? ==> r.value == Sort(New(arr, ctor).value, cmp)
    ensures r.Ok? && arr.Some? ==> Count(r.value) == |arr.value|
    ensures r.Ok? && arr.Some? && cmp.Some? && Sorting.TotalPreorder(LeOf(cmp.value)) ==>
              Sorting.SortedBy(r.value.items.value, LeOf(cmp.value))
  {
    var c :- New(arr, ctor);
    Ok(Sort(c, cmp))
  }
}

=== FILE: config.dfy ===
/** `June.Core.BaseConfig<T, U>` (Assets/June/_Core/BaseConfig.cs): a model loaded from a
    named resource whose list of items sits in an array under a root key.

    The item list is a `BaseList<U>` of Assets/June/_Core/BaseModel.cs. `LoadItems` builds it
    over the very array under the root key, so the list and the document
    share one `List<object>`: `linked` records that. While linked, the model
    keeps the array in both places and every change writes the same new
    array to both; `Shared` states this and every operation keeps it.
    `UpdateDoc` installs another document and leaves the item list over the
    old array, so the two are separate lists from then on.

    Items are `BaseModel`s; a subclass supplies the resource name, the root
    key, the deserialiser and the item converter, gathered in `Settings`. */
module Config {
  import opened Wrappers
  import opened Json
  import BaseModel
  import RecordList
  import Lists

  type Model = BaseModel.Model
  type Items = RecordList.RecordList<Model>

  datatype Settings = Settings(
    resourceName: string,
    rootKey: Option<string>,
    deserialize: string -> Option<Record>,    // `DeserializeFunc`
    itemConverter: Record -> Model,            // `ItemConverter`
    preLoad: Config -> Config,                 // the `PreLoad` hook
    postLoad: Config -> Config)                // the `PostLoad` hook

  /** `_Record` (inherited from `BaseModel`) and `_Items`; `linked` when
      the item list's array is the very array under the root key. */
  datatype Config = Config(record: Option<Record>, items: Option<Items>, linked: bool)

  /** What a mutating member leaves behind: the state, and the exception it
      threw part-way, if any. */
  datatype Outcome = Outcome(config: Config, thrown: Option<Exception>)

  /** The array under the root key, as `Get<JsonArray>(RootKey)` reads it:
      null when the key is missing or holds something else. */
  function RootArray(s: Settings, c: Config): (r: Option<seq<Value>>)
    requires s.rootKey.Some? && c.record.Some?
    ensures r.Some? <==> s.rootKey.value in c.record.value && c.record.value[s.rootKey.value].List?
    ensures r.Some? ==> c.record.value[s.rootKey.value] == List(r.value)
  {
    var v := BaseModel.Get(BaseModel.Model(c.record), s.rootKey.value, ListKind).value;
    if v.Some? then Some(v.value.items) else None
  }

  /** A linked item list is a view of the array under the root key. */
  ghost predicate Shared(s: Settings, c: Config) {
    c.linked ==>
      && c.items.Some?
      && s.rootKey.Some? && c.record.Some?
      && s.rootKey.value in c.record.value
      && c.record.value[s.rootKey.value] == List(c.items.value.raw)
      && c.items.value.toRecord == Some(RecordList.RawOf)
  }

  /** Writes a new shared array to the document and to the item list. */
  function Store(s: Settings, c: Config, raw: seq<Value>, models: seq<Model>): (r: Config)
    requires s.rootKey.Some? && c.record.Some?
    ensures Shared(s, r) && r.linked
    ensures r.items == Some(RecordList.RecordList(raw, models, Some(RecordList.RawOf)))
    ensures r.record.Some? && r.record.value[s.rootKey.value] == List(raw)
    ensures forall k :: k != s.rootKey.value ==>
              (k in r.record.value <==> k in c.record.value)
              && (k in c.record.value ==> r.record.value[k] == c.record.value[k])
  {
    Config(Some(c.record.value[s.rootKey.value := List(raw)]),
           Some(RecordList.RecordList(raw, models, Some(RecordList.RawOf))), true)
  }

  /** Writes a new array under the root key only: the item list, a
      separate list, is left as it is. */
  function SetRoot(s: Settings, c: Config, raw: seq<Value>): (r: Config)
    requires s.rootKey.Some? && c.record.Some?
    ensures r.items == c.items && r.linked == c.linked
    ensures r.record.Some? && RootArray(s, r) == Some(raw)
    ensures forall k :: k != s.rootKey.value ==>
              (k in r.record.value <==> k in c.record.value)
              && (k in c.record.value ==> r.record.value[k] == c.record.value[k])
  {
    c.(record := Some(c.record.value[s.rootKey.value := List(raw)]))
  }

  /** The parameterless constructor: `BaseModel(null)`, no items. */
  function New(): (c: Config)
    ensures c.record.None? && c.items.None? && !c.linked
  {
    Config(BaseModel.New(None).record, None, false)
  }

  /** `LoadItems`: builds the items over the array under the root key, and
      leaves them as they were when there is no such array. */
  function LoadItems(s: Settings, c: Config): (r: Config)
    ensures r.record == c.record
    ensures (s.rootKey.None? || c.record.None? || RootArray(s, c).None?) ==> r == c
    ensures s.rootKey.Some? && c.record.Some? && RootArray(s, c).Some? ==>
              && r.items.Some?
              && r.items.value.raw == RootArray(s, c).value
              && Some(r.items.value.models) ==
                 RecordList.GetModelListFromArray(RootArray(s, c), Some(s.itemConverter))
              && r.linked && Shared(s, r)
  {
    if s.rootKey.None? || c.record.None? then c
    else match RootArray(s, c)
      case None => c
      case Some(raw) => c.(items := RecordList.NewModelList(Some(raw), s.itemConverter), linked := true)
  }

  /** `Load`: `PreLoad`, then the deserialised resource becomes the
      document, then `LoadItems`, then `PostLoad`. */
  function Load(s: Settings, c: Config): (r: Config)
    ensures r == s.postLoad(LoadItems(s, UpdateDoc(s.preLoad(c), s.deserialize(s.resourceName))))
  {
    var c1 := s.preLoad(c);
    var c2 := UpdateDoc(c1, s.deserialize(s.resourceName));
    var c3 := LoadItems(s, c2);
    s.postLoad(c3)
  }

  /** `UpdateDoc` inherited from `BaseModel`: the document is replaced and
      the item list stays over the old document's array. */
  function UpdateDoc(c: Config, doc: Option<Record>): (r: Config)
    ensures r.record == doc && r.items == c.items && !r.linked
  {
    c.(record := BaseModel.UpdateDoc(BaseModel.Model(c.record), doc).record, linked := false)
  }

  /** The `Items` getter: loads the items on first use. */
  function GetItems(s: Settings, c: Config): (r: (Config, Option<Items>))
    ensures r.1 == r.0.items
    ensures c.items.Some? ==> r.0 == c
    ensures c.items.None? ==> r.0 == LoadItems(s, c)
  {
    if c.items.Some? then (c, c.items) else var c1 := LoadItems(s, c); (c1, c1.items)
  }

  /** `Clear`: drops the document, the items and the singleton. The second
      component is the singleton afterwards. */
  function Clear(c: Config): (r: (Config, Option<Config>))
    ensures r.0.record.None? && r.0.items.None? && !r.0.linked && r.1.None?
  {
    (Config(None, None, false), None)
  }

  /** `Refresh`: `Clear`, then `Load`. The singleton stays null, so the next
      `Instance` read builds a new configuration. */
  function Refresh(s: Settings, c: Config): (r: (Config, Option<Config>))
    ensures r.0 == Load(s, New()) && r.1.None?
  {
    var (c1, instance) := Clear(c);
    (Load(s, c1), instance)
  }

  /** `Instance`, read sequentially: the first read builds and loads a
      configuration and keeps it; later reads return the one kept. */
  function Instance(s: Settings, instance: Option<Config>): (r: (Config, Option<Config>))
    ensures r.1 == Some(r.0)
    ensures instance.Some? ==> r.0 == instance.value
    ensures instance.None? ==> r.0 == Load(s, New())
  {
    if instance.Some? then (instance.value, instance)
    else var c := Load(s, New()); (c, Some(c))
  }

  /** A second read of `Instance` returns what the first one returned. */
  lemma InstanceIsStable(s: Settings, instance: Option<Config>)
    ensures var (c, kept) := Instance(s, instance); Instance(s, kept) == (c, kept)
  {
  }

  // ---------------------------------------------------------------------
  // Add

  /** The item list to add to, loading it first when it is null, and the
      array under the root key read afterwards. */
  function Prepare(s: Settings, c: Config): (r: Result<(Config, Option<seq<Value>>)>)
    ensures r.Ok? ==> r.value.0 == (if c.items.None? then LoadItems(s, c) else c)
    ensures r.Ok? && r.value.1.Some? ==>
              (r.value.0.items.Some? && s.rootKey.Some? && r.value.0.record.Some?
               && r.value.1 == RootArray(s, r.value.0))
    ensures r.Fail? ==> r.error == NullReference
  {
    var c1 := if c.items.None? then LoadItems(s, c) else c;
    if c1.items.None? || s.rootKey.None? then Ok((c1, None))
    else if c1.record.None? then Fail(NullReference)
    else Ok((c1, RootArray(s, c1)))
  }

  /** The item list's `RemoveAt` at a valid model index: the model leaves
      the list, then the entry at that index leaves the list's array, which
      throws when the array is too short, after the models have changed. */
  function ItemsRemoveAt(l: Items, index: nat): (r: (Items, Option<Exception>))
    requires index < |l.models|
    ensures r.0.models == Lists.RemoveAt(l.models, index).value && r.0.toRecord == l.toRecord
    ensures r.1.None? <==> index < |l.raw|
    ensures r.1.Some? ==> r.1.value == ArgumentOutOfRange && r.0.raw == l.raw
    ensures r.1.None? ==> r.0.raw == Lists.RemoveAt(l.raw, index).value
  {
    var models := Lists.RemoveAt(l.models, index).value;
    match Lists.RemoveAt(l.raw, index)
    case Fail(e) => (l.(models := models), Some(e))
    case Ok(raw) => (l.(models := models, raw := raw), None)
  }

  /** `Add` on a document and an item list that no longer share their
      array: the record goes onto the document's array, and the converted
      model, with its record, onto the item list. */
  function AddSeparately(s: Settings, c: Config, rootArray: seq<Value>, item: Record): (r: Config)
    requires s.rootKey.Some? && c.record.Some? && c.items.Some?
    ensures r.record.Some? && RootArray(s, r) == Some(rootArray + [Record(item)])
    ensures r.items == Some(RecordList.Add(c.items.value, s.itemConverter(item)))
    ensures r.linked == c.linked
  {
    SetRoot(s, c, rootArray + [Record(item)]).(items := Some(RecordList.Add(c.items.value, s.itemConverter(item))))
  }

  /** `Remove` on separate arrays: the document's array loses the entry at
      the model's index (which throws first when that array is too short),
      then the item list loses the model and its record. */
  function RemoveSeparately(s: Settings, c: Config, rootArray: seq<Value>, index: nat): (r: Outcome)
    requires s.rootKey.Some? && c.record.Some? && c.items.Some? && index < |c.items.value.models|
    ensures index >= |rootArray| ==> r == Outcome(c, Some(ArgumentOutOfRange))
    ensures index < |rootArray| ==>
              && r.config.record.Some?
              && RootArray(s, r.config) == Some(Lists.RemoveAt(rootArray, index).value)
              && r.config.items == Some(ItemsRemoveAt(c.items.value, index).0)
              && r.thrown == ItemsRemoveAt(c.items.value, index).1
  {
    match Lists.RemoveAt(rootArray, index)
    case Fail(e) => Outcome(c, Some(e))
    case Ok(root1) =>
      var (l, thrown) := ItemsRemoveAt(c.items.value, index);
      Outcome(SetRoot(s, c, root1).(items := Some(l)), thrown)
  }

  /** `Add` as written. While the item list is linked to the document, the
      record goes onto the shared array, then the item list's own `Add`
      puts the converted model's record on the same array again. Once
      unlinked, each array gets its own entry. */
  function AddAsWritten(s: Settings, c: Config, item: Record): (r: Outcome)
    ensures r.thrown.Some? ==> r.thrown.value == NullReference
  {
    match Prepare(s, c)
    case Fail(e) => Outcome(c, Some(e))
    case Ok((c1, rawItems)) =>
      if rawItems.None? then Outcome(c1, None)
      else if c1.linked then
        var u := s.itemConverter(item);
        var raw := rawItems.value + [Record(item)];
        var l := RecordList.Add(c1.items.value.(raw := raw), u);
        Outcome(Store(s, c1, l.raw, l.models), None)
      else Outcome(AddSeparately(s, c1, rawItems.value, item), None)
  }

  /** `Remove` as written. While linked, the entry at the model's index
      leaves the shared array, then the item list's own `RemoveAt` removes
      the entry at the same index from the same array again; when no second
      entry is left at that index, that second removal throws after the
      models and the array have already changed. Once unlinked, each array
      loses its own entry. */
  function RemoveAsWritten(s: Settings, c: Config, item: Option<Model>): (r: Outcome)
    ensures r.thrown.Some? ==> r.thrown.value in {NullReference, ArgumentOutOfRange}
  {
    match Prepare(s, c)
    case Fail(e) => Outcome(c, Some(e))
    case Ok((c1, rawItems)) =>
      if rawItems.None? || item.None? then Outcome(c1, None)
      else
        var index := RecordList.IndexOf(c1.items.value, item.value);
        if index == -1 then Outcome(c1, None)
        else if c1.linked then
          match Lists.RemoveAt(rawItems.value, index)
          case Fail(e) => Outcome(c1, Some(e))
          case Ok(raw1) =>
            var (l, thrown) := ItemsRemoveAt(c1.items.value.(raw := raw1), index);
            Outcome(Store(s, c1, l.raw, l.models), thrown)
        else RemoveSeparately(s, c1, rawItems.value, index)
  }

  /** `Add` with the record put on a shared array once, by the item list;
      on separate arrays it does what the code does. */
  function Add(s: Settings, c: Config, item: Record): (r: Outcome)
    ensures r.thrown.Some? ==> r.thrown.value == NullReference
  {
    match Prepare(s, c)
    case Fail(e) => Outcome(c, Some(e))
    case Ok((c1, rawItems)) =>
      if rawItems.None? then Outcome(c1, None)
      else if c1.linked then
        var l := RecordList.Add(c1.items.value, s.itemConverter(item));
        Outcome(Store(s, c1, l.raw, l.models), None)
      else Outcome(AddSeparately(s, c1, rawItems.value, item), None)
  }

  /** `Remove` with a shared array shortened once, by the item list; on
      separate arrays it does what the code does. */
  function Remove(s: Settings, c: Config, item: Option<Model>): (r: Outcome)
    ensures r.thrown.Some? ==> r.thrown.value in {NullReference, ArgumentOutOfRange}
  {
    match Prepare(s, c)
    case Fail(e) => Outcome(c, Some(e))
    case Ok((c1, rawItems)) =>
      if rawItems.None? || item.None? then Outcome(c1, None)
      else
        var index := RecordList.IndexOf(c1.items.value, item.value);
        if index == -1 then Outcome(c1, None)
        else if c1.linked then
          match RecordList.RemoveAt(c1.items.value, index)
          case Fail(e) => Outcome(c1, Some(e))
          case Ok(l) => Outcome(Store(s, c1, l.raw, l.models), None)
        else RemoveSeparately(s, c1, rawItems.value, index)
  }

  // ---------------------------------------------------------------------
  // Properties

  /** A configuration whose items are loaded, shared and aligned with the
      array. */
  ghost predicate Loaded(s: Settings, c: Config) {
    c.items.Some? && c.linked && Shared(s, c) && RecordList.Aligned(c.items.value)
  }

  /** On loaded items, `Add` and `Remove` work on the item list as it is and
      on its own array. */
  lemma PrepareLoaded(s: Settings, c: Config)
    requires Loaded(s, c)
    ensures Prepare(s, c) == Ok((c, Some(c.items.value.raw)))
  {
  }

  /** Every operation keeps the item list a view of the root array. */
  lemma LoadItemsShares(s: Settings, c: Config)
    requires Shared(s, c)
    ensures Shared(s, LoadItems(s, c))
  {
  }

  lemma AddAsWrittenShares(s: Settings, c: Config, item: Record)
    requires Shared(s, c)
    ensures Shared(s, AddAsWritten(s, c, item).config)
  {
  }

  lemma RemoveAsWrittenShares(s: Settings, c: Config, item: Option<Model>)
    requires Shared(s, c)
    ensures Shared(s, RemoveAsWritten(s, c, item).config)
  {
  }

  lemma UpdateDocShares(s: Settings, c: Config, doc: Option<Record>)
    ensures Shared(s, UpdateDoc(c, doc))
  {
  }

  /** After `UpdateDoc`, `Add` puts the record on the new document's array
      and the model on the old item list, each once, without copying one
      array over the other; the code as written and the corrected `Add`
      agree there. */
  lemma AddAfterUpdateDoc(s: Settings, c: Config, doc: Record, item: Record)
    requires c.items.Some? && s.rootKey.Some?
    requires s.rootKey.value in doc && doc[s.rootKey.value].List?
    ensures var u := UpdateDoc(c, Some(doc));
            var r := AddAsWritten(s, u, item);
            && r == Add(s, u, item) && r.thrown.None? && !r.config.linked
            && RootArray(s, r.config) == Some(doc[s.rootKey.value].items + [Record(item)])
            && r.config.items == Some(RecordList.Add(c.items.value, s.itemConverter(item)))
  {
    var u := UpdateDoc(c, Some(doc));
    assert Prepare(s, u) == Ok((u, RootArray(s, u)));
  }

  /** After `UpdateDoc` on loaded items, `Remove` as written and the
      corrected `Remove` agree. */
  lemma RemoveAfterUpdateDoc(s: Settings, c: Config, doc: Option<Record>, item: Option<Model>)
    requires c.items.Some?
    ensures RemoveAsWritten(s, UpdateDoc(c, doc), item) == Remove(s, UpdateDoc(c, doc), item)
  {
  }

  /** As written, on loaded items `Add` grows the array by two — the record,
      then the model's record — and the item list by one. */
  lemma AddAsWrittenGrowsArrayByTwo(s: Settings, c: Config, item: Record)
    requires Loaded(s, c)
    ensures var r := AddAsWritten(s, c, item);
            && r.thrown.None? && r.config.items.Some?
            && r.config.items.value.raw ==
               c.items.value.raw + [Record(item), RecordList.RawOf(s.itemConverter(item))]
            && r.config.items.value.models == c.items.value.models + [s.itemConverter(item)]
  {
  }

  /** With a converter that keeps its record (as `new U(doc)` does), the
      as-written `Add` stores the record twice and the item list falls out
      of step with the array. */
  lemma AddAsWrittenBreaksAlignment(s: Settings, c: Config, item: Record)
    requires Loaded(s, c)
    requires BaseModel.GetRaw(s.itemConverter(item)) == Some(item)
    ensures var r := AddAsWritten(s, c, item);
            && r.config.items.value.raw == c.items.value.raw + [Record(item), Record(item)]
            && !RecordList.Aligned(r.config.items.value)
  {
    AddAsWrittenGrowsArrayByTwo(s, c, item);
  }

  /** The corrected `Add` keeps a loaded configuration loaded, with the new
      model and its record last. */
  lemma AddKeepsLoaded(s: Settings, c: Config, item: Record)
    requires Loaded(s, c)
    ensures var r := Add(s, c, item);
            && r.thrown.None? && Loaded(s, r.config)
            && r.config.items.value.models == c.items.value.models + [s.itemConverter(item)]
            && r.config.items.value.raw == c.items.value.raw + [RecordList.RawOf(s.itemConverter(item))]
  {
    RecordList.AddKeepsAligned(c.items.value, s.itemConverter(item));
  }

  /** As written, removing the last item of a loaded configuration throws:
      the first removal takes its entry and the second finds none left at
      that index. The models have already lost the item. */
  lemma RemoveAsWrittenLastItemThrows(s: Settings, c: Config, m: Model)
    requires Loaded(s, c)
    requires |c.items.value.models| > 0 && m == c.items.value.models[|c.items.value.models| - 1]
    requires m !in c.items.value.models[..|c.items.value.models| - 1]
    ensures var r := RemoveAsWritten(s, c, Some(m));
            && r.thrown == Some(ArgumentOutOfRange)
            && r.config.items.value.models == c.items.value.models[..|c.items.value.models| - 1]
  {
    var n := |c.items.value.models|;
    assert Lists.IndexOfValue(c.items.value.models, m) == n - 1;
  }

  /** As written, removing any earlier item takes two entries off the array
      but one model off the list. */
  lemma RemoveAsWrittenTakesTwo(s: Settings, c: Config, k: nat)
    requires Loaded(s, c)
    requires k + 1 < |c.items.value.models| && c.items.value.models[k] !in c.items.value.models[..k]
    ensures var r := RemoveAsWritten(s, c, Some(c.items.value.models[k]));
            && r.thrown.None?
            && |r.config.items.value.raw| == |c.items.value.raw| - 2
            && |r.config.items.value.models| == |c.items.value.models| - 1
  {
    var l := c.items.value;
    var m := l.models[k];
    PrepareLoaded(s, c);
    Lists.IndexOfInPrefix(l.models, m, k + 1);
    assert l.models[..k + 1] == l.models[..k] + [m];
    assert RecordList.IndexOf(l, m) == k;
    var raw1 := Lists.RemoveAt(l.raw, k).value;
    var raw2 := Lists.RemoveAt(raw1, k).value;
    assert RemoveAsWritten(s, c, Some(m))
        == Outcome(Store(s, c, raw2, Lists.RemoveAt(l.models, k).value), None);
  }

  /** The corrected `Remove` keeps a loaded configuration loaded and takes
      out the first occurrence of the model. */
  lemma RemoveKeepsLoaded(s: Settings, c: Config, m: Model)
    requires Loaded(s, c) && m in c.items.value.models
    ensures var r := Remove(s, c, Some(m));
            var k := Lists.IndexOfValue(c.items.value.models, m);
            && r.thrown.None? && Loaded(s, r.config)
            && r.config.items.value.models == Lists.RemoveAt(c.items.value.models, k).value
            && r.config.items.value.raw == Lists.RemoveAt(c.items.value.raw, k).value
  {
    var k := Lists.IndexOfValue(c.items.value.models, m);
    RecordList.RemoveAtKeepsAligned(c.items.value, k);
  }

  /** The corrected `Remove` undoes the corrected `Add` of a new model. */
  lemma RemoveUndoesAdd(s: Settings, c: Config, item: Record)
    requires Loaded(s, c) && s.itemConverter(item) !in c.items.value.models
    ensures var a := Add(s, c, item).config;
            Remove(s, a, Some(s.itemConverter(item))).config.items == c.items
  {
    var u := s.itemConverter(item);
    var l := c.items.value;
    var a := Add(s, c, item).config;
    AddKeepsLoaded(s, c, item);
    assert a.items.value.models == l.models + [u];
    Lists.IndexOfAppended(l.models, u);
    RemoveKeepsLoaded(s, a, u);
    Lists.AppendThenRemoveAt(l.models, u);
    Lists.AppendThenRemoveAt(l.raw, RecordList.RawOf(u));
    var r := Remove(s, a, Some(u)).config;
    assert r.items.value.models == l.models;
    assert r.items.value.raw == l.raw;
  }

  /** A document whose root array holds only records, loaded with a
      converter that keeps its record, gives loaded items, one per record. */
  lemma LoadGivesLoaded(s: Settings, records: seq<Record>)
    requires s.rootKey.Some?
    requires forall d :: BaseModel.GetRaw(s.itemConverter(d)) == Some(d)
    requires forall c :: s.preLoad(c) == c && s.postLoad(c) == c
    requires var doc := s.deserialize(s.resourceName);
             doc.Some? && s.rootKey.value in doc.value
             && doc.value[s.rootKey.value] == List(RecordList.RecordsArray(records))
    ensures Loaded(s, Load(s, New()))
    ensures |Load(s, New()).items.value.models| == |records|
  {
    RecordList.NewIsAligned(records, s.itemConverter);
  }
}

=== FILE: dispatcher.dfy ===
/** `Dispatcher` (Assets/June/JobManager/JobManager.cs): a queue of actions
    for the main thread, pumped one action per frame by `Update`, behind a
    static must-initialise-first guard.

    The static flag `_initialized` and the instance's queue `_q` form the
    state; an action is opaque, and running one is recorded in `ran`. */
module Dispatch {
  import opened Wrappers
  import Lists

  /** A queued action: an opaque delegate, or the delegate
      `LaunchCoroutine` enqueues to start a coroutine. */
  datatype Action = Delegate(id: int) | StartRoutine(routine: int)

  datatype Dispatcher = Dispatcher(
    initialized: bool,    // `_initialized`
    queue: seq<Action>,   // `_q`, oldest first
    ran: seq<Action>)     // the actions `Update` has run, in order

  /** The state before anything has been called. */
  function Fresh(): (d: Dispatcher)
    ensures !d.initialized && d.queue == [] && d.ran == []
  {
    Dispatcher(false, [], [])
  }

  /** Every action handed to the queue, in order: those that ran, then
      those still waiting. */
  function Received(d: Dispatcher): seq<Action> {
    d.ran + d.queue
  }

  /** `Instance`: throws until `Initialize` has been called. */
  function Instance(d: Dispatcher): (r: Result<Dispatcher>)
    ensures r.Fail? <==> !d.initialized
    ensures r.Fail? ==> r.error == InvalidOperation
    ensures r.Ok? ==> r.value == d
  {
    if !d.initialized then Fail(InvalidOperation) else Ok(d)
  }

  /** `Initialize`: sets the flag once; later calls return at once. The
      game-object lookup is engine work and is left out. */
  function Initialize(d: Dispatcher): (r: Dispatcher)
    ensures r.initialized
    ensures r.queue == d.queue && r.ran == d.ran
  {
    if d.initialized then d else d.(initialized := true)
  }

  /** `ToMainThread`: enqueue at the tail. */
  function ToMainThread(d: Dispatcher, a: Action): (r: Dispatcher)
    ensures r.queue == d.queue + [a]
    ensures Received(r) == Received(d) + [a]
    ensures r.initialized == d.initialized && r.ran == d.ran
  {
    d.(queue := d.queue + [a])
  }

  /** `Update`: the message pump runs at most one action, the oldest. */
  function Update(d: Dispatcher): (r: Dispatcher)
    ensures |d.queue| == 0 ==> r == d
    ensures |d.queue| > 0 ==> r.ran == d.ran + [d.queue[0]] && r.queue == d.queue[1..]
    ensures Received(r) == Received(d)
    ensures r.initialized == d.initialized
  {
    if |d.queue| > 0 then
      var a := d.queue[0];
      assert d.queue == [a] + d.queue[1..];
      d.(queue := d.queue[1..], ran := d.ran + [a])
    else d
  }

  /** `LaunchCoroutine`: goes through `Instance` (so it throws before
      `Initialize`) and enqueues a delegate that starts the coroutine. */
  function LaunchCoroutine(d: Dispatcher, routine: int): (r: Result<Dispatcher>)
    ensures r.Fail? <==> !d.initialized
    ensures r.Fail? ==> r.error == InvalidOperation
    ensures r.Ok? ==> r.value.queue == d.queue + [StartRoutine(routine)] && r.value.ran == d.ran
  {
    var inst :- Instance(d);
    Ok(ToMainThread(inst, StartRoutine(routine)))
  }

  /** `n` frames of the pump. */
  function Pump(d: Dispatcher, n: nat): (r: Dispatcher)
    decreases n
  {
    if n == 0 then d else Pump(Update(d), n - 1)
  }

  // ---------------------------------------------------------------------
  // Properties

  /** `Initialize` is idempotent. */
  lemma InitializeIdempotent(d: Dispatcher)
    ensures Initialize(Initialize(d)) == Initialize(d)
    ensures d.initialized ==> Initialize(d) == d
  {
  }

  /** After `Initialize`, `Instance` no longer throws. */
  lemma InstanceAfterInitialize(d: Dispatcher)
    ensures Instance(Initialize(d)).Ok?
    ensures !Fresh().initialized && Instance(Fresh()) == Fail(InvalidOperation)
  {
  }

  /** The pump never loses, reorders or invents an action: every frame
      keeps the sequence of received actions, and after `n` frames the
      first `n` queued actions (or all of them) have run, oldest first. */
  lemma {:induction false} PumpRunsInOrder(d: Dispatcher, n: nat)
    ensures var r := Pump(d, n);
            var k := if n <= |d.queue| then n else |d.queue|;
            && Received(r) == Received(d)
            && r.ran == d.ran + d.queue[..k]
            && r.queue == d.queue[k..]
    decreases n
  {
    if n > 0 && |d.queue| > 0 {
      var u := Update(d);
      var k := if n <= |d.queue| then n else |d.queue|;
      PumpRunsInOrder(u, n - 1);
      var r := Pump(u, n - 1);
      assert Pump(d, n) == r;
      assert r.ran == (d.ran + [d.queue[0]]) + d.queue[1..k] by {
        assert u.queue[..k - 1] == d.queue[1..k];
      }
      assert r.queue == d.queue[k..] by {
        assert u.queue[k - 1..] == d.queue[k..];
      }
      assert d.queue[..k] == [d.queue[0]] + d.queue[1..k];
      Lists.ConcatAssoc(d.ran, [d.queue[0]], d.queue[1..k]);
    } else if n > 0 {
      PumpIdle(d, n);
    } else {
      assert d.queue[..0] == [];
      assert d.queue[0..] == d.queue;
    }
  }

  /** An empty queue makes every frame a no-op. */
  lemma {:induction false} PumpIdle(d: Dispatcher, n: nat)
    requires d.queue == []
    ensures Pump(d, n) == d
    decreases n
  {
    if n > 0 {
      assert Update(d) == d;
      PumpIdle(d, n - 1);
    }
  }

  /** Actions enqueued one after another run in the order they were
      enqueued: enqueuing `a` then `b` on an empty queue and pumping two
      frames runs `a`, then `b`. */
  lemma FirstInFirstOut(d: Dispatcher, a: Action, b: Action)
    requires d.queue == []
    ensures Update(ToMainThread(ToMainThread(d, a), b)).ran == d.ran + [a]
    ensures Pump(ToMainThread(ToMainThread(d, a), b), 2).ran == d.ran + [a, b]
    ensures Pump(ToMainThread(ToMainThread(d, a), b), 2).queue == []
  {
    var q := ToMainThread(ToMainThread(d, a), b);
    assert q.queue == [a, b];
    PumpRunsInOrder(q, 2);
    assert q.queue[..2] == [a, b];
  }
}

=== FILE: file_assert.dfy ===
/** `JuneAssert.FileContains`
    (Assets/June/_Core/Editor/JuneBuildProvider/JuneAssert.cs): whether every
    one of a list of strings occurs in a file. The file is read one line at
    a time, so each string is looked for within single lines.

    The file system is a map from path to the file's lines as `ReadLine`
    returns them, without their line terminators. */
module FileAssert {
  import opened Wrappers
  import Strings

  type FileSystem = map<string, seq<string>>

  /** A line as `ReadLine` returns it holds no line terminator. */
  predicate IsLine(line: string) {
    '\n' !in line && '\r' !in line
  }

  /** Some line holds the content. */
  predicate FoundIn(lines: seq<string>, content: string) {
    exists k :: 0 <= k < |lines| && Strings.Contains(lines[k], content)
  }

  /** The loop's `found[i] |= line.Contains(contents[i])` over one line. */
  function Mark(found: seq<bool>, line: string, contents: seq<string>): (r: seq<bool>)
    requires |found| == |contents|
    ensures |r| == |contents|
    ensures forall i :: 0 <= i < |contents| ==> r[i] == (found[i] || Strings.Contains(line, contents[i]))
  {
    seq(|contents|, i requires 0 <= i < |contents| => found[i] || Strings.Contains(line, contents[i]))
  }

  /** `FileContains(filePath, params string[] contents)`: false for an empty
      or null path, a missing file, or a null or empty content list;
      otherwise true exactly when every content occurs within some line,
      different contents possibly on different lines. */
  method FileContains(fs: FileSystem, path: Option<string>, contents: Option<seq<string>>) returns (r: bool)
    ensures path.None? || path.value == "" || path.value !in fs ==> !r
    ensures contents.None? || |contents.value| == 0 ==> !r
    ensures path.Some? && path.value != "" && path.value in fs && contents.Some? ==>
              (r <==> |contents.value| > 0
                      && forall i :: 0 <= i < |contents.value| ==> FoundIn(fs[path.value], contents.value[i]))
  {
    if path.None? || path.value == "" || path.value !in fs || contents.None? || |contents.value| == 0 {
      return false;
    }
    var lines := fs[path.value];
    var cs := contents.value;
    var found := seq(|cs|, i => false);
    var k := 0;
    while k < |lines|
      invariant 0 <= k <= |lines|
      invariant |found| == |cs|
      invariant forall i :: 0 <= i < |cs| ==> (found[i] <==> FoundIn(lines[..k], cs[i]))
    {
      found := Mark(found, lines[k], cs);
      forall i | 0 <= i < |cs|
        ensures found[i] <==> FoundIn(lines[..k + 1], cs[i])
      {
        assert lines[..k + 1][k] == lines[k];
        if FoundIn(lines[..k + 1], cs[i]) && !Strings.Contains(lines[k], cs[i]) {
          var j :| 0 <= j < k + 1 && Strings.Contains(lines[..k + 1][j], cs[i]);
          assert lines[..k][j] == lines[..k + 1][j];
        }
        if FoundIn(lines[..k], cs[i]) {
          var j :| 0 <= j < k && Strings.Contains(lines[..k][j], cs[i]);
          assert lines[..k + 1][j] == lines[..k][j];
        }
      }
      k := k + 1;
    }
    assert lines[..k] == lines;
    r := AllTrue(found);
  }

  /** `found.All(f => f)`. */
  function AllTrue(found: seq<bool>): (r: bool)
    ensures r <==> forall i :: 0 <= i < |found| ==> found[i]
    decreases |found|
  {
    if |found| == 0 then true
    else
      var rest := AllTrue(found[1..]);
      assert (forall i :: 0 <= i < |found[1..]| ==> found[1..][i]) <==> (forall i :: 1 <= i < |found| ==> found[i]) by {
        if forall i :: 0 <= i < |found[1..]| ==> found[1..][i] {
          forall i | 1 <= i < |found| ensures found[i] {
            assert found[1..][i - 1] == found[i];
          }
        }
      }
      found[0] && rest
  }

  /** The `IEnumerable<string>` overload: `ToArray` throws on a null
      sequence, and the array overload decides the rest. */
  method FileContainsAll(fs: FileSystem, path: Option<string>, contents: Option<seq<string>>) returns (r: Result<bool>)
    ensures contents.None? ==> r == Fail(ArgumentNull)
    ensures contents.Some? ==> r.Ok?
    ensures contents.Some? && path.Some? && path.value != "" && path.value in fs ==>
              (r.value <==> |contents.value| > 0
                            && forall i :: 0 <= i < |contents.value| ==> FoundIn(fs[path.value], contents.value[i]))
    ensures contents.Some? && (path.None? || path.value == "" || path.value !in fs) ==> r == Ok(false)
  {
    if contents.None? {
      return Fail(ArgumentNull);
    }
    var b := FileContains(fs, path, contents);
    return Ok(b);
  }

  /** A content that spans a line break is never found: no line read from
      the file holds a line terminator. */
  lemma MultiLineNeverFound(lines: seq<string>, content: string)
    requires forall k :: 0 <= k < |lines| ==> IsLine(lines[k])
    requires '\n' in content
    ensures !FoundIn(lines, content)
  {
    forall k | 0 <= k < |lines| ensures !Strings.Contains(lines[k], content) {
      Strings.MissingCharNotContained(lines[k], content, '\n');
    }
  }

  /** Every text contains the empty string, but an empty file has no line
      to contain it in: the empty content is found exactly when the file
      has at least one line. */
  lemma EmptyContentNeedsALine(lines: seq<string>)
    ensures FoundIn(lines, "") <==> |lines| > 0
  {
    if |lines| > 0 {
      assert Strings.IsPrefix("", lines[0]);
      assert Strings.Contains(lines[0], "");
    }
  }
}

=== FILE: find_refs.dfy ===
/** `JuneEditorUtils.FindReferences` (Assets/June/_Core/Editor/JuneEditorUtils.cs):
    the references a recursive `grep -R -n` reports, parsed from its output.
    Each output line has the form `path:line:text`; the command itself is
    a parameter, its output. */
module FindRefs {
  import opened Wrappers
  import opened Strings

  /** A `KeyValuePair<FileInfo, int>`: the file's path and the line
      number. */
  datatype Reference = Reference(file: string, line: Int32)

  /** What a path must look like to come back from an output line: a
      non-empty `FileInfo` path holding no `:`. */
  predicate PlainPath(path: string) {
    path != "" && ':' !in path
  }

  /** One output line: an empty line, or one without a `:`, adds nothing;
      otherwise the first piece becomes a `FileInfo` (an empty path throws
      `ArgumentException`, before the number is read) and the second is
      read by `int.Parse`. */
  function ParseLine(line: string): (r: Result<Option<Reference>>)
    ensures line == "" || ':' !in line ==> r == Ok(None)
    ensures r.Ok? && r.value.Some? ==> PlainPath(r.value.value.file)
  {
    if line == "" then Ok(None)
    else
      var parts := Split(line, ':');
      SplitPieces(line, ':');
      if |parts| < 2 then Ok(None)
      else if parts[0] == "" then Fail(Argument)
      else
        var n :- ParseInt32(parts[1]);
        Ok(Some(Reference(parts[0], n)))
  }

  /** A text splits into two or more pieces exactly when it holds the
      separator. */
  lemma SplitPieces(s: string, c: char)
    ensures c in s <==> |Split(s, c)| >= 2
  {
    JoinSplit(s, c);
    if c !in s {
      SplitNoSeparator(s, c);
    }
  }

  /** The loop over the output's lines: the references in order, or the
      first exception. */
  function Collect(lines: seq<string>): (r: Result<seq<Reference>>)
    ensures r.Ok? ==> |r.value| <= |lines|
    ensures r.Ok? ==> forall i :: 0 <= i < |r.value| ==> PlainPath(r.value[i].file)
    decreases |lines|
  {
    if |lines| == 0 then Ok([])
    else
      var head :- ParseLine(lines[0]);
      var rest :- Collect(lines[1..]);
      match head
      case None => Ok(rest)
      case Some(ref) => Ok([ref] + rest)
  }

  /** `FindReferences`, given the command's output: nothing for a null or
      empty output, otherwise the output's lines parsed in order. */
  function FindReferences(output: Option<string>): (r: Result<seq<Reference>>)
    ensures output.None? || output.value == "" ==> r == Ok([])
    ensures r.Ok? ==> forall i :: 0 <= i < |r.value| ==> PlainPath(r.value[i].file)
  {
    if output.None? || output.value == "" then Ok([])
    else Collect(Split(output.value, '\n'))
  }

  // ---------------------------------------------------------------------
  // Round trip with grep's output

  /** One match as `grep -n` reports it. */
  datatype Match = Match(path: string, line: Int32, text: string)

  /** A match the parser can read back: a plain path and a one-line text
      (which may hold `:`). */
  predicate Reportable(m: Match) {
    PlainPath(m.path) && '\n' !in m.path && '\n' !in m.text
  }

  function GrepLine(m: Match): string {
    m.path + ":" + IntText(m.line) + ":" + m.text
  }

  /** The command's output: one terminated line per match. */
  function GrepOutput(ms: seq<Match>): string
    decreases |ms|
  {
    if |ms| == 0 then "" else GrepLine(ms[0]) + "\n" + GrepOutput(ms[1..])
  }

  /** The reported lines, one per match. */
  function Lines(ms: seq<Match>): seq<string>
    decreases |ms|
  {
    if |ms| == 0 then [] else [GrepLine(ms[0])] + Lines(ms[1..])
  }

  /** The references the matches stand for. */
  function References(ms: seq<Match>): seq<Reference>
    decreases |ms|
  {
    if |ms| == 0 then [] else [Reference(ms[0].path, ms[0].line)] + References(ms[1..])
  }

  /** The decimal text of a number holds only digits and a sign. */
  lemma IntTextHasNo(n: int, c: char)
    requires !IsDigit(c) && c != '-'
    ensures c !in IntText(n)
  {
    var s := if n < 0 then NatText(-n) else NatText(n);
    assert forall i :: 0 <= i < |s| ==> s[i] != c;
  }

  /** A reportable line is read back as its reference. */
  lemma ParseGrepLine(m: Match)
    requires PlainPath(m.path)
    ensures ParseLine(GrepLine(m)) == Ok(Some(Reference(m.path, m.line)))
  {
    var num := IntText(m.line);
    IntTextHasNo(m.line, ':');
    var line := GrepLine(m);
    assert line == m.path + [':'] + (num + [':'] + m.text);
    SplitCons(m.path, ':', num + [':'] + m.text);
    SplitCons(num, ':', m.text);
    var parts := Split(line, ':');
    assert parts == [m.path] + ([num] + Split(m.text, ':'));
    assert parts[0] == m.path && parts[1] == num;
    IntTextParses(m.line);
  }

  /** A reportable match is reported on one line. */
  lemma GrepLineIsOneLine(m: Match)
    requires Reportable(m)
    ensures '\n' !in GrepLine(m)
  {
    IntTextHasNo(m.line, '\n');
  }

  /** Splitting the output on line breaks gives the match lines and the
      empty piece after the final terminator. */
  lemma {:induction false} SplitGrepOutput(ms: seq<Match>)
    requires forall i :: 0 <= i < |ms| ==> Reportable(ms[i])
    ensures Split(GrepOutput(ms), '\n') == Lines(ms) + [""]
    decreases |ms|
  {
    if |ms| > 0 {
      var line, tail := GrepLine(ms[0]), ms[1..];
      GrepLineIsOneLine(ms[0]);
      SplitGrepOutput(tail);
      GrepOutputCons(ms);
      SplitCons(line, '\n', GrepOutput(tail));
      assert [line] + (Lines(tail) + [""]) == ([line] + Lines(tail)) + [""];
    }
  }

  lemma GrepOutputCons(ms: seq<Match>)
    requires |ms| > 0
    ensures GrepOutput(ms) == GrepLine(ms[0]) + ['\n'] + GrepOutput(ms[1..])
  {
  }

  /** The parser reads every reportable match back, in order; the empty
      piece after the last terminator is skipped. */
  lemma {:induction false} CollectGrepLines(ms: seq<Match>)
    requires forall i :: 0 <= i < |ms| ==> Reportable(ms[i])
    ensures Collect(Lines(ms) + [""]) == Ok(References(ms))
    decreases |ms|
  {
    if |ms| == 0 {
      assert Lines(ms) + [""] == [""];
      CollectCons("", []);
    } else {
      var tail := ms[1..];
      var line := GrepLine(ms[0]);
      CollectGrepLines(tail);
      ParseGrepLine(ms[0]);
      assert Lines(ms) + [""] == [line] + (Lines(tail) + [""]);
      CollectCons(line, Lines(tail) + [""]);
    }
  }

  /** The loop reads the first line, then the rest. */
  lemma CollectCons(line: string, rest: seq<string>)
    ensures ParseLine(line) == Ok(None) ==> Collect([line] + rest) == Collect(rest)
    ensures ParseLine(line).Ok? && ParseLine(line).value.Some? && Collect(rest).Ok? ==>
              Collect([line] + rest) == Ok([ParseLine(line).value.value] + Collect(rest).value)
  {
    assert ([line] + rest)[0] == line && ([line] + rest)[1..] == rest;
  }

  /** Round trip: the references of grep's report of a list of matches are
      the matches' paths and line numbers, in order. */
  lemma RoundTrip(ms: seq<Match>)
    requires forall i :: 0 <= i < |ms| ==> Reportable(ms[i])
    ensures FindReferences(Some(GrepOutput(ms))) == Ok(References(ms))
  {
    SplitGrepOutput(ms);
    CollectGrepLines(ms);
    if GrepOutput(ms) == "" {
      assert |ms| == 0;
    }
  }

  /** Lines with no `:` — warnings, blank lines — are skipped. */
  lemma {:induction false} NoColonNoReferences(lines: seq<string>)
    requires forall i :: 0 <= i < |lines| ==> ':' !in lines[i]
    ensures Collect(lines) == Ok([])
    decreases |lines|
  {
    if |lines| > 0 {
      NoColonNoReferences(lines[1..]);
    }
  }

  /** An empty path throws `ArgumentException` before the line number is
      read. */
  lemma EmptyPathThrows(text: string)
    ensures ParseLine(":" + text) == Fail(Argument)
  {
    SplitCons("", ':', text);
    assert ":" + text == "" + [':'] + text;
  }

  /** A line number beyond `int` throws `OverflowException`. */
  lemma LineNumberOverflows(path: string, n: int, text: string)
    requires PlainPath(path)
    requires n > INT32_MAX
    ensures ParseLine(path + ":" + IntText(n) + ":" + text) == Fail(Overflow)
  {
    var num := IntText(n);
    IntTextHasNo(n, ':');
    IntTextHasNo(n, '\n');
    IntTextParses(n);
    SplitCons(path, ':', num + [':'] + text);
    SplitCons(num, ':', text);
    assert path + ":" + num + ":" + text == path + [':'] + (num + [':'] + text);
  }

  /** A second piece that is not a number throws `FormatException`. */
  lemma MalformedNumberThrows()
    ensures ParseLine("a.cs:x") == Fail(Format)
  {
    SplitCons("a.cs", ':', "x");
    SplitNoSeparator("x", ':');
    assert "a.cs:x" == "a.cs" + [':'] + "x";
  }
}

=== FILE: jobs.dfy ===
/** `Job` (Assets/June/JobManager/JobManager.cs): a wrapper around a
    resumable work unit, run by the engine's coroutine scheduler one step
    per frame, with pause and kill flags, a stack of child jobs drained when
    the work runs out, and a completion event.

    The work unit is the sequence of values its enumerator would yield;
    `Tick` is one frame of the scheduler for the job's `DoWork` coroutine.
    A job's identity (the C# object reference) is its `id`. */
module Jobs {
  import opened Wrappers
  import Lists

  /** A job's identity: the C# object reference, which has no order or
      arithmetic. */
  type JobId = int

  /** A value the work unit yields; opaque to the job. */
  type Token = int

  /** Where the job's `DoWork` coroutine stands. */
  datatype Phase =
    | Idle        // `DoWork` not entered: never started
    | Suspended   // at a `yield return null` or a yielded work value
    | Draining    // waiting on `RunChildJobs`, which waits on `active`
    | Done        // `DoWork` has returned

  datatype Job = Job(
    id: JobId,
    work: seq<Token>,          // what the work unit has still to yield
    done: seq<Token>,          // what it has yielded so far
    running: bool,             // `IsRunning`
    paused: bool,              // `IsPaused`
    killed: bool,              // `_IsJobKilled`
    hasStack: bool,            // `_ChildJobStack` is not null: a child was added once
    stack: seq<Job>,           // `_ChildJobStack`, bottom first
    active: Option<Job>,       // the child `RunChildJobs` popped and is waiting on
    phase: Phase,
    runs: nat,                 // how many times `DoWork` has been entered
    fired: seq<bool>)          // the arguments `OnJobComplete` was raised with

  /** `OnJobComplete(killed)` raised by the job `id`; the job also leaves
      the registry at that point. */
  datatype Event = Completed(id: JobId, killed: bool)

  /** The diagnostic registry `JOBS`: the ids of live jobs. */
  type Registry = seq<JobId>

  predicate InCoroutine(j: Job) {
    j.phase == Suspended || j.phase == Draining
  }

  // ---------------------------------------------------------------------
  // Construction and flags

  /** Entering `DoWork` runs it to its first `yield return null`, so the
      work does not advance. */
  function StartRun(j: Job): (r: Job)
    ensures r.running && r.phase == Suspended && r.runs == j.runs + 1
    ensures r.work == j.work && r.done == j.done && r.fired == j.fired
    ensures r.id == j.id && r.paused == j.paused && r.killed == j.killed && r.hasStack == j.hasStack && r.stack == j.stack
  {
    j.(running := true, phase := Suspended, runs := j.runs + 1, active := None)
  }

  /** `Start`, as run in play mode: `IsRunning`, and `DoWork` handed to the
      scheduler. */
  function Start(j: Job): (r: Job)
    ensures r == StartRun(j)
  {
    StartRun(j)
  }

  /** `StartAsCoroutine`: the same, for a caller that waits on it. */
  function StartAsCoroutine(j: Job): (r: Job)
    ensures r == StartRun(j)
  {
    StartRun(j)
  }

  /** The constructor `Job(coroutine, shouldStart)`: the new job joins the
      registry, and starts when asked to. */
  function New(id: JobId, work: seq<Token>, shouldStart: bool, reg: Registry): (r: (Job, Registry))
    ensures r.1 == reg + [id] && r.0.id == id
    ensures r.0.work == work && r.0.done == [] && r.0.fired == [] && !r.0.hasStack
    ensures !r.0.paused && !r.0.killed
    ensures shouldStart ==> r.0.running && r.0.phase == Suspended && r.0.runs == 1
    ensures !shouldStart ==> !r.0.running && r.0.phase == Idle && r.0.runs == 0
  {
    var j := Job(id, work, [], false, false, false, false, [], None, Idle, 0, []);
    (if shouldStart then Start(j) else j, reg + [id])
  }

  /** `Create`: a job that starts at once. */
  function Create(id: JobId, work: seq<Token>, reg: Registry): (r: (Job, Registry))
    ensures r.1 == reg + [id] && r.0.id == id && r.0.work == work && r.0.done == []
    ensures r.0.running && !r.0.paused && !r.0.killed && r.0.phase == Suspended && r.0.runs == 1
  {
    New(id, work, true, reg)
  }

  /** `CreateAsCoroutine`: an unstarted job, then `StartAsCoroutine`. */
  function CreateAsCoroutine(id: JobId, work: seq<Token>, reg: Registry): (r: (Job, Registry))
    ensures r == New(id, work, true, reg)
  {
    var (j, reg1) := New(id, work, false, reg);
    (StartAsCoroutine(j), reg1)
  }

  function Pause(j: Job): (r: Job)
    ensures r == j.(paused := true)
  {
    j.(paused := true)
  }

  function UnPause(j: Job): (r: Job)
    ensures r == j.(paused := false)
  {
    j.(paused := false)
  }

  /** `Kill`: the flag the completion event reports, and the loop stops at
      its next test. */
  function Kill(j: Job): (r: Job)
    ensures r == j.(killed := true, running := false, paused := false)
  {
    j.(killed := true, running := false, paused := false)
  }

  /** `AddChildJob`: pushes the child, creating the stack on first use. */
  function AddChildJob(j: Job, child: Job): (r: Job)
    ensures r.hasStack && r.stack == (if j.hasStack then j.stack else []) + [child]
    ensures r == j.(hasStack := true, stack := r.stack)
  {
    j.(hasStack := true, stack := (if j.hasStack then j.stack else []) + [child])
  }

  /** `CreateAndAddChildJob`: a new unstarted job pushed as a child. */
  function CreateAndAddChildJob(j: Job, id: JobId, work: seq<Token>, reg: Registry): (r: (Job, Job, Registry))
    ensures r.1 == New(id, work, false, reg).0 && r.2 == reg + [id]
    ensures r.0 == AddChildJob(j, r.1)
    ensures !r.1.running && r.1.phase == Idle
  {
    var (child, reg1) := New(id, work, false, reg);
    (AddChildJob(j, child), child, reg1)
  }

  // ---------------------------------------------------------------------
  // RemoveChildJob

  /** The jobs of `stack` other than the one with this id, in order. */
  function WithoutId(stack: seq<Job>, id: JobId): (r: seq<Job>)
    ensures |r| <= |stack|
    decreases |stack|
  {
    if |stack| == 0 then []
    else
      var init := stack[..|stack| - 1];
      var top := stack[|stack| - 1];
      WithoutId(init, id) + (if top.id != id then [top] else [])
  }

  /** Removing keeps exactly the jobs with another id. */
  lemma {:induction false} WithoutIdMembers(stack: seq<Job>, id: JobId, c: Job)
    ensures c in WithoutId(stack, id) <==> c in stack && c.id != id
    decreases |stack|
  {
    if |stack| > 0 {
      var init := stack[..|stack| - 1];
      var top := stack[|stack| - 1];
      WithoutIdMembers(init, id, c);
      assert stack == init + [top];
    }
  }

  function Reverse<T>(s: seq<T>): (r: seq<T>)
    ensures |r| == |s| && forall i :: 0 <= i < |s| ==> r[i] == s[|s| - 1 - i]
  {
    if |s| == 0 then [] else Reverse(s[1..]) + [s[0]]
  }

  predicate HasId(stack: seq<Job>, id: JobId) {
    exists i :: 0 <= i < |stack| && stack[i].id == id
  }

  /** `RemoveChildJob`: when the stack holds the child, it is rebuilt by
      pushing, bottom first, every job that is not the child. A job that
      was never given a child has no stack, and the call throws. */
  method RemoveChildJob(j: Job, child: Job) returns (r: Result<Job>)
    ensures !j.hasStack ==> r == Fail(NullReference)
    ensures j.hasStack ==> r.Ok?
    ensures r.Ok? && !HasId(j.stack, child.id) ==> r.value == j
    ensures r.Ok? ==> r.value == j.(stack := WithoutId(j.stack, child.id))
  {
    if !j.hasStack {
      return Fail(NullReference);
    }
    var stack := j.stack;
    if !HasIdCheck(stack, child.id) {
      assert WithoutId(stack, child.id) == stack by {
        WithoutAbsentId(stack, child.id);
      }
      return Ok(j);
    }
    var all := Reverse(stack);     // `ToArray`: top first
    all := Reverse(all);           // `Array.Reverse`: bottom first
    assert all == stack;
    var rebuilt := PushAllBut(all, child.id);
    return Ok(j.(stack := rebuilt));
  }

  /** The loop of `RemoveChildJob`: push every job but the removed one onto
      a fresh stack. */
  method PushAllBut(all: seq<Job>, id: JobId) returns (rebuilt: seq<Job>)
    ensures rebuilt == WithoutId(all, id)
  {
    rebuilt := [];
    var i := 0;
    while i < |all|
      invariant 0 <= i <= |all|
      invariant rebuilt == WithoutId(all[..i], id)
    {
      assert all[..i + 1][..i] == all[..i];
      if all[i].id != id {
        rebuilt := rebuilt + [all[i]];
      }
      i := i + 1;
    }
    assert all[..i] == all;
  }

  /** `Stack.Contains`, by identity. */
  function HasIdCheck(stack: seq<Job>, id: JobId): (b: bool)
    ensures b <==> HasId(stack, id)
    decreases |stack|
  {
    if |stack| == 0 then false
    else if stack[0].id == id then true
    else
      var rest := HasIdCheck(stack[1..], id);
      assert HasId(stack[1..], id) ==> HasId(stack, id) by {
        if HasId(stack[1..], id) {
          var i :| 0 <= i < |stack[1..]| && stack[1..][i].id == id;
          assert stack[i + 1].id == id;
        }
      }
      assert HasId(stack, id) && stack[0].id != id ==> HasId(stack[1..], id) by {
        if HasId(stack, id) && stack[0].id != id {
          var i :| 0 <= i < |stack| && stack[i].id == id;
          assert stack[1..][i - 1].id == id;
        }
      }
      rest
  }

  lemma {:induction false} WithoutAbsentId(stack: seq<Job>, id: JobId)
    requires !HasId(stack, id)
    ensures WithoutId(stack, id) == stack
    decreases |stack|
  {
    if |stack| > 0 {
      var init := stack[..|stack| - 1];
      var last := stack[|stack| - 1];
      assert !HasId(init, id) by {
        forall i | 0 <= i < |init| ensures init[i].id != id {
          assert init[i] == stack[i];
        }
      }
      WithoutAbsentId(init, id);
      assert last.id != id;
      assert WithoutId(stack, id) == WithoutId(init, id) + [last];
      assert stack == init + [last];
    }
  }

  /** Removing a child keeps the other children in their order: the result
      is the stack with the child's entries cut out. */
  lemma {:induction false} WithoutIdSplit(a: seq<Job>, c: Job, b: seq<Job>)
    requires !HasId(a, c.id) && !HasId(b, c.id)
    ensures WithoutId(a + [c] + b, c.id) == a + b
    decreases |b|
  {
    if |b| == 0 {
      assert a + [c] + b == a + [c];
      assert (a + [c])[..|a|] == a;
      WithoutAbsentId(a, c.id);
    } else {
      var init := b[..|b| - 1];
      WithoutIdSplit(a, c, init);
      assert (a + [c] + b)[..|a + [c] + b| - 1] == a + [c] + init;
      var last := b[|b| - 1];
      assert last.id != c.id;
      assert b == init + [last];
      Lists.ConcatAssoc(a, init, [last]);
    }
  }

  // ---------------------------------------------------------------------
  // One frame of `DoWork`

  /** `DoWork` leaves its loop: `OnJobComplete(_IsJobKilled)` is raised and
      the coroutine ends. */
  function Complete(j: Job): (r: (Job, seq<Event>))
    ensures r.0 == j.(phase := Done, active := None, fired := j.fired + [j.killed])
    ensures r.1 == [Completed(j.id, j.killed)]
  {
    (j.(phase := Done, active := None, fired := j.fired + [j.killed]), [Completed(j.id, j.killed)])
  }

  /** The loop test of `RunChildJobs`: pop and start the top child, or, when
      none is left, set `IsRunning` to false and leave the `DoWork` loop.
      `ev` are the events raised earlier in the same frame. */
  function NextChild(j: Job, ev: seq<Event>): (r: (Job, seq<Event>))
  {
    var stack := j.stack;
    if |stack| > 0 then
      var top := stack[|stack| - 1];
      (j.(stack := stack[..|stack| - 1], active := Some(StartAsCoroutine(top)), phase := Draining), ev)
    else
      var (c, e) := Complete(j.(running := false));
      (c, ev + e)
  }

  /** Resuming `DoWork` at the test of its `while (IsRunning)` loop. */
  function LoopHead(j: Job): (r: (Job, seq<Event>))
  {
    if !j.running then Complete(j)
    else if j.paused then (j, [])
    else if |j.work| > 0 then (j.(work := j.work[1..], done := j.done + [j.work[0]]), [])
    else if j.hasStack then NextChild(j, [])
    else Complete(j.(running := false))
  }

  /** One frame of the scheduler for the job, with the events raised during
      it, innermost first. A job that waits on a child resumes in the frame
      in which the child finishes. */
  function Tick(j: Job): (r: (Job, seq<Event>))
    ensures r.0.id == j.id && r.0.killed == j.killed && r.0.runs == j.runs
    ensures r.0.done + r.0.work == j.done + j.work
    decreases j
  {
    match j.phase
    case Idle => (j, [])
    case Done => (j, [])
    case Suspended => LoopHead(j)
    case Draining =>
      if j.active.None? then (j, [])
      else
        var (c, ev) := Tick(j.active.value);
        if c.phase == Done then NextChild(j.(active := None), ev)
        else (j.(active := Some(c)), ev)
  }

  /** A frame does nothing to a job outside its coroutine or paused. */
  lemma TickWaits(j: Job)
    ensures j.phase == Idle || j.phase == Done ==> Tick(j) == (j, [])
    ensures j.phase == Suspended && j.running && j.paused ==> Tick(j) == (j, [])
  {
  }

  /** A frame moves a running job with work left on by one value, and
      completes a job whose flag is down. */
  lemma TickSteps(j: Job)
    ensures j.phase == Suspended && j.running && !j.paused && |j.work| > 0 ==>
              Tick(j) == (j.(work := j.work[1..], done := j.done + [j.work[0]]), [])
    ensures j.phase == Suspended && !j.running ==> Tick(j) == Complete(j)
  {
  }

  /** The completion event is raised, once and last in the frame, exactly
      when the job moves to `Done`. */
  lemma {:induction false} TickFiresOnce(j: Job)
    ensures var r := Tick(j);
            && (r.0.phase != Done ==> r.0.fired == j.fired)
            && (r.0.phase == Done && j.phase != Done ==>
                  r.0.fired == j.fired + [j.killed] && |r.1| > 0 && r.1[|r.1| - 1] == Completed(j.id, j.killed))
  {
    match j.phase
    case Idle =>
    case Done =>
    case Suspended =>
      assert Tick(j) == LoopHead(j);
      LoopHeadFires(j);
    case Draining =>
      if j.active.Some? {
        var (c, ev) := Tick(j.active.value);
        if c.phase == Done {
          assert Tick(j) == NextChild(j.(active := None), ev);
          NextChildFires(j.(active := None), ev);
        } else {
          assert Tick(j) == (j.(active := Some(c)), ev);
        }
      }
  }

  /** The loop test raises the completion, last, exactly when it ends the
      job. */
  lemma LoopHeadFires(j: Job)
    requires j.phase == Suspended
    ensures var r := LoopHead(j);
            && (r.0.phase != Done ==> r.0.fired == j.fired)
            && (r.0.phase == Done ==>
                  r.0.fired == j.fired + [j.killed] && |r.1| > 0 && r.1[|r.1| - 1] == Completed(j.id, j.killed))
  {
    if j.running && !j.paused && |j.work| == 0 && j.hasStack {
      NextChildFires(j, []);
    }
  }

  /** Leaving the loop with no child left raises the job's completion
      last; popping a child raises nothing. */
  lemma NextChildFires(j: Job, ev: seq<Event>)
    ensures var r := NextChild(j, ev);
            && (|j.stack| > 0 ==> r.0.phase == Draining && r.0.fired == j.fired && r.1 == ev)
            && (|j.stack| == 0 ==> r.0.phase == Done && r.0.fired == j.fired + [j.killed]
                                   && r.1 == ev + [Completed(j.id, j.killed)])
  {
  }

  /** `n` frames in a row, with all the events raised. */
  function Run(j: Job, n: nat): (r: (Job, seq<Event>))
    ensures r.0.id == j.id && r.0.killed == j.killed && r.0.runs == j.runs
    ensures r.0.done + r.0.work == j.done + j.work
    decreases n
  {
    if n == 0 then (j, [])
    else
      var first := Tick(j);
      var rest := Run(first.0, n - 1);
      (rest.0, first.1 + rest.1)
  }

  /** The first frame of a run, then the rest. */
  lemma RunUnfold(j: Job, n: nat)
    requires n > 0
    ensures Run(j, n) == (Run(Tick(j).0, n - 1).0, Tick(j).1 + Run(Tick(j).0, n - 1).1)
  {
    var first := Tick(j);
    var rest := Run(first.0, n - 1);
    assert Run(j, n) == (rest.0, first.1 + rest.1);
  }

  // ---------------------------------------------------------------------
  // Invariants

  /** The job is in a state its own operations can reach:
      - it waits on a child exactly when it is draining, and that child is
        itself in its coroutine and well formed;
      - a job in its coroutine whose flag is down was killed (the flag
        drops without a kill only as the coroutine ends);
      - the completion event has fired once for every `DoWork` run that has
        ended;
      - the children waiting on the stack are not in a coroutine. */
  ghost predicate Valid(j: Job)
    decreases j, 1
  {
    && (j.phase == Draining <==> j.active.Some?)
    && (j.phase == Draining ==> j.hasStack)
    && (j.active.Some? ==> InCoroutine(j.active.value) && Valid(j.active.value))
    && (InCoroutine(j) && !j.running ==> j.killed)
    && |j.fired| + (if InCoroutine(j) then 1 else 0) == j.runs
    && (j.phase == Draining ==> j.work == [])
    && (!j.hasStack ==> j.stack == [])
    && (forall i :: 0 <= i < |j.stack| ==> Ready(j.stack[i]))
  }

  /** A valid job that has not started or has finished. */
  ghost predicate Ready(j: Job)
    decreases j, 2
  {
    Valid(j) && !InCoroutine(j)
  }

  /** Starting a job that is not in its coroutine keeps it valid. */
  lemma StartKeepsValid(j: Job)
    requires Valid(j) && !InCoroutine(j)
    ensures Valid(Start(j))
  {
  }

  lemma NewIsValid(id: JobId, work: seq<Token>, shouldStart: bool, reg: Registry)
    ensures Valid(New(id, work, shouldStart, reg).0)
  {
  }

  lemma FlagsKeepValid(j: Job)
    requires Valid(j)
    ensures Valid(Pause(j)) && Valid(UnPause(j)) && Valid(Kill(j))
  {
  }

  /** Adding an unstarted or finished child keeps the parent valid. */
  lemma AddChildKeepsValid(j: Job, child: Job)
    requires Valid(j) && Ready(child)
    ensures Valid(AddChildJob(j, child))
  {
  }

  lemma NextChildKeepsValid(j: Job, ev: seq<Event>)
    requires j.phase == Suspended || j.phase == Draining
    requires j.active.None? && j.hasStack
    requires forall i :: 0 <= i < |j.stack| ==> Ready(j.stack[i])
    requires |j.fired| + 1 == j.runs && (j.running || j.killed) && j.work == []
    ensures Valid(NextChild(j, ev).0)
  {
    var stack := j.stack;
    if |stack| > 0 {
      var top := stack[|stack| - 1];
      assert Ready(top);
      StartKeepsValid(top);
      var r := NextChild(j, ev).0;
      assert r.active == Some(Start(top));
      assert forall i :: 0 <= i < |r.stack| ==> r.stack[i] == stack[i];
    }
  }

  /** One frame keeps a valid job valid. */
  lemma {:induction false} TickKeepsValid(j: Job)
    requires Valid(j)
    ensures Valid(Tick(j).0)
    decreases j
  {
    match j.phase
    case Idle =>
    case Done =>
    case Suspended =>
      if j.running && !j.paused && |j.work| == 0 && j.hasStack {
        NextChildKeepsValid(j, []);
      }
    case Draining =>
      var (c, ev) := Tick(j.active.value);
      TickKeepsValid(j.active.value);
      if c.phase == Done {
        NextChildKeepsValid(j.(active := None), ev);
      }
  }

  lemma {:induction false} RunKeepsValid(j: Job, n: nat)
    requires Valid(j)
    ensures Valid(Run(j, n).0)
    decreases n
  {
    if n > 0 {
      TickKeepsValid(j);
      RunKeepsValid(Tick(j).0, n - 1);
    }
  }

  /** The completion event fires exactly once per `DoWork` run: a job
      started once has fired no event while in its coroutine and exactly one
      once it is done, however many frames pass. */
  lemma CompletesOnce(j: Job, n: nat)
    requires Valid(j) && j.runs == 1 && InCoroutine(j)
    ensures var r := Run(j, n).0;
            (InCoroutine(r) ==> |r.fired| == 0) && (r.phase == Done ==> |r.fired| == 1)
  {
    RunKeepsValid(j, n);
    RunStaysStarted(j, n);
  }

  /** A job in its coroutine never goes back to `Idle`. */
  lemma {:induction false} RunStaysStarted(j: Job, n: nat)
    requires InCoroutine(j) || j.phase == Done
    ensures Run(j, n).0.phase != Idle
    decreases n
  {
    if n > 0 {
      TickStaysStarted(j);
      RunStaysStarted(Tick(j).0, n - 1);
    }
  }

  lemma TickStaysStarted(j: Job)
    requires InCoroutine(j) || j.phase == Done
    ensures Tick(j).0.phase != Idle
  {
  }

  /** A finished job stays finished: later frames change nothing and raise
      nothing. */
  lemma {:induction false} DoneIsFinal(j: Job, n: nat)
    requires j.phase == Done
    ensures Run(j, n) == (j, [])
    decreases n
  {
    if n > 0 {
      DoneIsFinal(j, n - 1);
      RunUnfold(j, n);
      assert Tick(j) == (j, []);
      assert Tick(j).1 + Run(j, n - 1).1 == [];
    }
  }

  /** A paused job makes no progress: every frame leaves it as it is. */
  lemma {:induction false} PausedMakesNoProgress(j: Job, n: nat)
    requires j.phase == Suspended && j.running && j.paused
    ensures Run(j, n) == (j, [])
    decreases n
  {
    if n > 0 {
      PausedMakesNoProgress(j, n - 1);
      RunUnfold(j, n);
      assert Tick(j) == (j, []);
      assert Tick(j).1 + Run(j, n - 1).1 == [];
    }
  }

  /** A running, unpaused job with `k` values left yields exactly one per
      frame for `k` frames. */
  lemma {:induction false} AdvancesOnePerFrame(j: Job, k: nat)
    requires j.phase == Suspended && j.running && !j.paused && k <= |j.work|
    ensures Run(j, k) == (j.(work := j.work[k..], done := j.done + j.work[..k]), [])
    decreases k
  {
    if k > 0 {
      var j1 := j.(work := j.work[1..], done := j.done + [j.work[0]]);
      TickSteps(j);
      AdvancesOnePerFrame(j1, k - 1);
      RunUnfold(j, k);
      assert Tick(j) == (j1, []);
      assert j1.work[k - 1..] == j.work[k..];
      assert j.work[..k] == [j.work[0]] + j1.work[..k - 1];
      assert j1.done + j1.work[..k - 1] == j.done + j.work[..k];
    } else {
      assert j.done + j.work[..0] == j.done;
    }
  }

  /** A killed job raises `OnJobComplete(true)` at its next frame. */
  lemma KillThenTick(j: Job)
    requires j.phase == Suspended
    ensures Tick(Kill(j)).1 == [Completed(j.id, true)]
    ensures Tick(Kill(j)).0.phase == Done && !Tick(Kill(j)).0.running
  {
  }

  /** A job started with `k` values and no children, never paused or
      killed, finishes in frame `k + 1` with `OnJobComplete(false)`. */
  lemma RunsToCompletion(id: JobId, work: seq<Token>, reg: Registry)
    ensures var j := New(id, work, true, reg).0;
            var r := Run(j, |work| + 1);
            && r.0.phase == Done && !r.0.running && r.0.done == work
            && r.1 == [Completed(id, false)]
            && Run(j, |work|).0.phase == Suspended
  {
    RunsOut(New(id, work, true, reg).0);
  }

  /** A running, unpaused job without children yields its remaining values
      one per frame and then, in the next frame, completes. */
  lemma RunsOut(j: Job)
    requires j.phase == Suspended && j.running && !j.paused && !j.hasStack
    ensures var n := |j.work|;
            var r := Run(j, n + 1);
            && r.0.phase == Done && !r.0.running && r.0.done == j.done + j.work
            && r.1 == [Completed(j.id, j.killed)]
            && Run(j, n).0.phase == Suspended
  {
    var n := |j.work|;
    var e := j.(work := [], done := j.done + j.work);
    assert Run(j, n) == (e, []) by {
      AdvancesOnePerFrame(j, n);
      assert j.work[n..] == [] && j.work[..n] == j.work;
    }
    var last := Complete(e.(running := false));
    LastFrame(e);
    assert Run(j, n + 1) == (last.0, [] + last.1) by {
      RunSplit(j, n, 1);
    }
  }

  /** A running job with no work and no children completes in one frame. */
  lemma LastFrame(j: Job)
    requires j.phase == Suspended && j.running && !j.paused && j.work == [] && !j.hasStack
    ensures Run(j, 1) == Complete(j.(running := false))
  {
    var last := Complete(j.(running := false));
    assert Tick(j) == last;
    RunUnfoldAt(j, 0, 1);
    assert last.1 + [] == last.1;
  }

  lemma {:induction false} RunSplit(j: Job, m: nat, n: nat)
    ensures Run(j, m + n) == (Run(Run(j, m).0, n).0, Run(j, m).1 + Run(Run(j, m).0, n).1)
    decreases m
  {
    if m > 0 {
      var t := Tick(j);
      var k := m - 1;
      RunSplit(t.0, k, n);
      RunUnfoldAt(j, k, m);
      RunUnfoldAt(j, k + n, m + n);
      var mid := Run(t.0, k);
      var tail := Run(mid.0, n);
      assert t.1 + (mid.1 + tail.1) == (t.1 + mid.1) + tail.1;
    } else {
      var tail := Run(j, n);
      assert Run(j, 0) == (j, []);
      assert [] + tail.1 == tail.1;
    }
  }

  /** `RunUnfold` with the remaining frame count named. */
  lemma RunUnfoldAt(j: Job, p: nat, n: nat)
    requires n == p + 1
    ensures Run(j, n) == (Run(Tick(j).0, p).0, Tick(j).1 + Run(Tick(j).0, p).1)
  {
    RunUnfold(j, n);
  }

  // ---------------------------------------------------------------------
  // Draining the children

  /** When the work runs out, a job with children starts the child on top
      of the stack and keeps the rest; it is still running. */
  lemma ExhaustedStartsTopChild(j: Job)
    requires j.phase == Suspended && j.running && !j.paused && |j.work| == 0
    requires j.hasStack && |j.stack| > 0
    ensures var s := j.stack;
            var r := Tick(j).0;
            && r.phase == Draining && r.running
            && r.active == Some(StartAsCoroutine(s[|s| - 1]))
            && r.stack == s[..|s| - 1]
            && Tick(j).1 == []
  {
  }

  /** While the active child is not finished, the parent's stack and flags
      stay as they are. */
  lemma WaitsForActiveChild(j: Job)
    requires j.phase == Draining && j.active.Some?
    requires Tick(j.active.value).0.phase != Done
    ensures var r := Tick(j).0;
            && r == j.(active := Some(Tick(j.active.value).0))
            && Tick(j).1 == Tick(j.active.value).1
  {
  }

  /** When the active child finishes, the parent starts the next child from
      the top of the stack in the same frame, after the child's events. */
  lemma FinishedChildPopsNext(j: Job)
    requires j.phase == Draining && j.active.Some? && |j.stack| > 0
    requires Tick(j.active.value).0.phase == Done
    ensures var s := j.stack;
            var r := Tick(j).0;
            && r.phase == Draining
            && r.active == Some(StartAsCoroutine(s[|s| - 1]))
            && r.stack == s[..|s| - 1]
            && Tick(j).1 == Tick(j.active.value).1
  {
  }

  /** When the last child finishes, the parent finishes in the same frame:
      the stack is empty, `IsRunning` is false, and the parent's event comes
      after the child's. */
  lemma LastChildCompletesParent(j: Job)
    requires j.phase == Draining && j.active.Some? && j.stack == []
    requires Tick(j.active.value).0.phase == Done
    ensures var r := Tick(j);
            && r.0.phase == Done && !r.0.running && r.0.stack == []
            && r.1 == Tick(j.active.value).1 + [Completed(j.id, j.killed)]
  {
  }

  /** A job that finishes without having been killed has used up its work
      and emptied its child stack. */
  lemma {:induction false} NaturalEndDrainsEverything(j: Job)
    requires Valid(j) && j.phase != Done && !j.killed
    requires Tick(j).0.phase == Done
    ensures Tick(j).0.work == []
    ensures Tick(j).0.stack == []
    ensures Tick(j).1[|Tick(j).1| - 1] == Completed(j.id, false)
  {
  }

  /** A child that is started with no work and no children finishes at its
      first frame. */
  ghost predicate Trivial(c: Job) {
    c.work == [] && !c.hasStack && c.stack == [] && !c.paused
  }

  /** Children with no work of their own run one per frame, the last one
      added first: a parent draining `stack`, whose active child finishes
      in the next frame, raises the events of the active child, then of the
      children from the top of the stack down, then its own. */
  lemma {:induction false} DrainsInStackOrder(j: Job)
    requires j.phase == Draining && j.active.Some? && j.hasStack
    requires Trivial(j.active.value) && j.active.value.phase == Suspended && j.active.value.running
    requires forall c :: c in j.stack ==> Trivial(c)
    ensures var s := j.stack;
            var r := Run(j, |s| + 1);
            && r.0.phase == Done && r.0.stack == []
            && r.1 == [Completed(j.active.value.id, j.active.value.killed)]
                      + CompletionsTopFirst(s) + [Completed(j.id, j.killed)]
    decreases |j.stack|
  {
    var s := j.stack;
    var a := j.active.value;
    DrainStep(j);
    RunUnfold(j, |s| + 1);
    var first := Completed(a.id, a.killed);
    if |s| == 0 {
      assert Run(Tick(j).0, 0) == (Tick(j).0, []);
    } else {
      var top := s[|s| - 1];
      var j1 := Tick(j).0;
      assert top in s;
      assert Trivial(StartAsCoroutine(top));
      assert forall c :: c in s[..|s| - 1] ==> c in s;
      DrainsInStackOrder(j1);
      var middle := CompletionsTopFirst(s);
      var last := [Completed(j.id, j.killed)];
      assert middle == [Completed(top.id, top.killed)] + CompletionsTopFirst(s[..|s| - 1]);
      assert Run(j1, |s|).1 == middle + last;
      Lists.ConcatAssoc([first], middle, last);
    }
  }

  /** One frame of a parent whose active child is trivial: the child
      completes, and the parent either starts the next child from the top
      of its stack or, with none left, completes. */
  lemma DrainStep(j: Job)
    requires j.phase == Draining && j.active.Some? && j.hasStack
    requires Trivial(j.active.value) && j.active.value.phase == Suspended && j.active.value.running
    ensures var s := j.stack;
            var a := j.active.value;
            var r := Tick(j);
            && (|s| == 0 ==> r.0.phase == Done && r.0.stack == []
                             && r.1 == [Completed(a.id, a.killed), Completed(j.id, j.killed)])
            && (|s| > 0 ==> r.0.phase == Draining && r.0.hasStack && r.0.id == j.id && r.0.killed == j.killed
                            && r.0.active == Some(StartAsCoroutine(s[|s| - 1]))
                            && r.0.stack == s[..|s| - 1]
                            && r.1 == [Completed(a.id, a.killed)])
  {
    var a := j.active.value;
    assert Tick(a) == Complete(a.(running := false));
  }

  /** The completion events of the jobs of a stack, top first. */
  function CompletionsTopFirst(s: seq<Job>): (r: seq<Event>)
    ensures |r| == |s|
    ensures forall i :: 0 <= i < |s| ==> r[i] == Completed(s[|s| - 1 - i].id, s[|s| - 1 - i].killed)
  {
    if |s| == 0 then []
    else [Completed(s[|s| - 1].id, s[|s| - 1].killed)] + CompletionsTopFirst(s[..|s| - 1])
  }

  // ---------------------------------------------------------------------
  // A job started more than once

  /* `Start` does not look at `IsRunning`: every call hands one more
     `DoWork` to the scheduler, and the loops share the job's flags and its
     enumerator. Here a job without children carries `live` such loops,
     which the scheduler resumes, each frame, in the order they were
     started; each takes one turn at the `while (IsRunning)` test. */

  /** `Start` on a job that already has `live` loops: one more. */
  function StartAgain(j: Job, live: nat): (r: (Job, nat))
    ensures r.1 == live + 1 && r.0.running && r.0.runs == j.runs + 1
    ensures r.0.work == j.work && r.0.done == j.done && r.0.fired == j.fired
    ensures r.0.id == j.id && r.0.paused == j.paused && r.0.killed == j.killed && r.0.hasStack == j.hasStack
  {
    (Start(j), live + 1)
  }

  /** One frame of the `live` loops of a job without children: the job
      after it, the loops still live, and the completions raised. Each loop
      that leaves raises exactly one completion. */
  function LoopsFrame(j: Job, live: nat): (r: (Job, nat, seq<Event>))
    requires !j.hasStack
    ensures !r.0.hasStack && r.0.id == j.id && r.0.killed == j.killed && r.0.runs == j.runs
    ensures r.0.done + r.0.work == j.done + j.work
    ensures r.1 <= live && |r.2| == live - r.1
    ensures forall i :: 0 <= i < |r.2| ==> r.2[i] == Completed(j.id, j.killed)
    ensures !j.running ==> r.1 == 0 && !r.0.running
    decreases live
  {
    if live == 0 then (j, 0, [])
    else
      var h := LoopHead(j.(phase := Suspended));
      var g := LoopsFrame(h.0, live - 1);
      (g.0, g.1 + (if h.0.phase == Done then 0 else 1), h.1 + g.2)
  }

  /** `n` frames of the loops. */
  function RunLoops(j: Job, live: nat, n: nat): (r: (Job, nat, seq<Event>))
    requires !j.hasStack
    ensures !r.0.hasStack && r.0.id == j.id && r.0.killed == j.killed && r.0.runs == j.runs
    ensures r.0.done + r.0.work == j.done + j.work
    ensures r.1 <= live && |r.2| == live - r.1
    ensures forall i :: 0 <= i < |r.2| ==> r.2[i] == Completed(j.id, j.killed)
    decreases n
  {
    if n == 0 then (j, live, [])
    else
      var f := LoopsFrame(j, live);
      var g := RunLoops(f.0, f.1, n - 1);
      (g.0, g.1, f.2 + g.2)
  }

  /** With one loop, a frame is the frame `Tick` models. */
  lemma OneLoopIsTick(j: Job)
    requires j.phase == Suspended && !j.hasStack
    ensures var r := LoopsFrame(j, 1);
            && r.2 == Tick(j).1
            && r.0 == Tick(j).0
            && (r.1 == 0 <==> Tick(j).0.phase == Done)
  {
    assert j.(phase := Suspended) == j;
    var (c, ev) := LoopHead(j);
    assert LoopsFrame(c, 0) == (c, 0, []);
    assert ev + [] == ev;
  }

  /** Two loops over work that is still running and unpaused: each frame
      yields two values, one per loop. */
  lemma TwoLoopsStep(j: Job)
    requires !j.hasStack && j.running && !j.paused && |j.work| >= 2
    ensures LoopsFrame(j, 2) ==
              (j.(phase := Suspended, work := j.work[2..], done := j.done + j.work[..2]), 2, [])
  {
    var c := j.(phase := Suspended, work := j.work[1..], done := j.done + [j.work[0]]);
    var d := c.(work := c.work[1..], done := c.done + [c.work[0]]);
    YieldTurn(j);
    YieldTurn(c);
    assert c.(phase := Suspended) == c;
    LoopsFrameUnfold(c, 1);
    assert LoopsFrame(d, 0) == (d, 0, []);
    LoopsFrameUnfold(j, 2);
    assert d.work == j.work[2..];
    assert d.done == j.done + j.work[..2] by {
      assert c.work[0] == j.work[1];
      assert j.work[..2] == [j.work[0]] + [j.work[1]];
    }
    assert d == j.(phase := Suspended, work := j.work[2..], done := j.done + j.work[..2]);
  }

  /** A loop's turn with work left yields the next value. */
  lemma YieldTurn(j: Job)
    requires j.running && !j.paused && |j.work| > 0
    ensures LoopHead(j.(phase := Suspended)) ==
              (j.(phase := Suspended, work := j.work[1..], done := j.done + [j.work[0]]), [])
  {
  }

  /** The first loop's turn, then the others'. */
  lemma LoopsFrameUnfold(j: Job, live: nat)
    requires !j.hasStack && live > 0
    ensures var h := LoopHead(j.(phase := Suspended));
            var g := LoopsFrame(h.0, live - 1);
            LoopsFrame(j, live) == (g.0, g.1 + (if h.0.phase == Done then 0 else 1), h.1 + g.2)
  {
  }

  /** A job started twice, with no children and never paused or killed:
      its work is shared out two values per frame, and each loop, when it
      finds the work or the flag gone, raises `OnJobComplete` on its own:
      after `|work| / 2 + 2` frames no loop is left and the job has
      completed twice. */
  lemma TwoLoopsRunOut(j: Job)
    requires !j.hasStack && j.running && !j.paused
    ensures var r := RunLoops(j, 2, |j.work| / 2 + 2);
            && r.1 == 0 && !r.0.running && r.0.work == [] && r.0.done == j.done + j.work
            && r.2 == [Completed(j.id, j.killed), Completed(j.id, j.killed)]
  {
    TwoLoopsRunOutIn(j, |j.work| / 2 + 2);
  }

  /** The same for any number of frames at least that large. */
  lemma {:induction false} TwoLoopsRunOutIn(j: Job, n: nat)
    requires !j.hasStack && j.running && !j.paused
    requires n >= 2 && 2 * (n - 2) + 1 >= |j.work|
    ensures var r := RunLoops(j, 2, n);
            && r.1 == 0 && !r.0.running && r.0.work == [] && r.0.done == j.done + j.work
            && r.2 == [Completed(j.id, j.killed), Completed(j.id, j.killed)]
    decreases |j.work|, 1
  {
    if |j.work| >= 2 {
      TwoLoopsRunOutStep(j, n);
    } else if |j.work| == 1 {
      OneValueTwoLoops(j, n);
    } else {
      NoValueTwoLoops(j, n);
    }
  }

  /** Two or more values left: one frame yields two, and the rest of the
      run is the run over what is left. */
  lemma {:induction false} TwoLoopsRunOutStep(j: Job, n: nat)
    requires !j.hasStack && j.running && !j.paused && |j.work| >= 2
    requires n >= 2 && 2 * (n - 2) + 1 >= |j.work|
    ensures var r := RunLoops(j, 2, n);
            && r.1 == 0 && !r.0.running && r.0.work == [] && r.0.done == j.done + j.work
            && r.2 == [Completed(j.id, j.killed), Completed(j.id, j.killed)]
    decreases |j.work|, 0
  {
    var c := j.(phase := Suspended, work := j.work[2..], done := j.done + j.work[..2]);
    TwoLoopsRunOutIn(c, n - 1);
    TwoLoopsFirstFrame(j, n);
    assert c.done + c.work == j.done + j.work by {
      assert j.work == j.work[..2] + j.work[2..];
    }
  }

  /** A run of two loops over two or more values starts with the frame
      that yields two of them. */
  lemma TwoLoopsFirstFrame(j: Job, n: nat)
    requires !j.hasStack && j.running && !j.paused && |j.work| >= 2 && n > 0
    ensures var c := j.(phase := Suspended, work := j.work[2..], done := j.done + j.work[..2]);
            RunLoops(j, 2, n) == RunLoops(c, 2, n - 1)
  {
    TwoLoopsStep(j);
    var c := j.(phase := Suspended, work := j.work[2..], done := j.done + j.work[..2]);
    var g := RunLoops(c, 2, n - 1);
    assert RunLoops(j, 2, n) == (g.0, g.1, [] + g.2);
    assert [] + g.2 == g.2;
  }

  /** Two loops over no value: in the first frame the first loop drops the
      flag and leaves, and the second finds it down and leaves too. */
  lemma NoValueTwoLoops(j: Job, n: nat)
    requires !j.hasStack && j.running && !j.paused && j.work == [] && n > 0
    ensures var r := RunLoops(j, 2, n);
            && r.1 == 0 && !r.0.running && r.0.work == [] && r.0.done == j.done
            && r.2 == [Completed(j.id, j.killed), Completed(j.id, j.killed)]
  {
    var f := LoopsFrame(j, 2);
    var e := Completed(j.id, j.killed);
    assert f.1 == 0 && |f.2| == 2 && f.2 == [e, e];
    RunLoopsNone(f.0, n - 1);
    assert RunLoops(j, 2, n) == (f.0, 0, f.2 + []);
  }

  /** Two loops over one value: the first loop yields it; the second finds
      the work gone, drops the flag and leaves; in the next frame the first
      finds the flag down and leaves. */
  lemma OneValueTwoLoops(j: Job, n: nat)
    requires !j.hasStack && j.running && !j.paused && |j.work| == 1 && n > 1
    ensures var r := RunLoops(j, 2, n);
            && r.1 == 0 && !r.0.running && r.0.work == [] && r.0.done == j.done + j.work
            && r.2 == [Completed(j.id, j.killed), Completed(j.id, j.killed)]
  {
    var j0 := j.(phase := Suspended);
    var c := j0.(work := j.work[1..], done := j.done + [j.work[0]]);
    assert LoopHead(j0) == (c, []);
    assert c.work == [] && c.done == j.done + j.work;
    var f := LoopsFrame(j, 2);
    var e := Completed(j.id, j.killed);
    assert f.1 == 1 && !f.0.running && f.2 == [e];
    var f2 := LoopsFrame(f.0, 1);
    assert f2.1 == 0 && f2.2 == [e];
    RunLoopsNone(f2.0, n - 2);
    assert RunLoops(f.0, 1, n - 1) == (f2.0, 0, f2.2 + []);
    assert RunLoops(j, 2, n) == (f2.0, 0, f.2 + (f2.2 + []));
  }

  /** The frames after the last loop has left change nothing. */
  lemma {:induction false} RunLoopsNone(j: Job, n: nat)
    requires !j.hasStack
    ensures RunLoops(j, 0, n) == (j, 0, [])
    decreases n
  {
    if n > 0 {
      assert LoopsFrame(j, 0) == (j, 0, []);
      RunLoopsNone(j, n - 1);
    }
  }

  /** `Create` followed by a second `Start`, both before the first frame,
      on a job that gets no children: `OnJobComplete(false)` is raised
      twice, once per `DoWork`, and every value is yielded once. */
  lemma StartedTwiceCompletesTwice(id: JobId, work: seq<Token>, reg: Registry)
    ensures var j := Create(id, work, reg).0;
            var s := StartAgain(j, 1);
            var r := RunLoops(s.0, s.1, |work| / 2 + 2);
            && s.0.runs == 2 && r.1 == 0 && r.0.done == work
            && r.2 == [Completed(id, false), Completed(id, false)]
  {
    var j := Create(id, work, reg).0;
    assert !j.hasStack by {
      assert j == New(id, work, true, reg).0;
    }
    TwoLoopsRunOut(StartAgain(j, 1).0);
  }

  // ---------------------------------------------------------------------
  // The registry

  /** `JOBS.Remove(this)` for every completion raised, in order. */
  function Retire(reg: Registry, ev: seq<Event>): (r: Registry)
    ensures |r| <= |reg|
    ensures forall x :: x in r ==> x in reg
  {
    if |ev| == 0 then reg
    else Retire(Lists.Remove(reg, ev[0].id).1, ev[1..])
  }

  /** A job registered once is gone from the registry once its completion
      has been raised. */
  lemma {:induction false} RetireRemoves(reg: Registry, ev: seq<Event>, k: nat)
    requires k < |ev| && ev[k].id in reg
    requires multiset(reg)[ev[k].id] == 1
    ensures ev[k].id !in Retire(reg, ev)
    decreases |ev|
  {
    var id := ev[k].id;
    var x := ev[0].id;
    if x == id {
      RetireFirst(reg, ev);
    } else {
      RetireOther(reg, ev, k);
      RetireRemoves(Lists.Remove(reg, x).1, ev[1..], k - 1);
    }
  }

  /** A completion of another job leaves this one's single copy in place. */
  lemma RetireOther(reg: Registry, ev: seq<Event>, k: nat)
    requires 0 < k < |ev| && ev[k].id in reg && ev[0].id != ev[k].id
    requires multiset(reg)[ev[k].id] == 1
    ensures var reg1 := Lists.Remove(reg, ev[0].id).1;
            && Retire(reg, ev) == Retire(reg1, ev[1..])
            && ev[1..][k - 1].id == ev[k].id
            && ev[k].id in reg1 && multiset(reg1)[ev[k].id] == 1
  {
    RetireHead(reg, ev);
    RemoveKeepsOthers(reg, ev[0].id, ev[k].id);
  }

  /** The first completion removes the only copy of its job, and nothing
      later brings it back. */
  lemma RetireFirst(reg: Registry, ev: seq<Event>)
    requires |ev| > 0 && multiset(reg)[ev[0].id] == 1
    ensures ev[0].id !in Retire(reg, ev)
  {
    var id := ev[0].id;
    RetireHead(reg, ev);
    RemoveOnlyCopy(reg, id);
    RetireKeepsOut(Lists.Remove(reg, id).1, ev[1..], id);
  }

  lemma RetireHead(reg: Registry, ev: seq<Event>)
    requires |ev| > 0
    ensures Retire(reg, ev) == Retire(Lists.Remove(reg, ev[0].id).1, ev[1..])
  {
  }

  lemma RetireKeepsOut(reg: Registry, ev: seq<Event>, id: JobId)
    requires id !in reg
    ensures id !in Retire(reg, ev)
  {
  }

  lemma RemoveOnlyCopy(reg: Registry, id: JobId)
    requires multiset(reg)[id] == 1
    ensures id !in Lists.Remove(reg, id).1
  {
    var k := Lists.IndexOfValue(reg, id);
    assert reg == reg[..k] + [id] + reg[k + 1..];
    assert multiset(reg) == multiset(reg[..k]) + multiset{id} + multiset(reg[k + 1..]);
  }

  lemma RemoveKeepsOthers(reg: Registry, x: JobId, id: JobId)
    ensures x != id ==> multiset(Lists.Remove(reg, x).1)[id] == multiset(reg)[id]
    ensures x != id && id in reg ==> id in Lists.Remove(reg, x).1
  {
    if x in reg && x != id {
      var k := Lists.IndexOfValue(reg, x);
      assert reg == reg[..k] + [x] + reg[k + 1..];
      assert multiset(reg) == multiset(reg[..k]) + multiset{x} + multiset(reg[k + 1..]);
    }
  }
}

=== FILE: json.dfy ===
/** The values a deserialised JSON document holds: the boxed objects that
    the SimpleJson parser stores in a record (`IDictionary<string, object>`)
    or an array (`JsonArray`, a `List<object>`). */
module Json {
  import opened Wrappers
  import Strings

  datatype Value =
    | Null
    | Bool(b: bool)
    | Long(n: int)          // integral numbers are parsed as `long`
    | Real(text: string)    // other numbers, by their `ToString()` text
    | Str(s: string)
    | Record(fields: map<string, Value>)
    | List(items: seq<Value>)

  /** A JSON object: `IDictionary<string, object>`. */
  type Record = map<string, Value>

  /** A possibly-null record stored as an element of a list. */
  function RecordValue(r: Option<Record>): (v: Value)
    ensures v == Null <==> r.None?
    ensures r.Some? ==> v == Record(r.value)
  {
    match r
    case None => Null
    case Some(d) => Record(d)
  }

  /** The C# types a value can be matched against with `is`. */
  datatype Kind = BoolKind | LongKind | RealKind | StringKind | RecordKind | ListKind

  /** `v is T` for the type the kind names; `null` has no type. */
  predicate HasKind(v: Value, k: Kind) {
    match k
    case BoolKind => v.Bool?
    case LongKind => v.Long?
    case RealKind => v.Real?
    case StringKind => v.Str?
    case RecordKind => v.Record?
    case ListKind => v.List?
  }

  /** `v.ToString()` for a scalar: `Boolean.ToString` gives `True`/`False`,
      a `long` its decimal text. `None` for null (the call would throw) and
      for records and lists, whose text is their JSON serialisation. */
  function ScalarText(v: Value): (t: Option<string>)
    ensures t.None? <==> v.Null? || v.Record? || v.List?
  {
    match v
    case Bool(b) => Some(if b then "True" else "False")
    case Long(n) => Some(Strings.IntText(n))
    case Real(text) => Some(text)
    case Str(s) => Some(s)
    case _ => None
  }
}

=== FILE: linq.dfy ===
/** The hand-written list combinators of `June.Util` (Assets/June/_Core/Util.Linq.cs).

    A C# `null` collection is `None` wherever the code tests for it; the
    members that would dereference a null collection take a plain sequence. */
module Linq {
  import opened Wrappers
  import Lists

  /** `Select`: one projected value per element, in order. */
  function Select<T, V>(s: seq<T>, f: T -> V): (r: seq<V>)
    ensures |r| == |s|
    ensures forall i :: 0 <= i < |s| ==> r[i] == f(s[i])
    decreases |s|
  {
    if |s| == 0 then [] else [f(s[0])] + Select(s[1..], f)
  }

  /** Selecting from a non-empty sequence: the selection of all but the
      last element, then the last element's projection. */
  lemma {:induction false} SelectSnoc<T, V>(s: seq<T>, f: T -> V)
    requires |s| > 0
    ensures Select(s, f) == Select(s[..|s| - 1], f) + [f(s[|s| - 1])]
    decreases |s|
  {
    if |s| > 1 {
      var t := s[1..];
      SelectSnoc(t, f);
      assert t[..|t| - 1] == s[..|s| - 1][1..];
    } else {
      assert s[..0] == [];
    }
  }

  /** The elements satisfying `p`, in their original order. */
  function Filter<T(!new)>(s: seq<T>, p: T -> bool): (r: seq<T>)
    ensures |r| <= |s|
    ensures forall i :: 0 <= i < |r| ==> p(r[i])
    ensures forall x :: x in r <==> x in s && p(x)
    decreases |s|
  {
    if |s| == 0 then []
    else if p(s[0]) then [s[0]] + Filter(s[1..], p)
    else Filter(s[1..], p)
  }

  /** Filtering distributes over concatenation, so it keeps the relative order
      of the elements it retains. */
  lemma {:induction false} FilterAppend<T(!new)>(a: seq<T>, b: seq<T>, p: T -> bool)
    ensures Filter(a + b, p) == Filter(a, p) + Filter(b, p)
    decreases |a|
  {
    if |a| > 0 {
      assert (a + b)[1..] == a[1..] + b;
      FilterAppend(a[1..], b, p);
    } else {
      assert a + b == b;
    }
  }

  /** `FilterList`: a null list gives an empty result. */
  function FilterList<T(!new)>(list: Option<seq<T>>, p: T -> bool): (r: seq<T>)
    ensures list.None? ==> r == []
    ensures list.Some? ==> r == Filter(list.value, p)
  {
    match list
    case None => []
    case Some(s) => Filter(s, p)
  }

  /** `SelectMany`: the selected sequences concatenated in order. */
  function SelectMany<T, U(!new)>(s: seq<T>, f: T -> seq<U>): (r: seq<U>)
    ensures forall y :: y in r <==> exists i :: 0 <= i < |s| && y in f(s[i])
    decreases |s|
  {
    if |s| == 0 then []
    else
      var rest := SelectMany(s[1..], f);
      assert forall y :: y in rest <==> exists i :: 1 <= i < |s| && y in f(s[i]) by {
        forall y
          ensures y in rest <==> exists i :: 1 <= i < |s| && y in f(s[i])
        {
          if y in rest {
            var i :| 0 <= i < |s[1..]| && y in f(s[1..][i]);
            assert y in f(s[i + 1]);
          }
          if exists i :: 1 <= i < |s| && y in f(s[i]) {
            var i :| 1 <= i < |s| && y in f(s[i]);
            assert y in f(s[1..][i - 1]);
          }
        }
      }
      f(s[0]) + rest
  }

  /** SelectMany distributes over concatenation of its source. */
  lemma {:induction false} SelectManyAppend<T, U(!new)>(a: seq<T>, b: seq<T>, f: T -> seq<U>)
    ensures SelectMany(a + b, f) == SelectMany(a, f) + SelectMany(b, f)
    decreases |a|
  {
    if |a| > 0 {
      assert (a + b)[1..] == a[1..] + b;
      SelectManyAppend(a[1..], b, f);
    } else {
      assert a + b == b;
    }
  }

  /** The position of the first element satisfying `p`, or -1. */
  function FirstIndex<T>(s: seq<T>, p: T -> bool): (k: int)
    ensures -1 <= k < |s|
    ensures k >= 0 ==> p(s[k])
    ensures forall i :: 0 <= i < |s| && (k == -1 || i < k) ==> !p(s[i])
    decreases |s|
  {
    if |s| == 0 then -1
    else if p(s[0]) then 0
    else
      var k := FirstIndex(s[1..], p);
      if k == -1 then -1 else k + 1
  }

  /** `IndexOf`: -1 for a null list. */
  function IndexOf<T>(items: Option<seq<T>>, p: T -> bool): (k: int)
    ensures k == -1 <==> items.None? || forall i :: 0 <= i < |items.value| ==> !p(items.value[i])
    ensures k >= 0 ==> items.Some? && k < |items.value| && p(items.value[k])
                       && forall i :: 0 <= i < k ==> !p(items.value[i])
  {
    match items
    case None => -1
    case Some(s) => FirstIndex(s, p)
  }

  /** `FirstOrDefault`: the first element satisfying `p`, or the type's
      default value `dflt`. */
  function FirstOrDefault<T>(s: seq<T>, p: T -> bool, dflt: T): (r: T)
    ensures r == (if IndexOf(Some(s), p) >= 0 then s[IndexOf(Some(s), p)] else dflt)
    decreases |s|
  {
    if |s| == 0 then dflt
    else if p(s[0]) then s[0]
    else FirstOrDefault(s[1..], p, dflt)
  }

  /** Some element satisfies `p`. */
  function AnyIn<T>(s: seq<T>, p: T -> bool): (r: bool)
    ensures r <==> exists i :: 0 <= i < |s| && p(s[i])
    decreases |s|
  {
    if |s| == 0 then false
    else if p(s[0]) then true
    else
      var r := AnyIn(s[1..], p);
      assert r <==> exists i :: 1 <= i < |s| && p(s[i]) by {
        if r {
          var i :| 0 <= i < |s[1..]| && p(s[1..][i]);
          assert p(s[i + 1]);
        }
      }
      r
  }

  /** Every element satisfies `p`. */
  function AllIn<T>(s: seq<T>, p: T -> bool): (r: bool)
    ensures r <==> forall i :: 0 <= i < |s| ==> p(s[i])
    decreases |s|
  {
    if |s| == 0 then true
    else if !p(s[0]) then false
    else
      var r := AllIn(s[1..], p);
      assert r ==> forall i :: 1 <= i < |s| ==> p(s[i]) by {
        if r {
          forall i | 1 <= i < |s| ensures p(s[i]) {
            assert s[1..][i - 1] == s[i];
          }
        }
      }
      r
  }

  /** `Any`: false for a null list. */
  function Any<T>(items: Option<seq<T>>, p: T -> bool): (r: bool)
    ensures r <==> items.Some? && exists i :: 0 <= i < |items.value| && p(items.value[i])
  {
    items.Some? && AnyIn(items.value, p)
  }

  /** `All`: true for a null list. */
  function All<T>(items: Option<seq<T>>, p: T -> bool): (r: bool)
    ensures r <==> items.None? || forall i :: 0 <= i < |items.value| ==> p(items.value[i])
  {
    items.None? || AllIn(items.value, p)
  }

  /** All is the dual of Any: everything passes exactly when nothing fails. */
  lemma AllIsNotAnyFailing<T>(items: Option<seq<T>>, p: T -> bool)
    ensures All(items, p) <==> !Any(items, x => !p(x))
  {
  }

  /** The positions of `s` whose element satisfies `p`. */
  ghost function Hits<T>(s: seq<T>, p: T -> bool): set<int> {
    set i | 0 <= i < |s| && p(s[i])
  }

  /** `Count`: the number of elements satisfying `p`, that is, of positions
      holding one. */
  function Count<T(!new)>(items: Option<seq<T>>, p: T -> bool): (n: nat)
    ensures items.None? ==> n == 0
    ensures items.Some? ==> n <= |items.value|
    ensures items.Some? ==> n == |Hits(items.value, p)|
  {
    if items.Some? then FilterCountsHits(items.value, p); |FilterList(items, p)|
    else 0
  }

  /** Filtering keeps one element per hit. */
  lemma {:induction false} FilterCountsHits<T(!new)>(s: seq<T>, p: T -> bool)
    ensures |Filter(s, p)| == |Hits(s, p)|
    decreases |s|
  {
    if |s| > 0 {
      var init := s[..|s| - 1];
      var last := s[|s| - 1];
      FilterSnoc(s, p);
      FilterCountsHits(init, p);
      HitsSnoc(s, p);
      assert |s| - 1 !in Hits(init, p);
    } else {
      assert Hits(s, p) == {};
    }
  }

  /** Filtering a non-empty sequence: the filter of all but the last
      element, then the last element when it satisfies `p`. */
  lemma FilterSnoc<T(!new)>(s: seq<T>, p: T -> bool)
    requires |s| > 0
    ensures Filter(s, p) == Filter(s[..|s| - 1], p) + (if p(s[|s| - 1]) then [s[|s| - 1]] else [])
  {
    var init, last := s[..|s| - 1], s[|s| - 1];
    assert s == init + [last];
    FilterAppend(init, [last], p);
    FilterOne(last, p);
  }

  lemma FilterOne<T(!new)>(x: T, p: T -> bool)
    ensures Filter([x], p) == (if p(x) then [x] else [])
  {
    assert [x][1..] == [];
  }

  /** The hits of a non-empty sequence: those of all but the last element,
      and the last position when its element satisfies `p`. */
  lemma HitsSnoc<T>(s: seq<T>, p: T -> bool)
    requires |s| > 0
    ensures Hits(s, p) == Hits(s[..|s| - 1], p) + (if p(s[|s| - 1]) then {|s| - 1} else {})
  {
    var init := s[..|s| - 1];
    forall i ensures i in Hits(s, p) <==> i in Hits(init, p) + (if p(s[|s| - 1]) then {|s| - 1} else {}) {
      if 0 <= i < |s| - 1 { assert s[i] == init[i]; }
    }
  }

  /** Position by position, where `p` holds of `s`, `q` holds of `t`: then
      `t` has at least as many elements satisfying `q`. */
  lemma {:induction false} CountMonotone<T(!new), U(!new)>(s: seq<T>, t: seq<U>, p: T -> bool, q: U -> bool)
    requires |s| == |t|
    requires forall i :: 0 <= i < |s| && p(s[i]) ==> q(t[i])
    ensures Count(Some(s), p) <= Count(Some(t), q)
    decreases |s|
  {
    if |s| > 0 {
      assert forall i :: 0 <= i < |s[1..]| && p(s[1..][i]) ==> q(t[1..][i]) by {
        forall i | 0 <= i < |s[1..]| && p(s[1..][i]) ensures q(t[1..][i]) {
          assert s[1..][i] == s[i + 1] && t[1..][i] == t[i + 1];
        }
      }
      CountMonotone(s[1..], t[1..], p, q);
      assert p(s[0]) ==> q(t[0]);
    }
  }

  /** Count reaches the length exactly when every element satisfies `p`. */
  lemma {:induction false} CountFullIffAll<T(!new)>(s: seq<T>, p: T -> bool)
    ensures Count(Some(s), p) == |s| <==> All(Some(s), p)
    decreases |s|
  {
    if |s| > 0 {
      CountFullIffAll(s[1..], p);
      if All(Some(s), p) {
        assert All(Some(s[1..]), p) by {
          forall i | 0 <= i < |s[1..]| ensures p(s[1..][i]) {
            assert s[1..][i] == s[i + 1];
          }
        }
      }
      if All(Some(s[1..]), p) && p(s[0]) {
        forall i | 0 <= i < |s| ensures p(s[i]) {
          if i > 0 { assert s[i] == s[1..][i - 1]; }
        }
      }
    }
  }

  /** Count is zero exactly when no element satisfies `p`. */
  lemma {:induction false} CountZeroIffNotAny<T(!new)>(s: seq<T>, p: T -> bool)
    ensures Count(Some(s), p) == 0 <==> !Any(Some(s), p)
  {
    if Any(Some(s), p) {
      var i :| 0 <= i < |s| && p(s[i]);
      assert s[i] in Filter(s, p);
      assert FilterList(Some(s), p) == Filter(s, p);
    }
  }

  /** `Contains(string[], string)`: false for a null array. */
  function ContainsString(data: Option<seq<string>>, value: string): (r: bool)
    ensures r <==> data.Some? && value in data.value
  {
    data.Some? && Lists.IndexOfValue(data.value, value) >= 0
  }

  /** `Contains<T>(IEnumerable<T>, T)` with value equality. */
  function Contains<T(==)>(s: seq<T>, value: T): (r: bool)
    ensures r <==> value in s
    decreases |s|
  {
    if |s| == 0 then false
    else if s[0] == value then true
    else
      assert value in s[1..] ==> value in s;
      Contains(s[1..], value)
  }

  /** `AddElementToArray`: a null array throws when its length is read. */
  function AddElementToArray<T>(arr: Option<seq<T>>, x: T): (r: Result<seq<T>>)
    ensures r.Fail? <==> arr.None?
    ensures r.Fail? ==> r.error == NullReference
    ensures r.Ok? ==> |r.value| == |arr.value| + 1 && r.value[..|arr.value|] == arr.value
                      && r.value[|arr.value|] == x
  {
    match arr
    case None => Fail(NullReference)
    case Some(a) => Ok(a + [x])
  }

  /** No value occurs twice. */
  predicate Distinct<T(==)>(s: seq<T>) {
    forall i, j :: 0 <= i < j < |s| ==> s[i] != s[j]
  }

  /** `UniqueList`: every value of the input once, in order of first
      occurrence. */
  method UniqueList<T(==)>(list: seq<T>) returns (r: seq<T>)
    ensures Distinct(r)
    ensures forall x :: x in r <==> x in list
    ensures forall i, j :: 0 <= i < j < |r| ==>
              Lists.IndexOfValue(list, r[i]) < Lists.IndexOfValue(list, r[j])
  {
    r := [];
    var k := 0;
    while k < |list|
      invariant 0 <= k <= |list|
      invariant UniqueSoFar(list, k, r)
    {
      UniqueStep(list, k, r);
      if !Contains(r, list[k]) {
        r := r + [list[k]];
      }
      k := k + 1;
    }
    forall x | x in list ensures x in r {
      var i :| 0 <= i < |list| && list[i] == x;
    }
  }

  /** The loop's invariant after `k` elements: `r` holds each value of
      `list[..k]` once, in order of first occurrence. */
  ghost predicate UniqueSoFar<T>(list: seq<T>, k: nat, r: seq<T>)
    requires k <= |list|
  {
    && Distinct(r)
    && (forall i :: 0 <= i < |r| ==> 0 <= Lists.IndexOfValue(list, r[i]) < k)
    && (forall i :: 0 <= i < k ==> list[i] in r)
    && (forall i, j :: 0 <= i < j < |r| ==>
          Lists.IndexOfValue(list, r[i]) < Lists.IndexOfValue(list, r[j]))
  }

  /** One iteration keeps the invariant. */
  lemma UniqueStep<T>(list: seq<T>, k: nat, r: seq<T>)
    requires k < |list| && UniqueSoFar(list, k, r)
    ensures UniqueSoFar(list, k + 1, if list[k] in r then r else r + [list[k]])
  {
    if list[k] !in r {
      UniqueAppend(list, k, r);
    }
  }

  /** A value not kept so far is at its first occurrence, after every kept
      one. */
  lemma UniqueAppend<T>(list: seq<T>, k: nat, r: seq<T>)
    requires k < |list| && UniqueSoFar(list, k, r) && list[k] !in r
    ensures UniqueSoFar(list, k + 1, r + [list[k]])
  {
    var item := list[k];
    var r' := r + [item];
    forall i | 0 <= i < k ensures list[..k][i] != item {
      assert list[i] in r;
    }
    assert item !in list[..k];
    assert Lists.IndexOfValue(list, item) == k by {
      assert list[..k + 1][k] == item;
      Lists.IndexOfInPrefix(list, item, k + 1);
    }
    assert r'[|r|] == item;
    assert forall i :: 0 <= i < |r| ==> r'[i] == r[i];
    assert Distinct(r');
    forall i | 0 <= i < k + 1 ensures list[i] in r' {
      if i < k {
        assert list[i] in r;
      }
    }
  }

  /** `MaxBy` with the default integer comparer: the earliest element whose
      key is maximal. */
  method MaxBy<T>(source: Option<seq<T>>, key: T -> int) returns (r: Result<T>)
    ensures source.None? ==> r == Fail(ArgumentNull)
    ensures source.Some? && |source.value| == 0 ==> r == Fail(InvalidOperation)
    ensures source.Some? && |source.value| > 0 ==>
              r.Ok? && (exists m :: 0 <= m < |source.value| && source.value[m] == r.value
                          && (forall i :: 0 <= i < |source.value| ==> key(source.value[i]) <= key(r.value))
                          && (forall i :: 0 <= i < m ==> key(source.value[i]) < key(r.value)))
  {
    if source.None? {
      return Fail(ArgumentNull);
    }
    var s := source.value;
    if |s| == 0 {
      return Fail(InvalidOperation);
    }
    var m := 0;
    var maxKey := key(s[0]);
    var k := 1;
    while k < |s|
      invariant 1 <= k <= |s|
      invariant 0 <= m < k && maxKey == key(s[m])
      invariant forall i :: 0 <= i < k ==> key(s[i]) <= maxKey
      invariant forall i :: 0 <= i < m ==> key(s[i]) < maxKey
    {
      var candidateKey := key(s[k]);
      if candidateKey > maxKey {
        m := k;
        maxKey := candidateKey;
      }
      k := k + 1;
    }
    r := Ok(s[m]);
  }
}

=== FILE: lists.dfy ===
/** The `System.Collections.Generic.List<T>` members the collection classes
    forward to, over immutable sequences. Out-of-range indices fail the way
    the .NET list does. */
module Lists {
  import opened Wrappers

  /** `list.IndexOf(x)`: the first position holding `x`, or -1. */
  function IndexOfValue<T(==)>(s: seq<T>, x: T): (k: int)
    ensures -1 <= k < |s|
    ensures k == -1 <==> x !in s
    ensures k >= 0 ==> s[k] == x && x !in s[..k]
    decreases |s|
  {
    if |s| == 0 then -1
    else if s[0] == x then 0
    else
      var k := IndexOfValue(s[1..], x);
      assert s[1..][..k + 1] == s[1..k + 2] by {
        if k >= 0 { assert k + 2 <= |s|; }
      }
      if k == -1 then -1 else k + 1
  }

  /** A value that already occurs in a prefix has its first occurrence there. */
  lemma IndexOfInPrefix<T>(s: seq<T>, x: T, n: nat)
    requires n <= |s| && x in s[..n]
    ensures 0 <= IndexOfValue(s, x) < n
  {
  }

  /** `list.Insert(i, x)`. */
  function Insert<T>(s: seq<T>, i: int, x: T): (r: Result<seq<T>>)
    ensures r.Ok? <==> 0 <= i <= |s|
    ensures r.Fail? ==> r.error == ArgumentOutOfRange
    ensures r.Ok? ==> |r.value| == |s| + 1 && r.value[i] == x
                      && r.value[..i] == s[..i] && r.value[i + 1..] == s[i..]
  {
    if 0 <= i <= |s| then Ok(s[..i] + [x] + s[i..]) else Fail(ArgumentOutOfRange)
  }

  /** `list.RemoveAt(i)`. */
  function RemoveAt<T>(s: seq<T>, i: int): (r: Result<seq<T>>)
    ensures r.Ok? <==> 0 <= i < |s|
    ensures r.Fail? ==> r.error == ArgumentOutOfRange
    ensures r.Ok? ==> |r.value| == |s| - 1 && r.value[..i] == s[..i] && r.value[i..] == s[i + 1..]
  {
    if 0 <= i < |s| then Ok(s[..i] + s[i + 1..]) else Fail(ArgumentOutOfRange)
  }

  /** `list.Remove(x)`: drops the first occurrence and reports whether there
      was one. */
  function Remove<T(==)>(s: seq<T>, x: T): (r: (bool, seq<T>))
    ensures r.0 <==> x in s
    ensures !r.0 ==> r.1 == s
    ensures r.0 ==> var k := IndexOfValue(s, x);
                    |r.1| == |s| - 1 && r.1[..k] == s[..k] && r.1[k..] == s[k + 1..]
  {
    var k := IndexOfValue(s, x);
    if k == -1 then (false, s) else (true, s[..k] + s[k + 1..])
  }

  /** Removing at the position just inserted at undoes the insertion. */
  lemma InsertThenRemoveAt<T>(s: seq<T>, i: int, x: T)
    requires 0 <= i <= |s|
    ensures RemoveAt(Insert(s, i, x).value, i) == Ok(s)
  {
    var t := Insert(s, i, x).value;
    assert t[..i] + t[i + 1..] == s[..i] + s[i..];
    assert s[..i] + s[i..] == s;
  }

  /** Removing a value that was just appended to a list lacking it undoes the
      append. */
  lemma AppendThenRemove<T>(s: seq<T>, x: T)
    requires x !in s
    ensures Remove(s + [x], x) == (true, s)
  {
    assert (s + [x])[..|s|] + (s + [x])[|s| + 1..] == s;
  }

  /** Removing at the last index of an appended list undoes the append. */
  lemma AppendThenRemoveAt<T>(s: seq<T>, x: T)
    ensures RemoveAt(s + [x], |s|) == Ok(s)
  {
    assert (s + [x])[..|s|] + (s + [x])[|s| + 1..] == s;
  }

  /** A value appended to a list lacking it is found at the end. */
  lemma IndexOfAppended<T>(s: seq<T>, x: T)
    requires x !in s
    ensures IndexOfValue(s + [x], x) == |s|
  {
    assert (s + [x])[|s|] == x;
    assert forall i :: 0 <= i < |s| ==> (s + [x])[i] == s[i];
  }

  /** Concatenation is associative; naming the three parts spares the
      solver from finding the grouping itself. */
  lemma ConcatAssoc<T>(a: seq<T>, b: seq<T>, c: seq<T>)
    ensures a + (b + c) == (a + b) + c
  {
  }
}

=== FILE: plain_list.dfy ===
/** The plain `June.Core.BaseList<T>` of _Core/BaseCollection.cs: an
    `IList<T>` that forwards every member to a `List<object>`. An entry of
    that list is a `T` or some other object (a list handed to the
    constructor may hold anything); reading an entry casts it back to `T`,
    which throws on the others. */
module PlainList {
  import opened Wrappers
  import Lists

  /** An entry of the underlying `List<object>`: a `T`, or an object that
      is not one, told apart by an identity. */
  datatype Entry<T> = Item(value: T) | Foreign(id: int)

  datatype BaseList<T> = BaseList(records: seq<Entry<T>>)

  /** `BaseList(List<object>)`: a view of the given list, entries as they
      are. */
  function FromRecords<T>(records: seq<Entry<T>>): (l: BaseList<T>)
    ensures Count(l) == |records|
    ensures forall i :: 0 <= i < |records| && records[i].Item? ==> Get(l, i) == Ok(records[i].value)
    ensures forall i :: 0 <= i < |records| && records[i].Foreign? ==> Get(l, i) == Fail(InvalidCast)
  {
    BaseList(records)
  }

  /** `BaseList()`: an empty list. */
  function Empty<T>(): (l: BaseList<T>)
    ensures Count(l) == 0
  {
    BaseList([])
  }

  /** `IndexOf`: the first entry equal to the value; an entry that is not a
      `T` never is. */
  function IndexOf<T(==)>(l: BaseList<T>, x: T): (k: int)
    ensures -1 <= k < Count(l)
    ensures k == -1 <==> !Contains(l, x)
    ensures k >= 0 ==> Get(l, k) == Ok(x) && Item(x) !in l.records[..k]
  {
    Lists.IndexOfValue(l.records, Item(x))
  }

  function Insert<T>(l: BaseList<T>, i: int, x: T): (r: Result<BaseList<T>>)
    ensures r.Ok? <==> 0 <= i <= Count(l)
    ensures r.Fail? ==> r.error == ArgumentOutOfRange
    ensures r.Ok? ==> Count(r.value) == Count(l) + 1 && Get(r.value, i) == Ok(x)
  {
    var records :- Lists.Insert(l.records, i, Item(x));
    Ok(BaseList(records))
  }

  function RemoveAt<T>(l: BaseList<T>, i: int): (r: Result<BaseList<T>>)
    ensures r.Ok? <==> 0 <= i < Count(l)
    ensures r.Fail? ==> r.error == ArgumentOutOfRange
    ensures r.Ok? ==> Count(r.value) == Count(l) - 1
                      && r.value.records == l.records[..i] + l.records[i + 1..]
  {
    var records :- Lists.RemoveAt(l.records, i);
    assert records == records[..i] + records[i..];
    Ok(BaseList(records))
  }

  /** The getter of the indexer, `(T)_Records[index]`: an index out of
      range throws, and so does the cast of an entry that is not a `T`. */
  function Get<T>(l: BaseList<T>, i: int): (r: Result<T>)
    ensures r.Ok? <==> 0 <= i < Count(l) && l.records[i].Item?
    ensures !(0 <= i < Count(l)) ==> r == Fail(ArgumentOutOfRange)
    ensures 0 <= i < Count(l) && l.records[i].Foreign? ==> r == Fail(InvalidCast)
    ensures r.Ok? ==> l.records[i] == Item(r.value)
  {
    if 0 <= i < |l.records| then
      match l.records[i]
      case Item(x) => Ok(x)
      case Foreign(_) => Fail(InvalidCast)
    else Fail(ArgumentOutOfRange)
  }

  /** The setter of the indexer. */
  function SetAt<T>(l: BaseList<T>, i: int, x: T): (r: Result<BaseList<T>>)
    ensures r.Ok? <==> 0 <= i < Count(l)
    ensures r.Fail? ==> r.error == ArgumentOutOfRange
    ensures r.Ok? ==> Count(r.value) == Count(l) && Get(r.value, i) == Ok(x)
                      && forall j :: 0 <= j < Count(l) && j != i ==> Get(r.value, j) == Get(l, j)
  {
    if 0 <= i < |l.records| then Ok(BaseList(l.records[i := Item(x)])) else Fail(ArgumentOutOfRange)
  }

  function Add<T>(l: BaseList<T>, x: T): (r: BaseList<T>)
    ensures Count(r) == Count(l) + 1 && Get(r, Count(l)) == Ok(x)
    ensures forall j :: 0 <= j < Count(l) ==> Get(r, j) == Get(l, j)
  {
    BaseList(l.records + [Item(x)])
  }

  function Clear<T>(l: BaseList<T>): (r: BaseList<T>)
    ensures Count(r) == 0
  {
    BaseList([])
  }

  function Contains<T(==)>(l: BaseList<T>, x: T): (b: bool)
    ensures b <==> exists i :: 0 <= i < Count(l) && Get(l, i) == Ok(x)
  {
    assert forall i :: 0 <= i < Count(l) ==> (Get(l, i) == Ok(x) <==> l.records[i] == Item(x));
    Item(x) in l.records
  }

  /** `CopyTo` is not implemented: it always throws. */
  function CopyTo<T>(l: BaseList<T>, arr: seq<T>, arrayIndex: int): (r: Result<seq<T>>)
    ensures r == Fail(NotImplemented)
  {
    Fail(NotImplemented)
  }

  /** `Remove`: the first occurrence goes; the result says whether there was
      one. */
  function Remove<T(==)>(l: BaseList<T>, x: T): (r: (bool, BaseList<T>))
    ensures r.0 <==> Contains(l, x)
    ensures !r.0 ==> r.1 == l
    ensures r.0 ==> Count(r.1) == Count(l) - 1
    ensures r.0 ==> var k := IndexOf(l, x); r.1.records == l.records[..k] + l.records[k + 1..]
  {
    var (found, records) := Lists.Remove(l.records, Item(x));
    (found, BaseList(records))
  }

  function Count<T>(l: BaseList<T>): nat {
    |l.records|
  }

  function IsReadOnly<T>(l: BaseList<T>): (b: bool)
    ensures !b
  {
    false
  }

  /** The enumerator, `yield return (T)item` over the entries: the values
      up to the first entry that is not a `T`, and the cast exception at
      that entry, if there is one. */
  function Enumerate<T>(l: BaseList<T>): (r: (seq<T>, Option<Exception>))
    ensures |r.0| <= Count(l)
    ensures forall i :: 0 <= i < |r.0| ==> l.records[i] == Item(r.0[i])
    ensures r.1.None? <==> |r.0| == Count(l)
    ensures r.1.Some? ==> r.1.value == InvalidCast && l.records[|r.0|].Foreign?
    decreases |l.records|
  {
    if |l.records| == 0 then ([], None)
    else match l.records[0]
      case Foreign(_) => ([], Some(InvalidCast))
      case Item(x) =>
        var rest := Enumerate(BaseList(l.records[1..]));
        ([x] + rest.0, rest.1)
  }

  /** A list whose every entry is a `T`, as every list built by this
      class's own members is. */
  predicate Typed<T>(l: BaseList<T>) {
    forall i :: 0 <= i < |l.records| ==> l.records[i].Item?
  }

  /** The members that store values keep a list typed, so reading it never
      throws a cast exception. */
  lemma StoringKeepsTyped<T>(l: BaseList<T>, i: int, x: T)
    requires Typed(l)
    ensures Typed(Add(l, x))
    ensures Insert(l, i, x).Ok? ==> Typed(Insert(l, i, x).value)
    ensures SetAt(l, i, x).Ok? ==> Typed(SetAt(l, i, x).value)
    ensures RemoveAt(l, i).Ok? ==> Typed(RemoveAt(l, i).value)
    ensures forall j :: 0 <= j < Count(l) ==> Get(l, j).Ok?
  {
    if Insert(l, i, x).Ok? {
      var r := Insert(l, i, x).value;
      forall j | 0 <= j < |r.records| ensures r.records[j].Item? {
        if j < i { assert r.records[j] == l.records[j]; }
        else if j > i { assert r.records[j] == l.records[j - 1]; }
      }
    }
    if RemoveAt(l, i).Ok? {
      var r := RemoveAt(l, i).value;
      forall j | 0 <= j < |r.records| ensures r.records[j].Item? {
        if j < i { assert r.records[j] == l.records[j]; }
        else { assert r.records[j] == l.records[j + 1]; }
      }
    }
  }

  /** Enumerating a typed list yields all of its values without a throw. */
  lemma TypedEnumerates<T>(l: BaseList<T>)
    requires Typed(l)
    ensures Enumerate(l).1.None? && |Enumerate(l).0| == Count(l)
    ensures forall i :: 0 <= i < Count(l) ==> Get(l, i) == Ok(Enumerate(l).0[i])
  {
  }

  /** `RemoveAt` undoes `Insert` at the same index. */
  lemma RemoveAtUndoesInsert<T>(l: BaseList<T>, i: int, x: T)
    requires 0 <= i <= Count(l)
    ensures RemoveAt(Insert(l, i, x).value, i) == Ok(l)
  {
    Lists.InsertThenRemoveAt(l.records, i, Item(x));
  }

  /** `Remove` undoes `Add` of a value not already in the list. */
  lemma RemoveUndoesAdd<T>(l: BaseList<T>, x: T)
    requires !Contains(l, x)
    ensures Remove(Add(l, x), x) == (true, l)
  {
    Lists.AppendThenRemove(l.records, Item(x));
  }
}

=== FILE: record_list.dfy ===
/** `June.Core.IBaseList<TRecordArray, TRecord, TModel>` (Assets/June/_Core/IBaseModel.cs)
    together with the raw-list hooks of `June.Core.BaseList<T>`
    (Assets/June/_Core/BaseModel.cs): a list of model objects kept beside the raw array of
    records they were built from.

    Every list operation applies to the model list; when a model-to-record
    converter exists, `Insert`, `RemoveAt`, `Add` and `Remove` apply the same
    operation to the raw array through the hooks `_Insert`, `_RemoveAt`,
    `_Add` and `_Remove`, each of which is the `List<object>` member of the
    same name. `Clear` empties both lists unconditionally. */
module RecordList {
  import opened Wrappers
  import opened Json
  import Lists
  import Linq
  import BaseModel
  import Strings

  datatype RecordList<!M> = RecordList(raw: seq<Value>, models: seq<M>, toRecord: Option<M -> Value>)

  predicate IsRecord(v: Value) {
    v.Record?
  }

  function FieldsOf(v: Value): Record {
    if v.Record? then v.fields else map[]
  }

  /** The loop of `GetModelListFromArray`: one model per element that is a
      non-null record, in order. */
  function ConvertRecords<M>(items: seq<Value>, converter: Record -> M): (r: seq<M>)
    ensures var kept := Linq.Filter(items, IsRecord);
            |r| == |kept| && forall i :: 0 <= i < |r| ==> r[i] == converter(FieldsOf(kept[i]))
    decreases |items|
  {
    if |items| == 0 then []
    else
      var rest := ConvertRecords(items[1..], converter);
      var kept := Linq.Filter(items, IsRecord);
      if items[0].Record? then
        assert kept == [items[0]] + Linq.Filter(items[1..], IsRecord);
        [converter(items[0].fields)] + rest
      else rest
  }

  /** `GetModelListFromArray`: null when the array or the converter is
      null. */
  function GetModelListFromArray<M>(arr: Option<seq<Value>>, converter: Option<Record -> M>): (r: Option<seq<M>>)
    ensures r.None? <==> arr.None? || converter.None?
    ensures r.Some? ==> |r.value| <= |arr.value|
    ensures r.Some? ==> var kept := Linq.Filter(arr.value, IsRecord);
              |r.value| == |kept| && forall i :: 0 <= i < |kept| ==> r.value[i] == converter.value(FieldsOf(kept[i]))
  {
    if arr.None? || converter.None? then None
    else Some(ConvertRecords(arr.value, converter.value))
  }

  /** The three-argument constructor: keeps the array and loads the models
      from it. `None` stands for a list whose model list is null (a null
      array or converter); every member of such a list throws. */
  function New<M>(arr: Option<seq<Value>>, recordToModel: Option<Record -> M>,
                  modelToRecord: Option<M -> Value>): (r: Option<RecordList<M>>)
    ensures r.None? <==> arr.None? || recordToModel.None?
    ensures r.Some? ==> r.value.raw == arr.value && r.value.toRecord == modelToRecord
                        && Some(r.value.models) == GetModelListFromArray(arr, recordToModel)
  {
    var models := GetModelListFromArray(arr, recordToModel);
    if models.None? then None else Some(RecordList(arr.value, models.value, modelToRecord))
  }

  /** The record a `BaseModel` hands back through `GetRaw`, as an array
      element. */
  function RawOf(m: BaseModel.Model): Value {
    RecordValue(BaseModel.GetRaw(m))
  }

  /** The two-argument constructor, used by `BaseList<T>`: the model-to-record
      converter is `model.GetRaw()`. */
  function NewModelList(arr: Option<seq<Value>>, ctor: Record -> BaseModel.Model): (r: Option<RecordList<BaseModel.Model>>)
    ensures r.None? <==> arr.None?
    ensures r.Some? ==> r.value.raw == arr.value && r.value.toRecord == Some(RawOf)
  {
    New(arr, Some(ctor), Some(RawOf))
  }

  /** The models and the raw records correspond one to one, position by
      position. Only meaningful when a converter exists. */
  ghost predicate Aligned<M>(l: RecordList<M>) {
    l.toRecord.Some? ==>
      |l.raw| == |l.models| && forall i :: 0 <= i < |l.raw| ==> l.raw[i] == l.toRecord.value(l.models[i])
  }

  /** An array holding the given records, in order. */
  function RecordsArray(records: seq<Record>): (r: seq<Value>)
    ensures |r| == |records| && forall i :: 0 <= i < |r| ==> r[i] == Record(records[i])
  {
    if |records| == 0 then [] else [Record(records[0])] + RecordsArray(records[1..])
  }

  /** A list built from an array of records with a converter that recovers
      each record from its model starts aligned, one model per record. */
  lemma {:induction false} NewIsAligned(records: seq<Record>, ctor: Record -> BaseModel.Model)
    requires forall d :: BaseModel.GetRaw(ctor(d)) == Some(d)
    ensures var arr := RecordsArray(records);
            && NewModelList(Some(arr), ctor).Some?
            && Aligned(NewModelList(Some(arr), ctor).value)
            && |NewModelList(Some(arr), ctor).value.models| == |records|
  {
    var arr := RecordsArray(records);
    var l := NewModelList(Some(arr), ctor).value;
    assert Linq.Filter(arr, IsRecord) == arr by {
      AllRecordsKept(arr);
    }
  }

  lemma {:induction false} AllRecordsKept(arr: seq<Value>)
    requires forall i :: 0 <= i < |arr| ==> arr[i].Record?
    ensures Linq.Filter(arr, IsRecord) == arr
    decreases |arr|
  {
    if |arr| > 0 {
      AllRecordsKept(arr[1..]);
    }
  }

  // ---------------------------------------------------------------------
  // IList<TModel>

  function IndexOf<M(==)>(l: RecordList<M>, m: M): (k: int)
    ensures -1 <= k < |l.models|
    ensures k == -1 <==> m !in l.models
    ensures k >= 0 ==> l.models[k] == m && m !in l.models[..k]
  {
    Lists.IndexOfValue(l.models, m)
  }

  /** `Insert`: a bad index throws before the raw array is touched. */
  function Insert<M>(l: RecordList<M>, i: int, m: M): (r: Result<RecordList<M>>)
    ensures l.toRecord.None? ==> (r.Ok? <==> 0 <= i <= |l.models|)
    ensures r.Ok? ==> 0 <= i <= |l.models| && r.value.models == Lists.Insert(l.models, i, m).value
                      && r.value.toRecord == l.toRecord
    ensures r.Ok? && l.toRecord.None? ==> r.value.raw == l.raw
    ensures r.Ok? && l.toRecord.Some? ==> 0 <= i <= |l.raw| && r.value.raw == Lists.Insert(l.raw, i, l.toRecord.value(m)).value
  {
    var models :- Lists.Insert(l.models, i, m);
    match l.toRecord
    case None => Ok(l.(models := models))
    case Some(f) =>
      var raw :- Lists.Insert(l.raw, i, f(m));
      Ok(l.(models := models, raw := raw))
  }

  /** `RemoveAt`. */
  function RemoveAt<M>(l: RecordList<M>, i: int): (r: Result<RecordList<M>>)
    ensures l.toRecord.None? ==> (r.Ok? <==> 0 <= i < |l.models|)
    ensures r.Ok? ==> 0 <= i < |l.models| && r.value.models == Lists.RemoveAt(l.models, i).value
                      && r.value.toRecord == l.toRecord
    ensures r.Ok? && l.toRecord.None? ==> r.value.raw == l.raw
    ensures r.Ok? && l.toRecord.Some? ==> 0 <= i < |l.raw| && r.value.raw == Lists.RemoveAt(l.raw, i).value
  {
    var models :- Lists.RemoveAt(l.models, i);
    match l.toRecord
    case None => Ok(l.(models := models))
    case Some(f) =>
      var raw :- Lists.RemoveAt(l.raw, i);
      Ok(l.(models := models, raw := raw))
  }

  /** The getter of the indexer. */
  function Get<M>(l: RecordList<M>, i: int): (r: Result<M>)
    ensures r.Ok? <==> 0 <= i < |l.models|
    ensures r.Fail? ==> r.error == ArgumentOutOfRange
    ensures r.Ok? ==> r.value == l.models[i]
  {
    if 0 <= i < |l.models| then Ok(l.models[i]) else Fail(ArgumentOutOfRange)
  }

  /** The setter of the indexer replaces the model only: the raw array keeps
      the old record. */
  function SetAt<M>(l: RecordList<M>, i: int, m: M): (r: Result<RecordList<M>>)
    ensures r.Ok? <==> 0 <= i < |l.models|
    ensures r.Fail? ==> r.error == ArgumentOutOfRange
    ensures r.Ok? ==> r.value.raw == l.raw && |r.value.models| == |l.models| && r.value.models[i] == m
                      && forall j :: 0 <= j < |l.models| && j != i ==> r.value.models[j] == l.models[j]
  {
    if 0 <= i < |l.models| then Ok(l.(models := l.models[i := m])) else Fail(ArgumentOutOfRange)
  }

  // ---------------------------------------------------------------------
  // ICollection<TModel>

  /** `Add`: the model at the end, and its record at the end of the raw
      array when a converter exists. */
  function Add<M>(l: RecordList<M>, m: M): (r: RecordList<M>)
    ensures r.models == l.models + [m] && r.toRecord == l.toRecord
    ensures l.toRecord.None? ==> r.raw == l.raw
    ensures l.toRecord.Some? ==> r.raw == l.raw + [l.toRecord.value(m)]
  {
    match l.toRecord
    case None => l.(models := l.models + [m])
    case Some(f) => l.(models := l.models + [m], raw := l.raw + [f(m)])
  }

  /** `Clear`: both lists emptied. */
  function Clear<M>(l: RecordList<M>): (r: RecordList<M>)
    ensures Count(r) == 0 && r.raw == [] && r.toRecord == l.toRecord
  {
    l.(models := [], raw := [])
  }

  function Contains<M(==)>(l: RecordList<M>, m: M): (b: bool)
    ensures b <==> m in l.models
  {
    IndexOf(l, m) >= 0
  }

  /** `Remove`: the first raw entry equal to the model's record goes whether
      or not the model is in the list; the result reports the model list
      only. */
  function Remove<M(==)>(l: RecordList<M>, m: M): (r: (bool, RecordList<M>))
    ensures r.0 <==> m in l.models
    ensures r.1.models == Lists.Remove(l.models, m).1 && r.1.toRecord == l.toRecord
    ensures l.toRecord.None? ==> r.1.raw == l.raw
    ensures l.toRecord.Some? ==> r.1.raw == Lists.Remove(l.raw, l.toRecord.value(m)).1
  {
    var raw := match l.toRecord
      case None => l.raw
      case Some(f) => Lists.Remove(l.raw, f(m)).1;
    var (found, models) := Lists.Remove(l.models, m);
    (found, l.(models := models, raw := raw))
  }

  function Count<M>(l: RecordList<M>): (n: nat)
    ensures n == |l.models|
  {
    |l.models|
  }

  function IsReadOnly<M>(l: RecordList<M>): (b: bool)
    ensures !b
  {
    false
  }

  /** `GetRawEnumerator`: the raw elements that are records, in order. */
  function RawRecords<M>(l: RecordList<M>): (r: seq<Record>)
    ensures var kept := Linq.Filter(l.raw, IsRecord);
            |r| == |kept| && forall i :: 0 <= i < |r| ==> Record(r[i]) == kept[i]
  {
    ConvertRecords(l.raw, (d: Record) => d)
  }

  /** `ConvertAll`: the models mapped one by one. */
  function ConvertAll<M, U>(l: RecordList<M>, f: M -> U): (r: seq<U>)
    ensures |r| == |l.models|
    ensures forall i :: 0 <= i < |r| ==> r[i] == f(l.models[i])
  {
    Linq.Select(l.models, f)
  }

  // ---------------------------------------------------------------------
  // CopyTo

  /** `CopyTo` as written. The bounds test uses `>=`, so an array that the
      models fill exactly is rejected; and `arrayIndex + Count` is an
      unchecked `int` sum, so an index near `int.MaxValue` wraps it
      negative: the test passes and the loop, bounded by the same sum, runs
      no iteration. The list's `Count` and the array's `Length` are `int`s. */
  method CopyToAsWritten<M>(l: RecordList<M>, arr: Option<seq<M>>, arrayIndex: Strings.Int32) returns (r: Result<seq<M>>)
    requires |l.models| <= Strings.INT32_MAX
    requires arr.Some? ==> |arr.value| <= Strings.INT32_MAX
    ensures arr.None? ==> r == Fail(ArgumentNull)
    ensures arr.Some? && arrayIndex < 0 ==> r == Fail(ArgumentOutOfRange)
    ensures arr.Some? && arrayIndex >= 0 ==>
              (r.Ok? <==> Strings.Wrap32(arrayIndex + |l.models|) < |arr.value|)
    ensures arr.Some? && arrayIndex >= 0 && r.Fail? ==> r.error == Argument
    ensures r.Ok? && arrayIndex + |l.models| <= Strings.INT32_MAX ==>
              CopiedInto(l.models, arr.value, arrayIndex, r.value)
    ensures r.Ok? && arrayIndex + |l.models| > Strings.INT32_MAX ==> r.value == arr.value
  {
    if arr.None? {
      return Fail(ArgumentNull);
    }
    if arrayIndex < 0 {
      return Fail(ArgumentOutOfRange);
    }
    var end := Strings.Wrap32(arrayIndex + |l.models|);
    if end >= |arr.value| {
      return Fail(Argument);
    }
    if end <= arrayIndex {
      // the sum wrapped, or there is nothing to copy: no iteration
      assert |l.models| == 0 || arrayIndex + |l.models| > Strings.INT32_MAX;
      return Ok(arr.value);
    }
    var a := CopyLoop(l.models, arr.value, arrayIndex);
    return Ok(a);
  }

  /** `CopyTo` with the bound the exception message states, compared
      without overflow: the copy is refused exactly when it would run past
      the end of the array. */
  method CopyTo<M>(l: RecordList<M>, arr: Option<seq<M>>, arrayIndex: Strings.Int32) returns (r: Result<seq<M>>)
    ensures arr.None? ==> r == Fail(ArgumentNull)
    ensures arr.Some? && arrayIndex < 0 ==> r == Fail(ArgumentOutOfRange)
    ensures arr.Some? && arrayIndex >= 0 ==> (r.Ok? <==> arrayIndex + |l.models| <= |arr.value|)
    ensures arr.Some? && arrayIndex >= 0 && r.Fail? ==> r.error == Argument
    ensures r.Ok? ==> CopiedInto(l.models, arr.value, arrayIndex, r.value)
  {
    if arr.None? {
      return Fail(ArgumentNull);
    }
    if arrayIndex < 0 {
      return Fail(ArgumentOutOfRange);
    }
    if arrayIndex + |l.models| > |arr.value| {
      return Fail(Argument);
    }
    var a := CopyLoop(l.models, arr.value, arrayIndex);
    return Ok(a);
  }

  /** `after` is `before` with `src` written from position `at` on, and no
      other slot touched. */
  ghost predicate CopiedInto<M>(src: seq<M>, before: seq<M>, at: int, after: seq<M>) {
    && 0 <= at && at + |src| <= |before|
    && |after| == |before|
    && (forall j :: at <= j < at + |src| ==> after[j] == src[j - at])
    && (forall j :: 0 <= j < |before| && !(at <= j < at + |src|) ==> after[j] == before[j])
  }

  /** The copying loop: `array[i] = _Records[i - arrayIndex]`. */
  method CopyLoop<M>(src: seq<M>, dst: seq<M>, at: nat) returns (a: seq<M>)
    requires at + |src| <= |dst|
    ensures CopiedInto(src, dst, at, a)
  {
    a := dst;
    var i := at;
    while i < |src| + at
      invariant at <= i <= |src| + at
      invariant |a| == |dst|
      invariant forall j :: at <= j < i ==> a[j] == src[j - at]
      invariant forall j :: 0 <= j < |dst| && !(at <= j < i) ==> a[j] == dst[j]
    {
      a := a[i := src[i - at]];
      i := i + 1;
    }
  }

  /** The as-written bound rejects a destination the models fill exactly,
      which the corrected bound accepts. */
  method CopyToExactFit() returns (asWritten: Result<seq<int>>, corrected: Result<seq<int>>)
    ensures asWritten == Fail(Argument)
    ensures corrected == Ok([7])
  {
    var l := RecordList([], [7], None);
    asWritten := CopyToAsWritten(l, Some([0]), 0);
    assert Strings.Wrap32(1) == 1;
    corrected := CopyTo(l, Some([0]), 0);
    assert CopiedInto([7], [0], 0, corrected.value);
    assert corrected.value[0] == 7;
    assert corrected.value == [7];
  }

  /** An index of `int.MaxValue` with one model and a one-slot array: the
      unchecked sum wraps to `int.MinValue`, the as-written test lets the
      call through and nothing is copied, where the corrected bound
      refuses it. */
  method CopyToOverflow() returns (asWritten: Result<seq<int>>, corrected: Result<seq<int>>)
    ensures asWritten == Ok([0])
    ensures corrected == Fail(Argument)
  {
    var l := RecordList([], [7], None);
    assert Strings.Wrap32(Strings.INT32_MAX + 1) == Strings.INT32_MIN;
    asWritten := CopyToAsWritten(l, Some([0]), Strings.INT32_MAX);
    corrected := CopyTo(l, Some([0]), Strings.INT32_MAX);
  }

  // ---------------------------------------------------------------------
  // Keeping the two lists in step

  lemma InsertKeepsAligned<M>(l: RecordList<M>, i: int, m: M)
    requires Aligned(l) && Insert(l, i, m).Ok?
    ensures Aligned(Insert(l, i, m).value)
  {
    if l.toRecord.Some? {
      var r := Insert(l, i, m).value;
      var f := l.toRecord.value;
      forall j | 0 <= j < |r.raw| ensures r.raw[j] == f(r.models[j]) {
        if j < i {
          assert r.raw[j] == r.raw[..i][j] == l.raw[j];
          assert r.models[j] == r.models[..i][j] == l.models[j];
        } else if j > i {
          assert r.raw[j] == r.raw[i + 1..][j - i - 1] == l.raw[j - 1];
          assert r.models[j] == r.models[i + 1..][j - i - 1] == l.models[j - 1];
        }
      }
    }
  }

  lemma RemoveAtKeepsAligned<M>(l: RecordList<M>, i: int)
    requires Aligned(l) && RemoveAt(l, i).Ok?
    ensures Aligned(RemoveAt(l, i).value)
  {
    if l.toRecord.Some? {
      var r := RemoveAt(l, i).value;
      var f := l.toRecord.value;
      forall j | 0 <= j < |r.raw| ensures r.raw[j] == f(r.models[j]) {
        if j < i {
          assert r.raw[j] == r.raw[..i][j] == l.raw[j];
          assert r.models[j] == r.models[..i][j] == l.models[j];
        } else {
          assert r.raw[j] == r.raw[i..][j - i] == l.raw[j + 1];
          assert r.models[j] == r.models[i..][j - i] == l.models[j + 1];
        }
      }
    }
  }

  lemma AddKeepsAligned<M>(l: RecordList<M>, m: M)
    requires Aligned(l)
    ensures Aligned(Add(l, m))
  {
  }

  lemma ClearKeepsAligned<M>(l: RecordList<M>)
    ensures Aligned(Clear(l))
  {
  }

  /** On an aligned list with a converter, a successful `Insert` never
      fails on the raw side, and removing at the same index undoes it. */
  lemma RemoveAtUndoesInsert<M>(l: RecordList<M>, i: int, m: M)
    requires Aligned(l) && 0 <= i <= |l.models|
    ensures Insert(l, i, m).Ok?
    ensures RemoveAt(Insert(l, i, m).value, i) == Ok(l)
  {
    Lists.InsertThenRemoveAt(l.models, i, m);
    if l.toRecord.Some? {
      Lists.InsertThenRemoveAt(l.raw, i, l.toRecord.value(m));
    }
  }

  /** On an aligned list where no other model has the same record, removing
      a model that is present keeps the lists aligned. */
  lemma RemoveKeepsAligned<M>(l: RecordList<M>, m: M)
    requires Aligned(l) && m in l.models && l.toRecord.Some?
    requires forall j :: 0 <= j < |l.models| && l.toRecord.value(l.models[j]) == l.toRecord.value(m) ==> l.models[j] == m
    ensures Aligned(Remove(l, m).1)
  {
    var f := l.toRecord.value;
    var k := Lists.IndexOfValue(l.models, m);
    var kr := Lists.IndexOfValue(l.raw, f(m));
    assert l.raw[k] == f(m);
    RemoveAtKeepsAligned(l, k);
    assert Remove(l, m).1 == RemoveAt(l, k).value;
  }

  /** The raw entry goes even when the model is absent: the lists fall out of
      step. */
  lemma RemoveAbsentModelShrinksRaw<M>(l: RecordList<M>, m: M)
    requires l.toRecord.Some? && m !in l.models && l.toRecord.value(m) in l.raw
    ensures !Remove(l, m).0
    ensures Remove(l, m).1.models == l.models
    ensures |Remove(l, m).1.raw| == |l.raw| - 1
  {
  }
}

=== FILE: rich_text.dfy ===
/** `RichText` (_Core/Editor/RichText.cs): a builder for Unity rich-text
    markup. It keeps the text written so far and a stack of the tags started
    and not yet closed; `End` closes the innermost one. */
module RichText {
  import opened Wrappers
  import opened Strings

  const TagBold := "b"
  const TagItalics := "i"
  const TagSize := "size"
  const TagColor := "color"

  /** The text written so far (`_RichTextStr`) and the open tags
      (`_UsedTags`), outermost first: the top of the stack is the last. */
  datatype Builder = Builder(text: string, tags: seq<string>)

  /** The constructor: a `null` initial text gives an empty builder, as
      `new StringBuilder(null)` does. */
  function New(initial: Option<string>): (r: Builder)
    ensures r.text == initial.GetOr("") && r.tags == []
  {
    Builder(initial.GetOr(""), [])
  }

  /** `Create(text)`. */
  function Create(text: string): (r: Builder)
    ensures r.text == text && r.tags == []
  {
    New(Some(text))
  }

  /** `<tag>` or `<tag=value>`. */
  function OpenTag(tag: string, value: Option<string>): string {
    match value
    case None => "<" + tag + ">"
    case Some(v) => "<" + tag + "=" + v + ">"
  }

  /** `</tag>`. */
  function CloseTag(tag: string): string {
    "</" + tag + ">"
  }

  /** `StartTag`: push the tag and write its opening. */
  function StartTag(b: Builder, tag: string, value: Option<string>): (r: Builder)
    ensures r.text == b.text + OpenTag(tag, value)
    ensures r.tags == b.tags + [tag] && |r.tags| == |b.tags| + 1
  {
    Builder(b.text + OpenTag(tag, value), b.tags + [tag])
  }

  /** `Append`: the text verbatim; the tags are untouched. */
  function Append(b: Builder, s: string): (r: Builder)
    ensures r.text == b.text + s && r.tags == b.tags
  {
    b.(text := b.text + s)
  }

  /** `AppendLine`: the text and the platform's line terminator `newline`
      (`Environment.NewLine`). */
  function AppendLine(b: Builder, s: string, newline: string): (r: Builder)
    ensures r.text == b.text + s + newline && r.tags == b.tags
  {
    b.(text := b.text + s + newline)
  }

  /** `End`: pop the innermost tag and write its closing; an empty stack
      throws, as `Stack.Pop` does. */
  function End(b: Builder): (r: Result<Builder>)
    ensures r.Fail? <==> b.tags == []
    ensures r.Fail? ==> r.error == InvalidOperation
    ensures r.Ok? ==> (r.value.text == b.text + CloseTag(b.tags[|b.tags| - 1])
                       && r.value.tags == b.tags[..|b.tags| - 1])
  {
    if |b.tags| == 0 then Fail(InvalidOperation)
    else
      var top := b.tags[|b.tags| - 1];
      Ok(Builder(b.text + CloseTag(top), b.tags[..|b.tags| - 1]))
  }

  /** The closings of the open tags, innermost first. */
  function Closing(tags: seq<string>): string
    decreases |tags|
  {
    if |tags| == 0 then ""
    else CloseTag(tags[|tags| - 1]) + Closing(tags[..|tags| - 1])
  }

  /** The builder with every open tag closed. */
  function Closed(b: Builder): (r: Builder)
    ensures r.tags == []
  {
    Builder(b.text + Closing(b.tags), [])
  }

  /** `EndAll`: `End` until the stack is empty. */
  method EndAll(b: Builder) returns (r: Builder)
    ensures r == Closed(b)
  {
    r := b;
    while |r.tags| > 0
      invariant r.text + Closing(r.tags) == b.text + Closing(b.tags)
      decreases |r.tags|
    {
      var top := r.tags[|r.tags| - 1];
      assert Closing(r.tags) == CloseTag(top) + Closing(r.tags[..|r.tags| - 1]);
      r := End(r).value;
    }
  }

  /** `EndAllGetString`. */
  method EndAllGetString(b: Builder) returns (s: string)
    ensures s == b.text + Closing(b.tags)
  {
    var r := EndAll(b);
    s := ToString(r);
  }

  /** `ToString`: the text written so far. */
  function ToString(b: Builder): (s: string)
    ensures s == b.text
  {
    b.text
  }

  // ---------------------------------------------------------------------
  // Opening tags

  function Bold(b: Builder): (r: Builder)
    ensures r.text == b.text + "<b>" && r.tags == b.tags + [TagBold]
  {
    StartTag(b, TagBold, None)
  }

  function Italics(b: Builder): (r: Builder)
    ensures r.text == b.text + "<i>" && r.tags == b.tags + [TagItalics]
  {
    StartTag(b, TagItalics, None)
  }

  function Color(b: Builder, color: string): (r: Builder)
    ensures r.text == b.text + "<color=" + color + ">" && r.tags == b.tags + [TagColor]
  {
    StartTag(b, TagColor, Some(color))
  }

  /** `Size(n)`: the value is `n.ToString()`. */
  function Size(b: Builder, size: Int32): (r: Builder)
    ensures r.text == b.text + "<size=" + IntText(size) + ">" && r.tags == b.tags + [TagSize]
  {
    StartTag(b, TagSize, Some(IntText(size)))
  }

  // ---------------------------------------------------------------------
  // Formatted runs: open, write, close

  /** Open a tag, write the text, and close the tag again: the `End` cannot
      fail, since the tag was just pushed. */
  function Wrap(started: Builder, b: Builder, text: string): (r: Builder)
    requires |started.tags| == |b.tags| + 1 && started.tags[..|b.tags|] == b.tags
    ensures r.tags == b.tags
    ensures r.text == started.text + text + CloseTag(started.tags[|b.tags|])
  {
    End(Append(started, text)).value
  }

  /** `Bold(text)`. */
  function BoldRun(b: Builder, text: string): (r: Builder)
    ensures r.text == b.text + "<b>" + text + "</b>" && r.tags == b.tags
  {
    Wrap(Bold(b), b, text)
  }

  /** `Italics(text)`. */
  function ItalicsRun(b: Builder, text: string): (r: Builder)
    ensures r.text == b.text + "<i>" + text + "</i>" && r.tags == b.tags
  {
    Wrap(Italics(b), b, text)
  }

  /** `Color(color, text)`. */
  function ColorRun(b: Builder, color: string, text: string): (r: Builder)
    ensures r.text == b.text + "<color=" + color + ">" + text + "</color>" && r.tags == b.tags
  {
    Wrap(Color(b, color), b, text)
  }

  /** `Size(size, text)`. */
  function SizeRun(b: Builder, size: Int32, text: string): (r: Builder)
    ensures r.text == b.text + "<size=" + IntText(size) + ">" + text + "</size>" && r.tags == b.tags
  {
    Wrap(Size(b, size), b, text)
  }

  /** `SizeColor(size, color, text)`: a colored run inside a size tag. */
  function SizeColor(b: Builder, size: Int32, color: string, text: string): (r: Builder)
    ensures r.text == b.text + "<size=" + IntText(size) + ">" + "<color=" + color + ">" + text + "</color>" + "</size>"
    ensures r.tags == b.tags
  {
    var s := Size(b, size);
    var c := ColorRun(s, color, text);
    assert c.tags[..|c.tags| - 1] == b.tags;
    End(c).value
  }

  /** The static `BoldText`, `ItalicsText`, `SizeText` and the instance
      method `ColorText` (which ignores its receiver) all format one run on
      a fresh builder. */
  function BoldText(text: string): (r: Builder)
    ensures r.text == "<b>" + text + "</b>" && r.tags == []
  {
    BoldRun(New(None), text)
  }

  function ItalicsText(text: string): (r: Builder)
    ensures r.text == "<i>" + text + "</i>" && r.tags == []
  {
    ItalicsRun(New(None), text)
  }

  function SizeText(size: Int32, text: string): (r: Builder)
    ensures r.text == "<size=" + IntText(size) + ">" + text + "</size>" && r.tags == []
  {
    SizeRun(New(None), size, text)
  }

  function ColorText(b: Builder, color: string, text: string): (r: Builder)
    ensures r.text == "<color=" + color + ">" + text + "</color>" && r.tags == []
  {
    ColorRun(New(None), color, text)
  }

  // ---------------------------------------------------------------------
  // Properties

  /** Closing everything twice is closing everything once. */
  lemma ClosedIdempotent(b: Builder)
    ensures Closed(Closed(b)) == Closed(b)
  {
    assert Closing([]) == "";
  }

  /** A tag started and then ended leaves the builder's stack as it was and
      its text extended by the opening and the matching closing. */
  lemma {:induction false} StartThenEnd(b: Builder, tag: string, value: Option<string>)
    ensures End(StartTag(b, tag, value)).Ok?
    ensures End(StartTag(b, tag, value)).value == Builder(b.text + OpenTag(tag, value) + CloseTag(tag), b.tags)
  {
    var s := StartTag(b, tag, value);
    assert s.tags[..|s.tags| - 1] == b.tags;
  }

  /** `EndAll` closes the open tags innermost first: the last started is
      the first closed. */
  lemma {:induction false} ClosingIsReversed(tags: seq<string>, tag: string)
    ensures Closing(tags + [tag]) == CloseTag(tag) + Closing(tags)
  {
    assert (tags + [tag])[..|tags|] == tags;
  }

  /** Closing the tags of `a + b` closes those of `b` first, then those of
      `a`. */
  lemma {:induction false} ClosingAppend(a: seq<string>, b: seq<string>)
    ensures Closing(a + b) == Closing(b) + Closing(a)
    decreases |b|
  {
    if |b| == 0 {
      assert a + b == a;
    } else {
      var init := b[..|b| - 1];
      var last := b[|b| - 1];
      assert a + b == (a + init) + [last];
      ClosingIsReversed(a + init, last);
      ClosingAppend(a, init);
      assert b == init + [last];
      ClosingIsReversed(init, last);
      var c, i, x := CloseTag(last), Closing(init), Closing(a);
      assert c + (i + x) == (c + i) + x;
    }
  }

  /** Bold inside italics, closed by `EndAll`: the closings come in the
      reverse order of the openings. */
  lemma NestedCloseInReverse(b: Builder)
    requires b.tags == []
    ensures Closed(Bold(Italics(b))).text == b.text + "<i><b></b></i>"
  {
    ClosingIsReversed([TagItalics], TagBold);
    ClosingIsReversed([], TagItalics);
  }
}

=== FILE: sorting.dfy ===
/** A stand-in for `Array.Sort` / `List<T>.Sort`. The .NET sort is an
    unstable introspective sort; the model only relies on its result being
    a permutation of the input that is ordered by the comparison, which the
    insertion sort below also produces. */
module Sorting {

  /** `le(a, b)` holds when `a` may precede `b`: a comparison that returns
      a value `<= 0`. */
  ghost predicate SortedBy<T>(s: seq<T>, le: (T, T) -> bool) {
    forall i, j :: 0 <= i < j < |s| ==> le(s[i], s[j])
  }

  /** A comparison the sort can honour: any two elements are comparable and
      the relation is transitive. */
  ghost predicate TotalPreorder<T(!new)>(le: (T, T) -> bool) {
    && (forall a, b :: le(a, b) || le(b, a))
    && (forall a, b, c :: le(a, b) && le(b, c) ==> le(a, c))
  }

  /** Inserts `x` in front of the first element it may precede. */
  function InsertSorted<T(!new)>(x: T, s: seq<T>, le: (T, T) -> bool): (r: seq<T>)
    ensures |r| == |s| + 1
    ensures multiset(r) == multiset(s) + multiset{x}
    decreases |s|
  {
    if |s| == 0 then [x]
    else if le(x, s[0]) then [x] + s
    else
      assert s == [s[0]] + s[1..];
      [s[0]] + InsertSorted(x, s[1..], le)
  }

  /** Inserting into a sorted sequence keeps it sorted. */
  lemma {:induction false} InsertKeepsSorted<T(!new)>(x: T, s: seq<T>, le: (T, T) -> bool)
    requires TotalPreorder(le) && SortedBy(s, le)
    ensures SortedBy(InsertSorted(x, s, le), le)
    decreases |s|
  {
    if |s| > 0 {
      if le(x, s[0]) {
        assert forall k :: 0 <= k < |s| ==> le(s[0], s[k]) || k == 0;
      } else {
        var tail := s[1..];
        assert SortedBy(tail, le) by {
          forall i, j | 0 <= i < j < |tail| ensures le(tail[i], tail[j]) {
            assert tail[i] == s[i + 1] && tail[j] == s[j + 1];
          }
        }
        InsertKeepsSorted(x, tail, le);
        var rest := InsertSorted(x, tail, le);
        assert s == [s[0]] + tail;
        forall k | 0 <= k < |rest| ensures le(s[0], rest[k]) {
          assert rest[k] in multiset(tail) + multiset{x};
          if rest[k] != x {
            var j :| 0 <= j < |tail| && tail[j] == rest[k];
            assert s[j + 1] == rest[k];
          }
        }
      }
    }
  }

  /** The sorted permutation of `s`. */
  function Sort<T(!new)>(s: seq<T>, le: (T, T) -> bool): (r: seq<T>)
    ensures |r| == |s|
    ensures multiset(r) == multiset(s)
    ensures TotalPreorder(le) ==> SortedBy(r, le)
    decreases |s|
  {
    if |s| == 0 then []
    else
      assert s == [s[0]] + s[1..];
      var rest := Sort(s[1..], le);
      assert TotalPreorder(le) ==> SortedBy(InsertSorted(s[0], rest, le), le) by {
        if TotalPreorder(le) {
          InsertKeepsSorted(s[0], rest, le);
        }
      }
      InsertSorted(s[0], rest, le)
  }
}

=== FILE: strings.dfy ===
/** Text helpers with the semantics of the .NET string members the code
    relies on: `String.Split(char)`, joining with a separator,
    `String.Contains(string)` (ordinal), `Int32.ToString()` and
    `Int32.Parse`, and `Char.ToUpper` on ASCII letters. */
module Strings {
  import opened Wrappers

  // ---------------------------------------------------------------------
  // Split and join on a single separator character

  /** `s.Split(c)`: the pieces between separators, empty pieces kept, so the
      result always has at least one element and one more than the number of
      separators. */
  function Split(s: string, c: char): (parts: seq<string>)
    ensures |parts| >= 1
    ensures forall i :: 0 <= i < |parts| ==> c !in parts[i]
    decreases |s|
  {
    if |s| == 0 then [""]
    else
      var rest := Split(s[1..], c);
      if s[0] == c then [""] + rest
      else [[s[0]] + rest[0]] + rest[1..]
  }

  /** `string.Join(c, parts)`: the pieces with one separator between
      neighbours. */
  function Join(parts: seq<string>, c: char): string
    requires |parts| >= 1
    decreases |parts|
  {
    if |parts| == 1 then parts[0] else parts[0] + [c] + Join(parts[1..], c)
  }

  /** Joining the pieces of a split gives back the original text. */
  lemma {:induction false} JoinSplit(s: string, c: char)
    ensures Join(Split(s, c), c) == s
    decreases |s|
  {
    if |s| > 0 {
      var rest := Split(s[1..], c);
      JoinSplit(s[1..], c);
      if s[0] != c {
        if |rest| > 1 {
          assert Join(Split(s, c), c)
              == ([s[0]] + rest[0]) + [c] + Join(rest[1..], c);
          assert Join(rest, c) == rest[0] + [c] + Join(rest[1..], c);
        }
      }
    }
  }

  /** A piece with no separator splits to itself. */
  lemma {:induction false} SplitNoSeparator(p: string, c: char)
    requires c !in p
    ensures Split(p, c) == [p]
    decreases |p|
  {
    if |p| > 0 {
      assert c !in p[1..];
      SplitNoSeparator(p[1..], c);
      assert [p[0]] + p[1..] == p;
    }
  }

  /** Splitting `p` + separator + `t` peels off `p` as the first piece. */
  lemma {:induction false} SplitCons(p: string, c: char, t: string)
    requires c !in p
    ensures Split(p + [c] + t, c) == [p] + Split(t, c)
    decreases |p|
  {
    if |p| == 0 {
      assert p + [c] + t == [c] + t;
      assert ([c] + t)[1..] == t;
    } else {
      var s := p + [c] + t;
      assert s[0] == p[0];
      assert s[1..] == p[1..] + [c] + t;
      assert c !in p[1..];
      SplitCons(p[1..], c, t);
      assert [p[0]] + p[1..] == p;
    }
  }

  /** Splitting a join gives back the pieces, provided no piece contains the
      separator. */
  lemma {:induction false} SplitJoin(parts: seq<string>, c: char)
    requires |parts| >= 1
    requires forall i :: 0 <= i < |parts| ==> c !in parts[i]
    ensures Split(Join(parts, c), c) == parts
    decreases |parts|
  {
    if |parts| == 1 {
      SplitNoSeparator(parts[0], c);
    } else {
      SplitJoin(parts[1..], c);
      SplitCons(parts[0], c, Join(parts[1..], c));
      assert [parts[0]] + parts[1..] == parts;
    }
  }

  // ---------------------------------------------------------------------
  // Substring search

  predicate IsPrefix(p: string, s: string) {
    |p| <= |s| && s[..|p|] == p
  }

  /** `hay.Contains(needle)`, ordinal comparison; the empty needle occurs in
      every text. */
  predicate Contains(hay: string, needle: string)
    decreases |hay|
  {
    IsPrefix(needle, hay) || (|hay| > 0 && Contains(hay[1..], needle))
  }

  /** Where `Contains` holds, the needle sits at some position of the text. */
  lemma {:induction false} ContainsHasOffset(hay: string, needle: string)
    requires Contains(hay, needle)
    ensures exists i :: 0 <= i <= |hay| && IsPrefix(needle, hay[i..])
    decreases |hay|
  {
    if IsPrefix(needle, hay) {
      assert hay[0..] == hay;
    } else {
      ContainsHasOffset(hay[1..], needle);
      var i :| 0 <= i <= |hay[1..]| && IsPrefix(needle, hay[1..][i..]);
      assert hay[1..][i..] == hay[i + 1..];
      assert IsPrefix(needle, hay[i + 1..]);
    }
  }

  /** A needle sitting at position `i` of the text is found by `Contains`. */
  lemma {:induction false} OffsetContains(hay: string, needle: string, i: nat)
    requires i <= |hay| && IsPrefix(needle, hay[i..])
    ensures Contains(hay, needle)
    decreases i
  {
    if i == 0 {
      assert hay[0..] == hay;
    } else {
      assert hay[1..][i - 1..] == hay[i..];
      OffsetContains(hay[1..], needle, i - 1);
    }
  }

  /** `Contains` holds exactly when the needle sits at some position of the
      text. */
  lemma ContainsAt(hay: string, needle: string)
    ensures Contains(hay, needle) <==>
            exists i :: 0 <= i <= |hay| && IsPrefix(needle, hay[i..])
  {
    if Contains(hay, needle) {
      ContainsHasOffset(hay, needle);
    }
    if exists i :: 0 <= i <= |hay| && IsPrefix(needle, hay[i..]) {
      var i :| 0 <= i <= |hay| && IsPrefix(needle, hay[i..]);
      OffsetContains(hay, needle, i);
    }
  }

  /** A needle holding a character that the text lacks never occurs in it. */
  lemma {:induction false} MissingCharNotContained(hay: string, needle: string, ch: char)
    requires ch in needle && ch !in hay
    ensures !Contains(hay, needle)
    decreases |hay|
  {
    if |hay| > 0 {
      assert ch !in hay[1..];
      MissingCharNotContained(hay[1..], needle, ch);
    }
  }

  // ---------------------------------------------------------------------
  // Decimal text of integers and Int32/Int64 parsing

  const INT32_MIN: int := -0x8000_0000
  const INT32_MAX: int := 0x7FFF_FFFF
  const INT64_MIN: int := -0x8000_0000_0000_0000
  const INT64_MAX: int := 0x7FFF_FFFF_FFFF_FFFF

  /** The values of a C# `int`. */
  type Int32 = x: int | INT32_MIN <= x <= INT32_MAX

  /** The unchecked C# `int` addition result: the sum reduced into the 32-bit
      range. */
  function Wrap32(x: int): (r: Int32)
    ensures (r - x) % 0x1_0000_0000 == 0
    ensures INT32_MIN <= x <= INT32_MAX ==> r == x
  {
    (x - INT32_MIN) % 0x1_0000_0000 + INT32_MIN
  }

  /** The values of a C# `long`. */
  type Int64 = x: int | INT64_MIN <= x <= INT64_MAX

  predicate IsDigit(ch: char) {
    '0' <= ch <= '9'
  }

  predicate AllDigits(s: string) {
    forall i :: 0 <= i < |s| ==> IsDigit(s[i])
  }

  function DigitChar(d: nat): (ch: char)
    requires d < 10
    ensures IsDigit(ch)
  {
    ('0' as int + d) as char
  }

  /** Decimal digits of a natural number, most significant first, no
      leading zeros. */
  function NatText(n: nat): (s: string)
    ensures |s| >= 1 && AllDigits(s)
    decreases n
  {
    if n < 10 then [DigitChar(n)] else NatText(n / 10) + [DigitChar(n % 10)]
  }

  /** `n.ToString()` for an integral .NET value under the invariant culture. */
  function IntText(n: int): string {
    if n < 0 then "-" + NatText(-n) else NatText(n)
  }

  /** The value of a string of decimal digits. */
  function DigitsValue(s: string): nat
    requires AllDigits(s)
    decreases |s|
  {
    if |s| == 0 then 0
    else DigitsValue(s[..|s| - 1]) * 10 + (s[|s| - 1] as int - '0' as int)
  }

  /** The integer an optional sign followed by one or more decimal digits
      denotes; `None` for any other text. */
  function ParseInteger(s: string): Option<int> {
    var negative := |s| > 0 && s[0] == '-';
    var body := if |s| > 0 && (s[0] == '-' || s[0] == '+') then s[1..] else s;
    if |body| == 0 || !AllDigits(body) then None
    else
      var magnitude: int := DigitsValue(body);
      Some(if negative then -magnitude else magnitude)
  }

  /** `int.Parse(s)`: malformed text fails with FormatException, a value
      outside the 32-bit range with OverflowException. */
  function ParseInt32(s: string): (r: Result<int>)
    ensures r.Ok? ==> INT32_MIN <= r.value <= INT32_MAX
    ensures r.Ok? <==> ParseInteger(s).Some? && INT32_MIN <= ParseInteger(s).value <= INT32_MAX
    ensures r.Ok? ==> r.value == ParseInteger(s).value
    ensures r.Fail? ==> r.error == (if ParseInteger(s).None? then Format else Overflow)
  {
    match ParseInteger(s)
    case None => Fail(Format)
    case Some(v) => if INT32_MIN <= v <= INT32_MAX then Ok(v) else Fail(Overflow)
  }

  /** `long.Parse(s)`, as `ParseInt32` over the 64-bit range. */
  function ParseInt64(s: string): (r: Result<int>)
    ensures r.Ok? ==> INT64_MIN <= r.value <= INT64_MAX
    ensures r.Ok? <==> ParseInteger(s).Some? && INT64_MIN <= ParseInteger(s).value <= INT64_MAX
    ensures r.Ok? ==> r.value == ParseInteger(s).value
    ensures r.Fail? ==> r.error == (if ParseInteger(s).None? then Format else Overflow)
  {
    match ParseInteger(s)
    case None => Fail(Format)
    case Some(v) => if INT64_MIN <= v <= INT64_MAX then Ok(v) else Fail(Overflow)
  }

  lemma {:induction false} NatTextValue(n: nat)
    ensures DigitsValue(NatText(n)) == n
    decreases n
  {
    if n >= 10 {
      NatTextValue(n / 10);
      var s := NatText(n / 10) + [DigitChar(n % 10)];
      assert s[..|s| - 1] == NatText(n / 10);
    }
  }

  /** Parsing the decimal text of any integer gives the integer back. */
  lemma IntTextParses(n: int)
    ensures ParseInteger(IntText(n)) == Some(n)
  {
    if n < 0 {
      var digits := NatText(-n);
      NatTextValue(-n);
      var s := "-" + digits;
      assert s[0] == '-' && s[1..] == digits;
    } else {
      var digits := NatText(n);
      NatTextValue(n);
      assert IsDigit(digits[0]);
    }
  }

  // ---------------------------------------------------------------------
  // Upper-casing

  /** `char.ToUpper` restricted to ASCII: lower-case letters map to upper
      case, every other character is left alone. */
  function ToUpperChar(ch: char): (u: char)
    ensures 'a' <= ch <= 'z' ==> u as int == ch as int - 32
    ensures !('a' <= ch <= 'z') ==> u == ch
  {
    if 'a' <= ch <= 'z' then (ch as int - 32) as char else ch
  }

  /** `s.ToUpper()`: every character upper-cased. */
  function ToUpper(s: string): (u: string)
    ensures |u| == |s|
    ensures forall i :: 0 <= i < |s| ==> u[i] == ToUpperChar(s[i])
  {
    seq(|s|, i requires 0 <= i < |s| => ToUpperChar(s[i]))
  }

  lemma UpperCharIdempotent(ch: char)
    ensures ToUpperChar(ToUpperChar(ch)) == ToUpperChar(ch)
  {
  }
}

=== FILE: util.dfy ===
/** The pure helpers of `June.Util` (Assets/June/_Core/Util.cs): the median of an `int[]`,
    title-casing, dictionary-to-text serialisation, Unix timestamps over
    `DateTime` ticks, the generic-dictionary conversion and the numeric-type
    test. */
module Util {
  import opened Wrappers
  import opened Strings
  import Linq
  import Lists
  import Sorting

  // ---------------------------------------------------------------------
  // C# integer arithmetic

  /** C# integer division, which truncates toward zero. */
  function TruncDiv(a: int, b: int): (q: int)
    requires b > 0
    ensures a >= 0 ==> q == a / b
    ensures q * b == a - TruncRem(a, b)
    ensures -b < TruncRem(a, b) < b
    ensures a >= 0 ==> TruncRem(a, b) >= 0
    ensures a <= 0 ==> TruncRem(a, b) <= 0
  {
    if a >= 0 then a / b else -((-a) / b)
  }

  /** The C# `%` matching `TruncDiv`: takes the sign of the dividend. */
  function TruncRem(a: int, b: int): int
    requires b > 0
  {
    if a >= 0 then a % b else -((-a) % b)
  }

  // ---------------------------------------------------------------------
  // Median

  ghost predicate Ascending(s: seq<int>) {
    forall i, j :: 0 <= i < j < |s| ==> s[i] <= s[j]
  }

  function IntLe(a: Int32, b: Int32): bool {
    a <= b
  }

  lemma IntLeIsTotalPreorder()
    ensures Sorting.TotalPreorder(IntLe)
  {
  }

  /** `Array.Sort` on an `int[]` with the default comparer. */
  function SortInts(s: seq<Int32>): (r: seq<Int32>)
    ensures multiset(r) == multiset(s)
    ensures Ascending(r)
  {
    IntLeIsTotalPreorder();
    var r := Sorting.Sort(s, IntLe);
    assert Sorting.SortedBy(r, IntLe);
    r
  }

  /** The first element of an ascending sequence is its least. */
  lemma HeadIsLeast(s: seq<int>, x: int)
    requires Ascending(s) && x in multiset(s)
    ensures s[0] <= x
  {
    var i :| 0 <= i < |s| && s[i] == x;
  }

  lemma AscendingTail(s: seq<int>)
    requires |s| > 0 && Ascending(s)
    ensures Ascending(s[1..])
  {
  }

  lemma TailMultiset(s: seq<int>)
    requires |s| > 0
    ensures multiset(s[1..]) == multiset(s) - multiset{s[0]}
  {
    assert s == [s[0]] + s[1..];
  }

  /** Two ascending sequences with the same elements are equal, so the sorted
      array does not depend on how the .NET sort permutes equal keys. */
  lemma {:induction false} AscendingUnique(a: seq<int>, b: seq<int>)
    requires Ascending(a) && Ascending(b) && multiset(a) == multiset(b)
    ensures a == b
    decreases |a|
  {
    assert |a| == |multiset(a)| == |multiset(b)| == |b|;
    if |a| > 0 {
      var x, y := a[0], b[0];
      assert x in multiset(a) && y in multiset(b);
      HeadIsLeast(a, y);
      HeadIsLeast(b, x);
      assert x == y;
      TailMultiset(a);
      TailMultiset(b);
      AscendingTail(a);
      AscendingTail(b);
      AscendingUnique(a[1..], b[1..]);
      assert a == [x] + a[1..];
      assert b == [y] + b[1..];
    }
  }

  /** The value the method reads off the sorted array, as written: the
      middle element for an odd length, and for an even one the truncated
      average of the two middle elements, whose sum is an unchecked `int`
      addition. */
  function MiddleAsWritten(sorted: seq<Int32>): (m: Int32)
    requires |sorted| > 0
    ensures |sorted| % 2 == 1 ==> m == sorted[|sorted| / 2]
    ensures |sorted| % 2 == 0 ==>
              m == TruncDiv(Wrap32(sorted[|sorted| / 2 - 1] as int + sorted[|sorted| / 2] as int), 2)
  {
    var mid := |sorted| / 2;
    if |sorted| % 2 == 0 then TruncDiv(Wrap32(sorted[mid - 1] as int + sorted[mid] as int), 2)
    else sorted[mid]
  }

  /** `Median(int[])`, as written: the array is sorted in place and the
      middle value read off. A null array fails in the sort; an empty one
      is of even length and fails at the index `-1`. The result carries the
      sorted array, which the caller observes. */
  function MedianAsWritten(list: Option<seq<Int32>>): (r: Result<(seq<Int32>, Int32)>)
    ensures list.None? ==> r == Fail(ArgumentNull)
    ensures list.Some? && |list.value| == 0 ==> r == Fail(IndexOutOfRange)
    ensures list.Some? && |list.value| > 0 ==>
              r.Ok? && multiset(r.value.0) == multiset(list.value) && Ascending(r.value.0)
              && r.value.1 == MiddleAsWritten(r.value.0)
  {
    match list
    case None => Fail(ArgumentNull)
    case Some(s) =>
      var sorted := SortInts(s);
      if |sorted| == 0 then Fail(IndexOutOfRange)
      else Ok((sorted, MiddleAsWritten(sorted)))
  }

  /** The unchecked addition overflows: the median of two copies of
      `int.MaxValue` comes out as -1 instead of `int.MaxValue`. */
  lemma MedianAsWrittenOverflows()
    ensures MedianAsWritten(Some([INT32_MAX, INT32_MAX])) == Ok(([INT32_MAX, INT32_MAX], -1))
  {
    var s: seq<Int32> := [INT32_MAX, INT32_MAX];
    AscendingUnique(SortInts(s), s);
    var sum := INT32_MAX as int + INT32_MAX as int;
    assert Wrap32(sum) == -2 by {
      assert (sum - INT32_MIN) % 0x1_0000_0000 == 0x7FFF_FFFE;
    }
    assert TruncDiv(-2, 2) == -1;
    assert MiddleAsWritten(s) == TruncDiv(Wrap32(sum), 2);
  }

  /** The middle value with the average taken without overflow. */
  function Middle(sorted: seq<Int32>): (m: Int32)
    requires |sorted| > 0
    ensures Ascending(sorted) ==> sorted[(|sorted| - 1) / 2] <= m <= sorted[|sorted| / 2]
  {
    var mid := |sorted| / 2;
    if |sorted| % 2 == 0 then
      var lo, hi := sorted[mid - 1], sorted[mid];
      AverageBetween(lo, hi);
      if lo <= hi then TruncDiv(lo as int + hi as int, 2) else lo
    else sorted[mid]
  }

  /** The truncated average of two integers lies between them. */
  lemma AverageBetween(a: int, b: int)
    ensures a <= b ==> a <= TruncDiv(a + b, 2) <= b
  {
  }

  /** Median with the average taken without overflow. */
  function Median(list: Option<seq<Int32>>): (r: Result<(seq<Int32>, Int32)>)
    ensures list.None? ==> r == Fail(ArgumentNull)
    ensures list.Some? && |list.value| == 0 ==> r == Fail(IndexOutOfRange)
    ensures list.Some? && |list.value| > 0 ==>
              r.Ok? && multiset(r.value.0) == multiset(list.value) && Ascending(r.value.0)
              && r.value.1 == Middle(r.value.0)
  {
    match list
    case None => Fail(ArgumentNull)
    case Some(s) =>
      var sorted := SortInts(s);
      if |sorted| == 0 then Fail(IndexOutOfRange)
      else Ok((sorted, Middle(sorted)))
  }

  /** The middle value of an ascending sequence has at least half of the
      elements on each side of it. */
  lemma MiddleSplits(sorted: seq<Int32>)
    requires |sorted| > 0 && Ascending(sorted)
    ensures forall i :: 0 <= i <= (|sorted| - 1) / 2 ==> sorted[i] <= Middle(sorted)
    ensures forall i :: |sorted| / 2 <= i < |sorted| ==> Middle(sorted) <= sorted[i]
  {
    var m := Middle(sorted);
    forall i | 0 <= i <= (|sorted| - 1) / 2 ensures sorted[i] <= m {
      assert sorted[i] <= sorted[(|sorted| - 1) / 2];
    }
    forall i | |sorted| / 2 <= i < |sorted| ensures m <= sorted[i] {
      assert sorted[|sorted| / 2] <= sorted[i];
    }
  }

  /** The median lies between the two middle elements of the sorted input
      (they coincide for an odd length), and at least half of the elements
      are on each side of it. */
  lemma MedianIsMiddle(s: seq<Int32>)
    requires |s| > 0
    ensures var r := Median(Some(s));
            var sorted := r.value.0;
            var lo := sorted[(|s| - 1) / 2];
            var hi := sorted[|s| / 2];
            lo <= r.value.1 <= hi
            && (forall i :: 0 <= i <= (|s| - 1) / 2 ==> sorted[i] <= r.value.1)
            && (forall i :: |s| / 2 <= i < |s| ==> r.value.1 <= sorted[i])
  {
    var r := Median(Some(s));
    var sorted := r.value.0;
    assert |sorted| == |multiset(sorted)| == |multiset(s)| == |s|;
    MiddleSplits(sorted);
  }

  /** The median depends only on the multiset of input values. */
  lemma MedianPermutationInvariant(a: seq<Int32>, b: seq<Int32>)
    requires multiset(a) == multiset(b)
    ensures Median(Some(a)) == Median(Some(b))
  {
    var sa, sb := SortInts(a), SortInts(b);
    AscendingUnique(sa, sb);
    assert |a| == |multiset(a)| == |multiset(b)| == |b|;
  }

  // ---------------------------------------------------------------------
  // Title case

  /** `ToTitleCase`: null stays null; a word longer than one character gets
      its first character upper-cased, a shorter one is upper-cased whole. */
  function ToTitleCase(word: Option<string>): (r: Option<string>)
    ensures r.None? <==> word.None?
    ensures r.Some? ==> |r.value| == |word.value|
    ensures r.Some? && |r.value| > 0 ==> r.value[0] == ToUpperChar(word.value[0])
    ensures r.Some? ==> forall i :: 1 <= i < |r.value| ==> r.value[i] == word.value[i]
  {
    match word
    case None => None
    case Some(w) =>
      if |w| > 1 then Some([ToUpperChar(w[0])] + w[1..]) else Some(ToUpper(w))
  }

  /** Title-casing a title-cased word changes nothing. */
  lemma TitleCaseIdempotent(word: Option<string>)
    ensures ToTitleCase(ToTitleCase(word)) == ToTitleCase(word)
  {
    if word.Some? && |word.value| > 0 {
      UpperCharIdempotent(word.value[0]);
      var once := ToTitleCase(word).value;
      assert ToTitleCase(Some(once)).value == once;
    }
  }

  // ---------------------------------------------------------------------
  // Dictionary<string, string> as text

  function PairText(pair: (string, string)): string {
    pair.0 + ":" + pair.1
  }

  /** The builder contents after the loop: `k:v,` for every pair in
      enumeration order. */
  function AppendPairs(pairs: seq<(string, string)>): (text: string)
    ensures |pairs| > 0 ==> |text| > 0 && text[|text| - 1] == ','
    ensures |pairs| == 0 ==> text == ""
  {
    if |pairs| == 0 then ""
    else AppendPairs(pairs[..|pairs| - 1]) + PairText(pairs[|pairs| - 1]) + ","
  }

  /** `ConvertToString`: the pairs as `k:v` joined by `,` in enumeration
      order; the `foreach` throws on a null dictionary and the final
      `Remove` fails on an empty one. */
  function ConvertToString(d: Option<seq<(string, string)>>): (r: Result<string>)
    ensures d.None? ==> r == Fail(NullReference)
    ensures d.Some? ==> (r.Fail? <==> |d.value| == 0)
    ensures d.Some? && r.Fail? ==> r.error == ArgumentOutOfRange
  {
    if d.None? then Fail(NullReference)
    else
      var text := AppendPairs(d.value);
      if |text| == 0 then Fail(ArgumentOutOfRange) else Ok(text[..|text| - 1])
  }

  /** The builder contents are the joined pair texts with one trailing comma. */
  lemma {:induction false} AppendPairsIsJoin(pairs: seq<(string, string)>)
    requires |pairs| > 0
    ensures AppendPairs(pairs) == Join(Linq.Select(pairs, PairText), ',') + ","
    decreases |pairs|
  {
    var n := |pairs|;
    if n > 1 {
      var init := pairs[..n - 1];
      AppendPairsIsJoin(init);
      Linq.SelectSnoc(pairs, PairText);
      JoinSnoc(Linq.Select(init, PairText), PairText(pairs[n - 1]), ',');
    }
  }

  /** Joining one more piece adds a separator and the piece at the end. */
  lemma {:induction false} JoinSnoc(parts: seq<string>, last: string, c: char)
    requires |parts| >= 1
    ensures Join(parts + [last], c) == Join(parts, c) + [c] + last
    decreases |parts|
  {
    if |parts| > 1 {
      assert (parts + [last])[1..] == parts[1..] + [last];
      JoinSnoc(parts[1..], last, c);
    } else {
      assert (parts + [last])[1..] == [last];
    }
  }

  /** `ConvertToString` joins the `k:v` texts with commas. */
  lemma ConvertToStringJoins(pairs: seq<(string, string)>)
    requires |pairs| > 0
    ensures ConvertToString(Some(pairs)) == Ok(Join(Linq.Select(pairs, PairText), ','))
  {
    AppendPairsIsJoin(pairs);
    var j := Join(Linq.Select(pairs, PairText), ',');
    assert (j + ",")[..|j|] == j;
  }

  /** The text before and after the first `c` of `s`; all of `s` and the
      empty text when `c` does not occur. */
  function SplitFirst(s: string, c: char): (r: (string, string))
    ensures c !in s ==> r == (s, "")
    ensures c in s ==> r.0 + [c] + r.1 == s && c !in r.0
  {
    var k := Lists.IndexOfValue(s, c);
    if k < 0 then (s, "")
    else
      assert s[..k] + [c] + s[k + 1..] == s;
      (s[..k], s[k + 1..])
  }

  function ParsePair(piece: string): (string, string) {
    SplitFirst(piece, ':')
  }

  /** Reads the output of `ConvertToString` back into its pairs. */
  function ParsePairs(text: string): seq<(string, string)> {
    Linq.Select(Split(text, ','), ParsePair)
  }

  /** Pairs whose texts survive the round trip: no comma anywhere and no
      colon in a key. */
  predicate Serialisable(pairs: seq<(string, string)>) {
    forall i :: 0 <= i < |pairs| ==> ',' !in pairs[i].0 && ',' !in pairs[i].1 && ':' !in pairs[i].0
  }

  /** Reading back the text of a non-empty dictionary gives its pairs, in
      enumeration order. */
  lemma ConvertToStringRoundTrip(pairs: seq<(string, string)>)
    requires |pairs| > 0 && Serialisable(pairs)
    ensures ConvertToString(Some(pairs)).Ok? && ParsePairs(ConvertToString(Some(pairs)).value) == pairs
  {
    ConvertToStringJoins(pairs);
    var texts := Linq.Select(pairs, PairText);
    assert forall i :: 0 <= i < |texts| ==> ',' !in texts[i] by {
      forall i | 0 <= i < |texts| ensures ',' !in texts[i] {
        assert texts[i] == pairs[i].0 + ":" + pairs[i].1;
      }
    }
    SplitJoin(texts, ',');
    var back := Linq.Select(texts, ParsePair);
    forall i | 0 <= i < |pairs| ensures back[i] == pairs[i] {
      ParsePairText(pairs[i]);
    }
  }

  /** The text of one pair reads back as the pair when the key holds no
      colon. */
  lemma ParsePairText(pair: (string, string))
    requires ':' !in pair.0
    ensures ParsePair(PairText(pair)) == pair
  {
    var (k, v) := pair;
    var t := k + [':'] + v;
    assert PairText(pair) == t;
    assert t[|k|] == ':';
    var f := SplitFirst(t, ':');
    assert f.0 + [':'] + f.1 == t;
    assert |f.0| == |k|;
    assert f.0 == t[..|k|] == k;
    assert f.1 == t[|k| + 1..] == v;
  }

  // ---------------------------------------------------------------------
  // Unix timestamps

  /** Ticks of 100 ns from 0001-01-01 to 1970-01-01. */
  const UNIX_EPOCH_TICKS: int := 621_355_968_000_000_000
  const TICKS_PER_SECOND: int := 10_000_000
  /** `DateTime.MaxValue.Ticks`. */
  const MAX_TICKS: int := 3_155_378_975_999_999_999
  /** The bound on milliseconds that `DateTime.Add` accepts. */
  const MAX_MILLIS: int := 315_537_897_600_000

  /** The tick count of a `DateTime`. */
  type Ticks = t: int | 0 <= t <= MAX_TICKS

  /** `ToUnixTimestamp`: whole seconds since the epoch, truncated toward
      zero, so instants before 1970 round up. */
  function ToUnixTimestamp(ticks: Ticks): (seconds: Int64)
    ensures ticks >= UNIX_EPOCH_TICKS ==>
              UNIX_EPOCH_TICKS + seconds * TICKS_PER_SECOND <= ticks < UNIX_EPOCH_TICKS + (seconds + 1) * TICKS_PER_SECOND
    ensures ticks < UNIX_EPOCH_TICKS ==>
              UNIX_EPOCH_TICKS + (seconds - 1) * TICKS_PER_SECOND < ticks <= UNIX_EPOCH_TICKS + seconds * TICKS_PER_SECOND
  {
    TruncDiv(ticks - UNIX_EPOCH_TICKS, TICKS_PER_SECOND)
  }

  /** `FromUnixTimestamp`: `AddSeconds` converts to whole milliseconds,
      rejects a span beyond `MAX_MILLIS`, then rejects a tick count outside
      the `DateTime` range. */
  function FromUnixTimestamp(seconds: Int64): (r: Result<Ticks>)
    ensures r.Ok? <==> -62_135_596_800 <= seconds <= 253_402_300_799
    ensures r.Fail? ==> r.error == ArgumentOutOfRange
    ensures r.Ok? ==> r.value == UNIX_EPOCH_TICKS + seconds * TICKS_PER_SECOND
  {
    var millis := seconds * 1000;
    if millis <= -MAX_MILLIS || millis >= MAX_MILLIS then Fail(ArgumentOutOfRange)
    else
      var ticks := UNIX_EPOCH_TICKS + millis * 10_000;
      if ticks < 0 || ticks > MAX_TICKS then Fail(ArgumentOutOfRange) else Ok(ticks)
  }

  /** A whole-second timestamp in the date range survives the round trip. */
  lemma UnixRoundTrip(seconds: Int64)
    requires FromUnixTimestamp(seconds).Ok?
    ensures ToUnixTimestamp(FromUnixTimestamp(seconds).value) == seconds
  {
  }

  /** Going through a timestamp truncates an instant to the whole second
      nearest the epoch. */
  lemma UnixTruncates(ticks: Ticks)
    ensures FromUnixTimestamp(ToUnixTimestamp(ticks)).Ok?
    ensures var back := FromUnixTimestamp(ToUnixTimestamp(ticks)).value;
            (ticks >= UNIX_EPOCH_TICKS ==> UNIX_EPOCH_TICKS <= back <= ticks < back + TICKS_PER_SECOND)
            && (ticks < UNIX_EPOCH_TICKS ==> ticks <= back <= UNIX_EPOCH_TICKS && back < ticks + TICKS_PER_SECOND)
  {
  }

  // ---------------------------------------------------------------------
  // ConvertToGenericDictionary

  /** An `IDictionary` as its entries in enumeration order; keys are taken
      by their `ToString()` text and are distinct. */
  predicate DistinctKeys<V>(entries: seq<(string, V)>) {
    forall i, j :: 0 <= i < j < |entries| ==> entries[i].0 != entries[j].0
  }

  function Keys<V>(entries: seq<(string, V)>): seq<string> {
    Linq.Select(entries, (e: (string, V)) => e.0)
  }

  /** The loop of `ConvertToGenericDictionary` over `obj`'s entries from
      position `k`, with `obj.Contains` asked of the whole dictionary. */
  function ConvertLoopAsWritten<V>(obj: seq<(string, V)>, k: nat, result: map<string, V>): map<string, V>
    requires k <= |obj|
    decreases |obj| - k
  {
    if k == |obj| then result
    else
      var (key, value) := obj[k];
      var contains := Lists.IndexOfValue(Keys(obj), key) >= 0;
      var result' := if !contains then result[key := value] else result;
      ConvertLoopAsWritten(obj, k + 1, result')
  }

  /** `ConvertToGenericDictionary` as written: its guard asks whether `obj`
      lacks a key that was just read from `obj`, which never holds, so the
      result is always empty. */
  function ConvertToGenericDictionaryAsWritten<V>(obj: Option<seq<(string, V)>>): (r: Result<map<string, V>>)
    ensures obj.None? ==> r == Fail(NullReference)
    ensures obj.Some? ==> r == Ok(map[])
  {
    if obj.None? then Fail(NullReference)
    else
      AsWrittenAddsNothing(obj.value, 0);
      Ok(ConvertLoopAsWritten(obj.value, 0, map[]))
  }

  lemma {:induction false} AsWrittenAddsNothing<V>(obj: seq<(string, V)>, k: nat)
    requires k <= |obj|
    ensures ConvertLoopAsWritten(obj, k, map[]) == map[]
    decreases |obj| - k
  {
    if k < |obj| {
      assert Keys(obj)[k] == obj[k].0;
      AsWrittenAddsNothing(obj, k + 1);
    }
  }

  /** The as-written conversion loses a present entry. */
  lemma ConvertToGenericDictionaryLosesEntries()
    ensures ConvertToGenericDictionaryAsWritten(Some([("a", 1)])).Ok?
    ensures "a" !in ConvertToGenericDictionaryAsWritten(Some([("a", 1)])).value
  {
  }

  /** The loop with the guard the method evidently means: add a key unless
      the result already holds it, which also keeps `Add` from throwing on a
      repeated key text. */
  function ConvertLoop<V>(obj: seq<(string, V)>, k: nat, result: map<string, V>): map<string, V>
    requires k <= |obj|
    decreases |obj| - k
  {
    if k == |obj| then result
    else
      var (key, value) := obj[k];
      var result' := if key !in result then result[key := value] else result;
      ConvertLoop(obj, k + 1, result')
  }

  /** `ConvertToGenericDictionary` with the corrected guard: the result holds
      exactly the dictionary's entries. */
  function ConvertToGenericDictionary<V>(obj: Option<seq<(string, V)>>): (r: Result<map<string, V>>)
    requires obj.Some? ==> DistinctKeys(obj.value)
    ensures obj.None? ==> r == Fail(NullReference)
    ensures obj.Some? ==> r.Ok?
    ensures obj.Some? ==> forall i :: 0 <= i < |obj.value| ==>
              obj.value[i].0 in r.value && r.value[obj.value[i].0] == obj.value[i].1
    ensures obj.Some? ==> forall key :: key in r.value ==>
              exists i :: 0 <= i < |obj.value| && obj.value[i].0 == key
  {
    if obj.None? then Fail(NullReference)
    else
      ConvertLoopKeeps(obj.value, 0, map[]);
      Ok(ConvertLoop(obj.value, 0, map[]))
  }

  /** Loop invariant of the corrected conversion: the entries from `k` on
      are added to whatever `result` held, and nothing else is. */
  lemma {:induction false} ConvertLoopKeeps<V>(obj: seq<(string, V)>, k: nat, result: map<string, V>)
    requires k <= |obj| && DistinctKeys(obj)
    requires forall i :: k <= i < |obj| ==> obj[i].0 !in result
    ensures var r := ConvertLoop(obj, k, result);
            (forall key :: key in result ==> key in r && r[key] == result[key])
            && (forall i :: k <= i < |obj| ==> obj[i].0 in r && r[obj[i].0] == obj[i].1)
            && (forall key :: key in r ==> key in result || exists i :: k <= i < |obj| && obj[i].0 == key)
    decreases |obj| - k
  {
    if k < |obj| {
      var (key, value) := obj[k];
      var result' := result[key := value];
      ConvertLoopKeeps(obj, k + 1, result');
    }
  }

  // ---------------------------------------------------------------------
  // IsNumber

  /** The runtime type of a boxed value, for the types `IsNumber` tells
      apart. */
  datatype ClrType =
    | SByte | Byte | Short | UShort | Int | UInt | Long | ULong
    | Float | Double | Decimal
    | Bool | Char | String | Other

  /** The eleven numeric types of .NET. */
  const NUMERIC_TYPES: set<ClrType> :=
    {SByte, Byte, Short, UShort, Int, UInt, Long, ULong, Float, Double, Decimal}

  /** `IsNumber`: false for null, otherwise a chain of type tests. */
  function IsNumber(obj: Option<ClrType>): (r: bool)
    ensures r <==> obj.Some? && obj.value in NUMERIC_TYPES
  {
    match obj
    case None => false
    case Some(t) =>
      match t
      case SByte => true
      case Byte => true
      case Short => true
      case UShort => true
      case Int => true
      case UInt => true
      case Long => true
      case ULong => true
      case Float => true
      case Double => true
      case Decimal => true
      case _ => false
  }
}

=== FILE: validator.dfy ===
/** `JuneBuildValidator` (_Core/Editor/JuneBuildProvider/JuneBuildValidator.cs):
    validation methods tagged for build targets, selected for the active
    target, sorted so the runnable ones come first, and run in order until
    the first failure.

    Reflection is abstracted: a method is its declaring type's name, its
    own name, the type names of its parameters and of its result, and the
    boolean it returns when invoked. */
module Validator {
  import opened Wrappers
  import Linq
  import Sorting

  // ---------------------------------------------------------------------
  // Build targets

  /** `JuneBuildTargets`, a `[Flags]` enum over `int`. */
  type Targets = bv32

  const IPhone: Targets := 1 << 0
  const Android: Targets := 1 << 1
  const Amazon: Targets := 1 << 2
  const AndroidAmazon: Targets := Android | Amazon
  const All: Targets := IPhone | Android | Amazon

  /** The flag values the enum declares. */
  lemma FlagValues()
    ensures IPhone == 1 && Android == 2 && Amazon == 4
    ensures AndroidAmazon == 6 && All == 7
  {
  }

  /** The editor's active build target, as far as the validator looks. */
  datatype UnityTarget = AndroidTarget | IOSTarget | OtherTarget(name: string)

  /** `BuildTargets`: Android and iOS map to their flag; any other target to
      `All`. */
  function BuildTargets(active: UnityTarget): (t: Targets)
    ensures active == AndroidTarget ==> t == Android
    ensures active == IOSTarget ==> t == IPhone
    ensures active.OtherTarget? ==> t == All
    ensures t & All == t && t != 0
  {
    match active
    case AndroidTarget => Android
    case IOSTarget => IPhone
    case OtherTarget(_) => All
  }

  // ---------------------------------------------------------------------
  // Validation items

  /** `JuneBuildValidationAttribute(enabled, targets)`. */
  datatype Attribute = Attribute(enable: bool, targets: Targets)

  /** The parameterless attribute constructor: enabled, for every target. */
  function DefaultAttribute(): (a: Attribute)
    ensures a.enable && a.targets == All
  {
    Attribute(true, All)
  }

  /** A method as reflection shows it, with the outcome of invoking it. */
  datatype Method = Method(
    declaringType: string,
    name: string,
    parameterTypes: seq<string>,
    returnType: string,
    attribute: Option<Attribute>,
    result: bool)

  /** `JuneBuildValidationItem`. */
  datatype Item = Item(info: Option<Method>, status: bool, isValidating: bool)

  /** The constructor: `Status` starts false. */
  function NewItem(m: Option<Method>): (it: Item)
    ensures it.info == m && !it.status && !it.isValidating
  {
    Item(m, false, false)
  }

  /** `Name`: `Type.Method`, or "UNKNOWN" without a method. */
  function Name(it: Item): (s: string)
    ensures it.info.None? ==> s == "UNKNOWN"
    ensures it.info.Some? ==> s == it.info.value.declaringType + "." + it.info.value.name
  {
    match it.info
    case None => "UNKNOWN"
    case Some(m) => m.declaringType + "." + m.name
  }

  function AttributeOf(it: Item): Option<Attribute> {
    if it.info.Some? then it.info.value.attribute else None
  }

  /** `Enabled`: the attribute's flag, true without an attribute. */
  function Enabled(it: Item): (b: bool)
    ensures AttributeOf(it).None? ==> b
    ensures AttributeOf(it).Some? ==> b == AttributeOf(it).value.enable
  {
    match AttributeOf(it)
    case None => true
    case Some(a) => a.enable
  }

  /** `Targets`: the attribute's targets, `All` without an attribute. */
  function ItemTargets(it: Item): (t: Targets)
    ensures AttributeOf(it).None? ==> t == All
    ensures AttributeOf(it).Some? ==> t == AttributeOf(it).value.targets
  {
    match AttributeOf(it)
    case None => All
    case Some(a) => a.targets
  }

  /** `(Targets & BuildTargets) > 0`, a signed comparison of the enum's
      `int` values. */
  function ValidBuildTarget(it: Item, current: Targets): bool {
    var both := ItemTargets(it) & current;
    both != 0 && both < 0x8000_0000
  }

  /** `CanValidate = Enabled && ValidBuildTarget`. */
  function CanValidate(it: Item, current: Targets): bool {
    Enabled(it) && ValidBuildTarget(it, current)
  }

  /** For any target the validator computes, an item can validate exactly
      when it is enabled and shares a flag with the target; an item with
      no attribute always can. */
  lemma CanValidateMeans(it: Item, active: UnityTarget)
    ensures CanValidate(it, BuildTargets(active)) <==>
            Enabled(it) && ItemTargets(it) & BuildTargets(active) != 0
    ensures AttributeOf(it).None? ==> CanValidate(it, BuildTargets(active))
  {
    var t := BuildTargets(active);
    assert t == 1 || t == 2 || t == 7;
  }

  /** The status an item has after `Validate`: the method's result when it
      runs, otherwise the status it had. */
  function Outcome(it: Item, current: Targets): bool {
    if it.info.Some? && CanValidate(it, current) then it.info.value.result else it.status
  }

  /** `ValidationDelegateParameters`: the asset path and the validation
      assembly. */
  const DelegateArgumentCount := 2

  /** `Method.Invoke` with the delegate's two arguments throws
      `TargetParameterCountException` when the method takes another number
      of parameters. */
  predicate Throws(it: Item, current: Targets) {
    it.info.Some? && CanValidate(it, current)
    && |it.info.value.parameterTypes| != DelegateArgumentCount
  }

  /** `JuneBuildValidationItem.Validate`: invokes the method only when there
      is one and the item can validate; `IsValidating` is false afterwards.
      An invocation that throws leaves the item validating with its old
      status. */
  function ValidateItem(it: Item, current: Targets): (r: (Item, Result<bool>))
    ensures r.0.info == it.info
    ensures r.1.Fail? <==> Throws(it, current)
    ensures r.1.Fail? ==> r.1.error == TargetParameterCount && r.0 == it.(isValidating := true)
    ensures r.1.Ok? ==> !r.0.isValidating && r.1.value == r.0.status
    ensures !(it.info.Some? && CanValidate(it, current)) ==> r.0.status == it.status
    ensures r.1.Ok? && it.info.Some? && CanValidate(it, current) ==> r.0.status == it.info.value.result
  {
    var invoke := it.info.Some? && CanValidate(it, current);
    var running := it.(isValidating := true);
    if invoke && |it.info.value.parameterTypes| != DelegateArgumentCount then
      (running, Fail(TargetParameterCount))
    else
      var ran := if invoke then running.(status := it.info.value.result) else running;
      var finished := ran.(isValidating := false);
      (finished, Ok(finished.status))
  }

  // ---------------------------------------------------------------------
  // The validation loop

  /** What the loop does to one item it reaches: validate it if it can. */
  function Visit(it: Item, current: Targets): Item {
    if CanValidate(it, current) then ValidateItem(it, current).0 else it
  }

  /** An item at which the loop stops: it can validate, and it throws or
      fails. */
  predicate Stops(it: Item, current: Targets) {
    CanValidate(it, current) && (Throws(it, current) || !Outcome(it, current))
  }

  /** The first item that can validate and throws or fails, or -1. */
  function FirstFailure(items: seq<Item>, current: Targets): (k: int)
    ensures -1 <= k < |items|
    ensures k >= 0 ==> CanValidate(items[k], current) && (Throws(items[k], current) || !Outcome(items[k], current))
    ensures forall i :: 0 <= i < |items| && (k == -1 || i < k) ==>
              !(CanValidate(items[i], current) && (Throws(items[i], current) || !Outcome(items[i], current)))
  {
    Linq.FirstIndex(items, (it: Item) => Stops(it, current))
  }

  /** `Validate`: visits the items in order, skipping those that cannot
      validate; it returns false at the first failure without running the
      later items, throws at the first invocation that throws, and returns
      true when none fails. */
  method Validate(items: seq<Item>, current: Targets) returns (r: seq<Item>, ok: Result<bool>)
    ensures ok == Ok(true) <==>
              forall i :: 0 <= i < |items| && CanValidate(items[i], current) ==>
                !Throws(items[i], current) && Outcome(items[i], current)
    ensures ok == Ok(true) <==> FirstFailure(items, current) == -1
    ensures ok == Ok(false) <==>
              FirstFailure(items, current) >= 0 && !Throws(items[FirstFailure(items, current)], current)
    ensures ok.Fail? <==>
              FirstFailure(items, current) >= 0 && Throws(items[FirstFailure(items, current)], current)
    ensures ok.Fail? ==> ok.error == TargetParameterCount
    ensures |r| == |items|
    ensures forall i :: 0 <= i < |items| ==>
              r[i] == (if ok == Ok(true) || i <= FirstFailure(items, current) then Visit(items[i], current) else items[i])
    ensures ok == Ok(true) ==> ValidationsPassed(r) >= ValidationsEnabled(items, current)
  {
    ghost var stop := FirstFailure(items, current);
    r := items;
    var i := 0;
    while i < |items|
      invariant 0 <= i <= |items|
      invariant stop == -1 || i <= stop
      invariant |r| == |items|
      invariant forall k :: 0 <= k < i ==> r[k] == Visit(items[k], current)
      invariant forall k :: i <= k < |items| ==> r[k] == items[k]
    {
      if CanValidate(items[i], current) {
        var (it, status) := ValidateItem(items[i], current);
        r := r[i := it];
        if status.Fail? {
          assert stop == i;
          ok := Fail(status.error);
          return;
        }
        if !status.value {
          assert stop == i;
          ok := Ok(false);
          return;
        }
      }
      i := i + 1;
    }
    ok := Ok(true);
    PassedCoversEnabled(items, r, current);
  }

  // ---------------------------------------------------------------------
  // Selection, order and counts

  /** The comparison `b.CanValidate.CompareTo(a.CanValidate)`: `a` may
      precede `b` when `a` can validate or `b` cannot. */
  function RunnableFirst(current: Targets): (le: (Item, Item) -> bool)
    ensures forall a, b :: le(a, b) == (CanValidate(a, current) || !CanValidate(b, current))
  {
    (a: Item, b: Item) => CanValidate(a, current) || !CanValidate(b, current)
  }

  lemma RunnableFirstIsTotalPreorder(current: Targets)
    ensures Sorting.TotalPreorder(RunnableFirst(current))
  {
  }

  /** The sorted `ValidationItems`: the same items, every one that can
      validate before every one that cannot. */
  function SortItems(items: seq<Item>, current: Targets): (r: seq<Item>)
    ensures multiset(r) == multiset(items)
    ensures forall i, j :: 0 <= i < j < |r| && CanValidate(r[j], current) ==> CanValidate(r[i], current)
  {
    RunnableFirstIsTotalPreorder(current);
    var r := Sorting.Sort(items, RunnableFirst(current));
    assert Sorting.SortedBy(r, RunnableFirst(current));
    r
  }

  /** `VerifyMethodSignature` compares with the `Validator` delegate's
      `Invoke`: `bool (string, Assembly)`. */
  const ValidatorInvoke := Method("Validator", "Invoke", ["String", "Assembly"], "Boolean", None, false)

  /** `VerifyMethodSignature`: `CompareMethodSignature`, as written,
      against `Validator.Invoke`. */
  predicate VerifyMethodSignature(m: Method) {
    CompareMethodSignatureAsWritten(Some(ValidatorInvoke), Some(m))
  }

  /** The same check with the comparison the method evidently means. */
  predicate VerifyMethodSignatureCorrected(m: Method) {
    CompareMethodSignature(Some(ValidatorInvoke), Some(m))
  }

  /** The tagged methods that pass `accept`, each wrapped in a new item, in
      the order reflection listed them. */
  function DiscoverWith(tagged: seq<Method>, accept: Method -> bool): (r: seq<Item>)
    ensures |r| <= |tagged|
    ensures forall i :: 0 <= i < |r| ==>
              r[i].info.Some? && !r[i].status && !r[i].isValidating
              && r[i].info.value in tagged && accept(r[i].info.value)
    ensures forall m :: m in tagged && accept(m) ==> NewItem(Some(m)) in r
  {
    var kept := Linq.Filter(tagged, accept);
    var r := seq(|kept|, i requires 0 <= i < |kept| => NewItem(Some(kept[i])));
    assert forall m :: m in tagged && accept(m) ==> NewItem(Some(m)) in r by {
      forall m | m in tagged && accept(m) ensures NewItem(Some(m)) in r {
        assert m in kept;
        var i :| 0 <= i < |kept| && kept[i] == m;
        assert r[i] == NewItem(Some(m));
      }
    }
    r
  }

  /** Discovery goes method by method: over two runs of methods it is the
      discovery over the first followed by that over the second. */
  lemma DiscoverAppend(a: seq<Method>, b: seq<Method>, accept: Method -> bool)
    ensures DiscoverWith(a + b, accept) == DiscoverWith(a, accept) + DiscoverWith(b, accept)
  {
    Linq.FilterAppend(a, b, accept);
  }

  /** A single method gives one new item when it passes, none otherwise. */
  lemma DiscoverOne(m: Method, accept: Method -> bool)
    ensures DiscoverWith([m], accept) == (if accept(m) then [NewItem(Some(m))] else [])
  {
    assert [m][1..] == [];
  }

  /** `GetAllJuneValidationItems`: the tagged methods (found by reflection,
      given here) that pass `VerifyMethodSignature`, as written. */
  function DiscoverItems(tagged: seq<Method>): (r: seq<Item>)
    ensures |r| <= |tagged|
    ensures forall i :: 0 <= i < |r| ==>
              r[i].info.Some? && !r[i].status && r[i].info.value in tagged
              && VerifyMethodSignature(r[i].info.value)
    ensures forall m :: m in tagged && VerifyMethodSignature(m) ==> NewItem(Some(m)) in r
  {
    DiscoverWith(tagged, VerifyMethodSignature)
  }

  /** `GetAllJuneValidationItems` with the corrected comparison. */
  function DiscoverItemsCorrected(tagged: seq<Method>): (r: seq<Item>)
    ensures forall i :: 0 <= i < |r| ==>
              r[i].info.Some? && r[i].info.value in tagged
              && r[i].info.value.parameterTypes == ["String", "Assembly"]
              && r[i].info.value.returnType == "Boolean"
    ensures forall m :: m in tagged && VerifyMethodSignatureCorrected(m) ==> NewItem(Some(m)) in r
  {
    DiscoverWith(tagged, VerifyMethodSignatureCorrected)
  }

  /** When every tagged method takes two parameters, the code as written
      and the corrected one discover the same items. */
  lemma {:induction false} DiscoverAgreesOnTwoParameters(tagged: seq<Method>)
    requires forall i :: 0 <= i < |tagged| ==> |tagged[i].parameterTypes| == 2
    ensures DiscoverItems(tagged) == DiscoverItemsCorrected(tagged)
    decreases |tagged|
  {
    if |tagged| > 0 {
      var rest := tagged[1..];
      assert tagged == [tagged[0]] + rest;
      DiscoverAgreesOnTwoParameters(rest);
      DiscoverAppend([tagged[0]], rest, VerifyMethodSignature);
      DiscoverAppend([tagged[0]], rest, VerifyMethodSignatureCorrected);
      DiscoverOne(tagged[0], VerifyMethodSignature);
      DiscoverOne(tagged[0], VerifyMethodSignatureCorrected);
      SameCountSameAnswer(ValidatorInvoke, tagged[0]);
    }
  }

  /** As written, a tagged `bool Check()` becomes a validation item, and
      `Validate` stops at it with the exception `Invoke` throws; the
      corrected discovery leaves it out. */
  lemma DiscoverKeepsWrongArity()
    ensures var m := Method("Checks", "Check", [], "Boolean", None, true);
            && DiscoverItems([m]) == [NewItem(Some(m))] && DiscoverItemsCorrected([m]) == []
            && FirstFailure(DiscoverItems([m]), All) == 0
            && Throws(DiscoverItems([m])[0], All)
            && ValidateItem(DiscoverItems([m])[0], All).1 == Fail(TargetParameterCount)
  {
    var m := Method("Checks", "Check", [], "Boolean", None, true);
    DiscoverOne(m, VerifyMethodSignature);
    DiscoverOne(m, VerifyMethodSignatureCorrected);
    AsWrittenAcceptsWrongArity();
  }

  /** The lazily built `ValidationItems`: built and sorted on first use,
      then returned as cached. */
  function ValidationItems(cache: Option<seq<Item>>, tagged: seq<Method>, current: Targets): (r: seq<Item>)
    ensures cache.Some? ==> r == cache.value
    ensures cache.None? ==> multiset(r) == multiset(DiscoverItems(tagged))
    ensures cache.None? ==>
              forall i, j :: 0 <= i < j < |r| && CanValidate(r[j], current) ==> CanValidate(r[i], current)
  {
    match cache
    case Some(items) => items
    case None => SortItems(DiscoverItems(tagged), current)
  }

  /** `ActiveValidationItems`: those that can validate, in order. */
  function ActiveItems(items: seq<Item>, current: Targets): (r: seq<Item>)
    ensures forall it :: it in r <==> it in items && CanValidate(it, current)
  {
    Linq.Filter(items, (it: Item) => CanValidate(it, current))
  }

  /** `ValidationsEnabled`: the number of positions holding an item that
      can validate, which is also the length of `ActiveValidationItems`. */
  function ValidationsEnabled(items: seq<Item>, current: Targets): (n: nat)
    ensures n <= |items|
    ensures n == |set i | 0 <= i < |items| && CanValidate(items[i], current)|
    ensures n == |ActiveItems(items, current)|
  {
    var p := (it: Item) => CanValidate(it, current);
    assert Linq.Hits(items, p) == set i | 0 <= i < |items| && CanValidate(items[i], current);
    Linq.FilterCountsHits(items, p);
    Linq.Count(Some(items), p)
  }

  /** `ValidationsPassed`: the number of positions holding an item whose
      status is true. */
  function ValidationsPassed(items: seq<Item>): (n: nat)
    ensures n <= |items|
    ensures n == |set i | 0 <= i < |items| && items[i].status|
  {
    var p := (it: Item) => it.status;
    assert Linq.Hits(items, p) == set i | 0 <= i < |items| && items[i].status;
    Linq.Count(Some(items), p)
  }

  /** After `Validate` returns true, every item that could validate has a
      true status, so at least as many validations passed as were
      enabled. */
  lemma PassedCoversEnabled(items: seq<Item>, r: seq<Item>, current: Targets)
    requires |r| == |items|
    requires forall i :: 0 <= i < |items| && CanValidate(items[i], current) ==> r[i].status
    ensures ValidationsPassed(r) >= ValidationsEnabled(items, current)
  {
    Linq.CountMonotone(items, r, (it: Item) => CanValidate(it, current), (it: Item) => it.status);
  }

  /** Enabled items are counted exactly: none when no item can validate,
      all when every item can. */
  lemma EnabledCountBounds(items: seq<Item>, current: Targets)
    ensures ValidationsEnabled(items, current) == 0 <==> forall i :: 0 <= i < |items| ==> !CanValidate(items[i], current)
    ensures ValidationsEnabled(items, current) == |items| <==> forall i :: 0 <= i < |items| ==> CanValidate(items[i], current)
  {
    Linq.CountZeroIffNotAny(items, (it: Item) => CanValidate(it, current));
    Linq.CountFullIffAll(items, (it: Item) => CanValidate(it, current));
  }

  // ---------------------------------------------------------------------
  // Signature comparison

  /** The loop over the parameter type names: the first position where two
      lists of the same length differ, or -1. */
  function FirstMismatch(p1: seq<string>, p2: seq<string>): (k: int)
    requires |p1| == |p2|
    ensures -1 <= k < |p1|
    ensures k == -1 <==> p1 == p2
    ensures k >= 0 ==> p1[k] != p2[k] && p1[..k] == p2[..k]
    decreases |p1|
  {
    if |p1| == 0 then -1
    else if p1[0] != p2[0] then 0
    else
      var k := FirstMismatch(p1[1..], p2[1..]);
      assert p1 == [p1[0]] + p1[1..] && p2 == [p2[0]] + p2[1..];
      if k == -1 then -1
      else
        assert p1[..k + 1] == [p1[0]] + p1[1..][..k];
        assert p2[..k + 1] == [p2[0]] + p2[1..][..k];
        k + 1
  }

  /** `CompareMethodSignature` as written: the parameter types are compared
      only when the counts agree, so a count mismatch is left to the return
      type alone. */
  function CompareMethodSignatureAsWritten(m1: Option<Method>, m2: Option<Method>): (b: bool)
    ensures m1.None? || m2.None? ==> !b
    ensures b <==> m1.Some? && m2.Some?
                   && (|m1.value.parameterTypes| == |m2.value.parameterTypes| ==>
                         m1.value.parameterTypes == m2.value.parameterTypes)
                   && m1.value.returnType == m2.value.returnType
  {
    if m1.None? || m2.None? then false
    else
      var p1 := m1.value.parameterTypes;
      var p2 := m2.value.parameterTypes;
      if |p1| == |p2| && FirstMismatch(p1, p2) != -1 then false
      else m1.value.returnType == m2.value.returnType
  }

  /** A method `bool Check()` passes the check against `bool (string,
      Assembly)`, although invoking it with two arguments fails. */
  lemma AsWrittenAcceptsWrongArity()
    ensures CompareMethodSignatureAsWritten(Some(ValidatorInvoke),
              Some(Method("Checks", "Check", [], "Boolean", None, true)))
    ensures !CompareMethodSignature(Some(ValidatorInvoke),
              Some(Method("Checks", "Check", [], "Boolean", None, true)))
  {
  }

  /** The comparison the method evidently means: the same return type and
      the same parameter types, count included. */
  function CompareMethodSignature(m1: Option<Method>, m2: Option<Method>): (b: bool)
    ensures b <==> m1.Some? && m2.Some?
                   && m1.value.parameterTypes == m2.value.parameterTypes
                   && m1.value.returnType == m2.value.returnType
  {
    if m1.None? || m2.None? then false
    else
      var p1 := m1.value.parameterTypes;
      var p2 := m2.value.parameterTypes;
      if |p1| != |p2| || FirstMismatch(p1, p2) != -1 then false
      else m1.value.returnType == m2.value.returnType
  }

  /** The two comparisons agree whenever the parameter counts do. */
  lemma SameCountSameAnswer(m1: Method, m2: Method)
    requires |m1.parameterTypes| == |m2.parameterTypes|
    ensures CompareMethodSignatureAsWritten(Some(m1), Some(m2)) == CompareMethodSignature(Some(m1), Some(m2))
  {
  }
}

=== FILE: wrappers.dfy ===
/** Failure-carrying wrappers shared by every module of the model.

    The C# code signals failure by throwing; the model returns a `Result`
    whose failure branch names the .NET exception the code would raise.
    `null` references are `None`. */
module Wrappers {

  /** An optional value: `None` stands for a C# `null` reference. */
  datatype Option<+T> = None | Some(value: T) {

    /** The wrapped value, or `default` when there is none. */
    function GetOr(default: T): T {
      match this
      case Some(v) => v
      case None => default
    }
  }

  /** The .NET exceptions the modelled code can raise. */
  datatype Exception =
    | NullReference        // System.NullReferenceException
    | ArgumentNull         // System.ArgumentNullException
    | ArgumentOutOfRange   // System.ArgumentOutOfRangeException
    | Argument             // System.ArgumentException
    | IndexOutOfRange      // System.IndexOutOfRangeException
    | InvalidOperation     // System.InvalidOperationException
    | InvalidCast          // System.InvalidCastException
    | KeyNotFound          // System.Collections.Generic.KeyNotFoundException
    | Format               // System.FormatException
    | Overflow             // System.OverflowException
    | NotImplemented       // System.NotImplementedException
    | TargetParameterCount // System.Reflection.TargetParameterCountException

  /** Either the value a call returns or the exception it throws. */
  datatype Result<+R> = Ok(value: R) | Fail(error: Exception) {

    predicate IsFailure() {
      Fail?
    }

    function PropagateFailure<U>(): Result<U>
      requires Fail?
    {
      Fail(error)
    }

    function Extract(): R
      requires Ok?
    {
      value
    }
  }
}
